=== FILE: README.md ===
# kiv-bit-rsa in Dafny

This project models the algorithmic core of kiv-bit-rsa, a Python RSA and
MD5 implementation that signs files. The model has four parts:

- the MD5 digest object;
- the number theory used for keys: the Miller–Rabin test, the random prime
  and the modular inverse;
- RSA keys, key generation, and integer encryption and decryption;
- the signature record, which binds an encrypted digest to a hash method.

Every operation is a pure function or a method over immutable datatypes.
The random draws of the program become explicit inputs. Every place where
the Python code raises becomes a `Failure` with its own `Error` variant.

## Files

| file | module | contents |
|---|---|---|
| `wrappers.dfy` | `Wrappers` | `Result`, `Option` and the error variants |
| `bytes.dfy` | `Bytes` | little-endian words and integers, lowercase hex |
| `md5.dfy` | `Md5` | the digest object as the repository writes it |
| `rfc1321.dfy` | `Rfc1321` | an MD5 written after the RFC 1321 listings, sharing the round functions, rotation and sine table of `Md5` |
| `md5_conformance.dfy` | `Md5Conformance` | where the digest object and RFC 1321 agree |
| `md5_known_answers.dfy` | `Md5KnownAnswers` | the two known digests of the repository's tests |
| `modular.dfy` | `Modular` | powers, gcd and Bézout, Euclid's lemma, Fermat's little theorem |
| `math.dfy` | `Math` | `is_prime`, `get_random_prime`, `modular_multiplicative_inverse` |
| `key.dfy` | `Key` | `RsaKey`, `byte_size`, `encrypt_int`, `decrypt_int` |
| `rsa.dfy` | `Rsa` | `generate_keys`, `encrypt`, `decrypt`, and the RSA round trip |
| `signature.dfy` | `Sign` | `Signature`, `sign`, `verify` |

## The three MD5 revisions

The repository holds three copies of the same digest:

- `kiv_bit_rsa/hash/md5.py`, with `update`, `to_bytes`, `to_hex` and `_hash_chunk`;
- `kiv_bit_rsa/hashing/md5.py`, with `update`, `digest`, `hex_digest` and `_hash_block`;
- `kiv_bit_rsa/md5/md5.py`, the same names in a different order.

Their initial words, shift table, sine table and round functions match
line for line, and so do their padding loops and update loops. The block
size differs in form only: `hash/` and `hashing/` keep it in `_block_size`
(hash/md5.py:25, hashing/md5.py:13) and return it from `chunk_size` and
`block_size` (hash/md5.py:75, hashing/md5.py:59), while `md5/` writes the
literal 64 and has neither. Their compression loops compute the same values; the
`md5/` revision also prints the block and every intermediate state
(md5/md5.py:92 and 119) and sets `f` and `m` to 0 before each iteration
assigns them (md5/md5.py:95 and 97). One module, `Md5`,
models all three, and the table below cites the `hash/` revision. The
corresponding lines in the other two revisions are:

| operation | hash/md5.py | hashing/md5.py | md5/md5.py |
|---|---|---|---|
| constructor | 54-72 | 42-56 | 35-49 |
| `_f` .. `_i` | 122-184 | 105-158 | 51-65 |
| `_rotate_left` | 186-198 | 160-171 | 67-77 |
| compression | 200-240 | 173-209 | 79-121 |
| `_finalize` | 242-262 | 211-229 | 123-142 |
| `update` | 87-105 | 70-87 | 144-162 |
| bytes / hex | 107-120 | 89-102 | 164-176 |

## Where the code departs from the standards it names

- **MD5.** The code departs from RFC 1321 in two ways:
  - it compresses every block from the initial constants and adds the
    result into the state, where RFC 1321 (section 3.4) chains each block
    from the running state;
  - when 56 bytes or more are pending, it builds a 128-byte tail, and the
    compression reads only the first 64 bytes of it.

  `Md5` models the code as written. `Md5Conformance.ShortMessageAgrees`
  proves that on messages shorter than 56 bytes the two computations give
  the same digest. `Md5.FinalizeIgnoresSizeOfLongBuffer` proves that with a
  long tail the byte count has no effect.
- **Random primes.** The docstring of `get_random_prime` promises a prime of
  at most `n_bits` bits. The code takes `getrandbits(n_bits)` unchanged, so
  a candidate is any value in `[0, 2^n_bits)`, even values included.
- **Modular inverse.** The docstring of `modular_multiplicative_inverse`
  promises `None` when no inverse exists. With `n == 0` the loop ends with
  the remainder `a`, so `modular_multiplicative_inverse(1, 0)` returns 1 and
  `modular_multiplicative_inverse(0, 0)` returns 0. The result is `None`
  exactly when the final remainder, the gcd, exceeds 1.
- **Encryption.** The encryption schemes of RFC 8017 (sections 7.1 and 7.2)
  pad the message first. The code in `rsa.py` reads the message as a
  big-endian integer (OS2IP, section 4.2) and applies the bare RSA
  primitive `pow(m, e, n)` (RSAEP, section 5.1.1), without padding.
- **Verification.** The docstring of `verify` promises a boolean. When
  decryption raises, the exception propagates, and the model keeps it as a
  `Failure`.

## Model

| member | source | states |
|---|---|---|
| Md5.FSelectsBits | kiv_bit_rsa/hash/md5.py:122-136 | `_f` is bitwise choice: where b is set it copies c, elsewhere d |
| Md5.GSelectsBits | kiv_bit_rsa/hash/md5.py:138-152 | `_g` copies b where d is set and c elsewhere |
| Md5.HSelectsBits | kiv_bit_rsa/hash/md5.py:154-168 | `_h` copies d where b and c agree, and inverts d where they differ |
| Md5.ISelectsBits | kiv_bit_rsa/hash/md5.py:170-184 | `_i` inverts c where b is set or d is clear, and copies c elsewhere |
| Md5.RotateLeftMovesBits | kiv_bit_rsa/hash/md5.py:186-198 | the top `bits` bits come round to the bottom and the rest move up |
| Md5.RotateLeftInverse | kiv_bit_rsa/hash/md5.py:186-198 | rotating a further `32 - bits` restores the word |
| Md5.RotateLeftOnIntegers | kiv_bit_rsa/hash/md5.py:198 | the unbounded-integer shift followed by the mask equals the 32-bit rotation |
| Md5.MessageIndex | kiv_bit_rsa/hash/md5.py:221-232 | each round reads one of the 16 block words, and word i in the first phase |
| Md5.Step | kiv_bit_rsa/hash/md5.py:234-238 | an iteration moves d to a, b to c and c to d, and computes a new b |
| Md5.RoundsReadFirstSixteenWords | kiv_bit_rsa/hash/md5.py:215-232 | the 64 rounds depend only on the first 16 words of the unpacked input |
| Md5.HashChunkReadsFirstBlock | kiv_bit_rsa/hash/md5.py:200-240 | bytes beyond the first 64 of a 128-byte chunk do not change its hash |
| Md5.Pending | kiv_bit_rsa/hash/md5.py:96-105 | the buffer after an update is the suffix of old buffer plus data past the last full block |
| Md5.UpdateByte | kiv_bit_rsa/hash/md5.py:96-105 | one byte keeps the buffer shorter than a block and counts one more byte |
| Md5.Update | kiv_bit_rsa/hash/md5.py:87-105 | the count grows by the data length, the buffer is what is pending, and the state has absorbed every full block |
| Md5.New | kiv_bit_rsa/hash/md5.py:54-72 | a fresh object fed `data` counts its bytes, pends its last partial block and has absorbed its blocks |
| Md5.UpdateConcat | kiv_bit_rsa/hash/md5.py:87-105 | feeding x and then y equals feeding x + y: chunking does not matter |
| Md5.PadZeros | kiv_bit_rsa/hash/md5.py:251-253 | the zero loop stops at the first length that is 56 modulo 64, and adds only zeros |
| Md5.Tail | kiv_bit_rsa/hash/md5.py:248-256 | the tail is buffer, 0x80, zeros and the 8-byte bit count; 64 bytes when under 56 are pending, else 128; a bit count from 2^64 up fails |
| Md5.ShortTail | kiv_bit_rsa/hash/md5.py:248-256 | under 56 pending bytes the tail is exactly one padded 64-byte block |
| Md5.Finalize | kiv_bit_rsa/hash/md5.py:242-262 | finalisation fails exactly when the bit count does not fit in 64 bits |
| Md5.FinalizeIgnoresSizeOfLongBuffer | kiv_bit_rsa/hash/md5.py:256-258 | with 56 or more pending bytes the result does not depend on the byte count |
| Md5.WordsToBytes | kiv_bit_rsa/hash/md5.py:113 | the 16 digest bytes read back as little-endian words give a, b, c, d |
| Md5.ToBytes | kiv_bit_rsa/hash/md5.py:107-113 | the digest is 16 bytes whose words are the finalised state, and fails exactly when finalisation does |
| Md5.ToHex | kiv_bit_rsa/hash/md5.py:115-120 | the text is 32 lowercase hex digits that parse back to the digest bytes |
| Bytes.WordsOfBytesOfWords | kiv_bit_rsa/hash/md5.py:113 | unpacking the packed words gives the words back |
| Bytes.LeValueOfLeBytes | kiv_bit_rsa/hash/md5.py:256 | `pack("<Q", v)` read back as an integer is v for every v below 2^64 |
| Bytes.ParseHexOfHex | kiv_bit_rsa/hash/md5.py:120 | the hex text determines the bytes it was written from |
| Md5Conformance.MixIsOp | kiv_bit_rsa/hash/md5.py:234-238 | the loop's new b, `b + rotate(f + a + k + m, s)`, is the RFC 1321 operation `b + ((a + F(b,c,d) + X[k] + T[i]) <<< s)` |
| Md5Conformance.RoundsAgree | kiv_bit_rsa/hash/md5.py:217-238 | the 64 iterations compute the four rounds of section 3.4 of RFC 1321 |
| Md5Conformance.HashChunkIsCompress | kiv_bit_rsa/hash/md5.py:200-240 | one chunk hash added to the initial words is one RFC 1321 block chained from them |
| Md5Conformance.ShortTailIsPad | kiv_bit_rsa/hash/md5.py:248-256 | under 56 bytes the tail is the padding of sections 3.1 and 3.2 of RFC 1321 |
| Md5Conformance.ShortMessageAgrees | kiv_bit_rsa/hash/md5.py:242-262 | on messages under 56 bytes the digest object computes RFC 1321 MD5 (the round functions, rotation and sine table are shared with `Md5`, and the known digests check those; the step formula is the RFC's own) |
| Md5KnownAnswers.HelloWorldDigest | tests/hash/test_md5.py:11-13 | the hex digest of "Hello world!" is 86fb269d190d2c85f6e0468ceca42a20 |
| Md5KnownAnswers.DiacriticsDigest | tests/hash/test_md5.py:16-18 | the hex digest of the UTF-8 Czech text is f41562989870cb1427341bc4b8c1af35 |
| Modular.PowMod | kiv_bit_rsa/rsa/key.py:63 | reducing the base modulo n does not change a power modulo n, which is what three-argument `pow` relies on |
| Modular.GcdDivides | kiv_bit_rsa/rsa/rsa.py:31 | the gcd divides both arguments |
| Modular.CommonDivisorDividesGcd | kiv_bit_rsa/rsa/rsa.py:31 | every common divisor divides the gcd |
| Modular.Bezout | kiv_bit_rsa/math/math.py:87-96 | the gcd is an integer combination of its arguments |
| Modular.EuclidLemma | kiv_bit_rsa/math/math.py:52-57 | a prime dividing a product divides one factor |
| Modular.Fermat | kiv_bit_rsa/math/math.py:45-57 | a^(p-1) is 1 modulo a prime p that does not divide a |
| Modular.SquareRootOfOne | kiv_bit_rsa/math/math.py:52-57 | modulo a prime, the only square roots of 1 are 1 and p - 1 |
| Math.Halve | kiv_bit_rsa/math/math.py:38-43 | num - 1 = 2^r * s with s odd, and r >= 1 when num - 1 is even |
| Math.Rounds | kiv_bit_rsa/math/math.py:45-57 | the round loop passes exactly when every witness passes |
| Math.IsPrime | kiv_bit_rsa/math/math.py:11-59 | the error cases: certainty outside (0, 1), and 3 with a round to run; only 2 and odd numbers from 3 are accepted; 2, and 3 with no rounds, are accepted; an odd number from 5 is accepted exactly when every witness passes its Miller–Rabin round for num - 1 = 2^r * s |
| Math.SquaringStep | kiv_bit_rsa/math/math.py:53 | each `pow(x, 2, num)` squares the previous value modulo num |
| Math.ReachesMinusOne | kiv_bit_rsa/math/math.py:52-57 | modulo a prime, a squaring chain that reaches 1 meets p - 1 on the way |
| Math.PrimePassesRound | kiv_bit_rsa/math/math.py:46-57 | an odd prime passes the round for every witness in [2, p - 2] |
| Math.IsPrimeAcceptsPrimes | kiv_bit_rsa/math/math.py:11-59 | `is_prime` answers True for every prime |
| Math.RejectedIsNotPrime | kiv_bit_rsa/math/math.py:26-57 | a False answer means the number is not prime |
| Math.RandomPrime | kiv_bit_rsa/math/math.py:62-75 | the result is the first accepted draw, is at least 2 and below 2^n_bits, and every earlier draw was rejected; the draws run out exactly when all are rejected; the first draw that `is_prime` accepts or raises on ends the search with that candidate or that error |
| Math.RandomPrimeFindsPrime | kiv_bit_rsa/math/math.py:71-75 | a prime among the draws ends the search successfully |
| Math.FloorDiv | kiv_bit_rsa/math/math.py:94 | Python's `//`: the remainder has the sign of the divisor and is smaller in size |
| Math.ModularInverse | kiv_bit_rsa/math/math.py:78-104 | None exactly when gcd(n, a) > 1; otherwise a value in [0, n) with a * t = 1 modulo n |
| Math.GcdStep | kiv_bit_rsa/math/math.py:93-96 | one iteration keeps the gcd of the two remainders |
| Math.CongruenceStep | kiv_bit_rsa/math/math.py:95-96 | one iteration keeps t * a congruent to r modulo n for both pairs |
| Math.BoundStep | kiv_bit_rsa/math/math.py:93-96 | one iteration keeps the coefficients of opposite sign and at most n in size |
| Math.InverseInRange | kiv_bit_rsa/math/math.py:101-104 | adding n to a negative coefficient gives the inverse in [0, n) |
| Key.BitLength | kiv_bit_rsa/rsa/key.py:48 | `bit_length()`: x < 2^b, and 2^(b-1) <= x when x > 0 |
| Key.ByteSize | kiv_bit_rsa/rsa/key.py:42-48 | the modulus fits in `byte_size()` bytes and not in one fewer |
| Key.EncryptInt | kiv_bit_rsa/rsa/key.py:50-63 | OverflowError exactly when num >= mod; ValueError for a zero modulus; else the residue of num^exp below mod |
| Key.DecryptInt | kiv_bit_rsa/rsa/key.py:65-78 | `decrypt_int` computes the same thing as `encrypt_int` |
| Rsa.Os2ip | kiv_bit_rsa/rsa/rsa.py:56 | a big-endian value is below 256^length |
| Rsa.Os2ipLeadingByte | kiv_bit_rsa/rsa/rsa.py:56 | `from_bytes(b, 'big')` weighs the first byte by 256 to the power of the number of bytes after it |
| Rsa.I2osp | kiv_bit_rsa/rsa/rsa.py:79 | Python's `int.to_bytes(len, 'big')`, the inverse of the `from_bytes` that `decrypt` applies; no runnable path of the code calls it, and the model uses it only to state `Rsa.DecryptOfEncrypt`: len bytes whose big-endian value is x |
| Rsa.I2ospOfOs2ip | kiv_bit_rsa/rsa/rsa.py:56 | writing a byte string's value in its own length gives the string back |
| Rsa.Encrypt | kiv_bit_rsa/rsa/rsa.py:40-61 | `encrypt` is `encrypt_int` of the big-endian value, and fails exactly when that value is not below the modulus |
| Rsa.Decrypt | kiv_bit_rsa/rsa/rsa.py:64-84 | `decrypt` is `decrypt_int` of the big-endian value, and fails exactly when that value is not below the modulus |
| Rsa.FirstCoprime | kiv_bit_rsa/rsa/rsa.py:28-32 | the exponent is the first draw coprime with x; the draws run out exactly when none is |
| Rsa.KeysFromPrimes | kiv_bit_rsa/rsa/rsa.py:24-37 | `KeysFor`: randint fails when x = (p-1)(q-1) < 2; otherwise the draws run out exactly when none is coprime to x, and the keys share n = pq, e is the first coprime draw, d < x and e * d = 1 modulo x |
| Rsa.GenerateKeys | kiv_bit_rsa/rsa/rsa.py:11-37 | 'Key is too small' exactly when n_bits < 16; otherwise a failed prime search's error is passed on, and when both searches succeed the result is what `KeysFor` prescribes for the two primes drawn |
| Rsa.PowerRoundTrip | kiv_bit_rsa/rsa/rsa.py:54-84 | (m^e mod pq)^d mod pq = m for distinct primes when e * d = 1 modulo (p-1)(q-1) |
| Rsa.ValidKeysRoundTrip | kiv_bit_rsa/rsa/rsa.py:24-37 | with distinct primes, each generated key undoes the other on every integer below n |
| Rsa.DecryptOfEncrypt | kiv_bit_rsa/rsa/rsa.py:40-84 | a ciphertext written in `byte_size()` bytes decrypts to the message's value |
| Sign.Digest | kiv_bit_rsa/sign/signature.py:42 | the signable's digest is 16 bytes, and fails only when the bit count overflows |
| Sign.SignWith | kiv_bit_rsa/sign/signature.py:29-45 | the signature names the hash class and holds the encrypted digest; hashing or encryption errors propagate |
| Sign.Verify | kiv_bit_rsa/sign/signature.py:47-60 | true exactly when the decrypted cipher equals the fresh digest; a decryption error propagates first, and a digest error (from `to_bytes()` at line 60) only after a successful decryption |
| Sign.SignThenVerify | kiv_bit_rsa/sign/signature.py:42-60 | if decryption undoes encryption on digests, a signature verifies against the signable it was made from |
| Sign.OtherDigestRejected | kiv_bit_rsa/sign/signature.py:57-60 | a signable whose digest differs from the signed one is rejected |

## Left out

- Randomness. `getrandbits`, `randrange` and `randint` draws are inputs:
  - `Math.Draw` lists a candidate and its witnesses;
  - `Rsa.GenerateKeys` takes the exponent draws as a sequence.

  Where the program would keep drawing, the model fails with `DrawsExhausted`
  when its input runs out. That error is not raised by the program.
- The round count of `is_prime`. The code computes `-int(ceil(log(4, certainty)))`
  in floating point. The model takes the number of witnesses as the round
  count and checks only the range test on the certainty.
- Math.ModularInverse: says nothing for a negative `a` or `n`. The code
  runs on them, for instance `(-1, 5)` gives 1, but the contract covers
  only non-negative arguments. It claims an inverse below `n` only for
  `n >= 2`.
- Key.EncryptInt: key fields are `nat`. A negative exponent or modulus in
  a hand-written key file is not modelled.
- Key.ByteSize: uses integer arithmetic `(b + 7) / 8`. It does not model
  the floating-point division inside `math.ceil`, which is exact for every
  bit length below 2^53.
- `RsaKey.encrypt` and `RsaKey.decrypt` (kiv_bit_rsa/rsa/key.py:80-118).
  They refer to names that do not exist (`k`, `key_len`, `unpad_bytes`,
  `PlainText`), so they cannot run.
- Module plumbing. `rsa.py` imports `PrivateKey`, `PublicKey`,
  `random_prime` and `mod_inverse`, but the files shown define
  `RsaPrivateKey`, `RsaPublicKey`, `get_random_prime` and
  `modular_multiplicative_inverse`. The model uses the defined functions.
  Public and private keys are one `RsaKey` type.
- Rsa.GenerateKeys: does not promise the round trip for a generated pair,
  because the code does not keep `p` and `q` distinct. The round-trip
  lemmas require `p != q`.
- `Rsa()` of `signature.py`. It is not part of this model. Its `encrypt`
  and `decrypt` are function parameters of `Sign.SignWith` and
  `Sign.Verify`. Their round trip is the hypothesis `Sign.RoundTrips`.
- The signable. `kiv_bit_rsa/sign/signable.py` is not part of this model,
  and neither is its hash cache. A signable is its bytes. Its chunked read
  is one `update`, which `Md5.UpdateConcat` justifies.
- Serialisation and the command line: `key_formatter.py`,
  `signature_formatter.py` and `cli.py`. These are TOML and base64 wrappers
  and file I/O.
- Block order. As written, the digest sums block hashes, so swapping two
  full blocks does not change the state. This is not proved: it needs the
  associativity of 32-bit addition inside unfolded sums, and the verifier
  does not establish that within a reasonable proof effort.
- The debug output of the `md5/` revision: `print(block)` and
  `print(i, a, b, c, d)` in its compression (kiv_bit_rsa/md5/md5.py:92 and
  119). They write to standard output and change no value.
- `chunk_size` and the accessors `hash_method` and `hash_cipher`. They
  return a constant or constructor fields, and appear only as
  `Md5.BlockSize` and the `Signature` fields.
- Instantiation of the digest classes. The `hash/` class does not define
  the abstract `name` of `kiv_bit_rsa/hash/hash.py:32-37`, so `Md5(...)`
  there, `hash_class()` in `signable.py` and the tests of `tests/hash/`
  raise `TypeError`. The `md5/` class appends each element of its input to
  a `bytearray` (kiv_bit_rsa/md5/md5.py:153-154), so the `str` arguments of
  `tests/md5/test_md5.py` raise `TypeError` too. The model takes bytes
  only and follows the computation the three revisions share, which the
  `hashing/` class runs as written.

=== FILE: bytes.dfy ===
/** Byte-level encodings used by the digest: little-endian 32-bit words
    (`struct` format `<I`), little-endian unsigned integers of a fixed width
    (`<Q` is width 8) and lowercase hexadecimal text (`format(b, '>02x')`). */
module Bytes {

  type Byte = bv8
  type Word = bv32

  /** The byte whose value is `x`. */
  function ByteOf(x: int): (r: Byte)
    requires 0 <= x < 256
    ensures r as int == x
  {
    var hi, lo := Nibble(x / 16), Nibble(x % 16);
    JoinNibbles(hi, lo);
    (hi << 4) | lo
  }

  /** The byte holding a value below 16. */
  function Nibble(n: int): (r: Byte)
    requires 0 <= n < 16
    ensures r as int == n
  {
    if n == 0 then 0
    else if n == 1 then 1
    else if n == 2 then 2
    else if n == 3 then 3
    else if n == 4 then 4
    else if n == 5 then 5
    else if n == 6 then 6
    else if n == 7 then 7
    else if n == 8 then 8
    else if n == 9 then 9
    else if n == 10 then 10
    else if n == 11 then 11
    else if n == 12 then 12
    else if n == 13 then 13
    else if n == 14 then 14
    else 15
  }

  lemma JoinNibbles(hi: Byte, lo: Byte)
    requires hi < 16 && lo < 16
    ensures ((hi << 4) | lo) as int == 16 * hi as int + lo as int
  {
  }

  lemma ByteOfValue(b: Byte)
    ensures ByteOf(b as int) == b
  {
  }

  /** 256 to the power `n`. */
  function Pow256(n: nat): (r: nat)
    ensures r >= 1
  {
    if n == 0 then 1 else 256 * Pow256(n - 1)
  }

  // ---------------------------------------------------------------------------
  // Little-endian 32-bit words

  /** The word whose little-endian encoding is `b` (`struct.unpack("<I", b)`). */
  function WordOf(b: seq<Byte>): Word
    requires |b| == 4
  {
    (b[0] as Word) | ((b[1] as Word) << 8) | ((b[2] as Word) << 16) | ((b[3] as Word) << 24)
  }

  /** The four little-endian bytes of `w` (`struct.pack("<I", w)`). */
  function BytesOfWord(w: Word): (r: seq<Byte>)
    ensures |r| == 4
    ensures WordOf(r) == w
    ensures r[0] as Word == w & 0xff && r[3] as Word == w >> 24
  {
    [(w & 0xff) as Byte, ((w >> 8) & 0xff) as Byte, ((w >> 16) & 0xff) as Byte, (w >> 24) as Byte]
  }

  /** Decoding then encoding a 4-byte group gives the group back. */
  lemma BytesOfWordOf(b: seq<Byte>)
    requires |b| == 4
    ensures BytesOfWord(WordOf(b)) == b
  {
    var w := WordOf(b);
    ByteOfWord(b[0], b[1], b[2], b[3]);
    assert b == [b[0], b[1], b[2], b[3]];
  }

  lemma ByteOfWord(b0: Byte, b1: Byte, b2: Byte, b3: Byte)
    ensures var w := WordOf([b0, b1, b2, b3]);
      && (w & 0xff) as Byte == b0 && ((w >> 8) & 0xff) as Byte == b1
      && ((w >> 16) & 0xff) as Byte == b2 && (w >> 24) as Byte == b3
  {
  }

  /** The words of `b` read four bytes at a time (`struct.iter_unpack("<I", b)`). */
  function WordsOf(b: seq<Byte>): (r: seq<Word>)
    requires |b| % 4 == 0
    ensures |r| == |b| / 4
  {
    seq(|b| / 4, i requires 0 <= i < |b| / 4 => WordOf(b[4 * i .. 4 * i + 4]))
  }

  /** The first 16 words are read from the first 64 bytes. */
  lemma WordsOfFirstBlock(b: seq<Byte>)
    requires |b| % 4 == 0 && 64 <= |b|
    ensures WordsOf(b[..64]) == WordsOf(b)[..16]
  {
    forall j | 0 <= j < 16
      ensures WordsOf(b[..64])[j] == WordsOf(b)[j]
    {
      assert b[..64][4 * j .. 4 * j + 4] == b[4 * j .. 4 * j + 4];
    }
  }

  /** Reading words is compatible with concatenation on 4-byte boundaries. */
  lemma WordsOfAppend(a: seq<Byte>, b: seq<Byte>)
    requires |a| % 4 == 0 && |b| % 4 == 0
    ensures WordsOf(a + b) == WordsOf(a) + WordsOf(b)
  {
    var ab, n := a + b, |a| / 4;
    assert |a| == 4 * n;
    forall i | 0 <= i < |ab| / 4
      ensures WordsOf(ab)[i] == (WordsOf(a) + WordsOf(b))[i]
    {
      if i < n {
        assert ab[4 * i .. 4 * i + 4] == a[4 * i .. 4 * i + 4];
      } else {
        var j := i - n;
        assert 4 * i == |a| + 4 * j;
        assert ab[4 * i .. 4 * i + 4] == b[4 * j .. 4 * j + 4];
      }
    }
  }

  /** The concatenated little-endian encodings of `ws`
      (`b''.join(pack("<I", w) for w in ws)`). */
  function BytesOfWords(ws: seq<Word>): (r: seq<Byte>)
    ensures |r| == 4 * |ws|
  {
    if ws == [] then [] else BytesOfWord(ws[0]) + BytesOfWords(ws[1..])
  }

  lemma {:induction false} BytesOfWordsAt(ws: seq<Word>, i: nat)
    requires i < |ws|
    ensures BytesOfWords(ws)[4 * i .. 4 * i + 4] == BytesOfWord(ws[i])
  {
    if i > 0 {
      BytesOfWordsAt(ws[1..], i - 1);
      assert BytesOfWords(ws)[4 * i .. 4 * i + 4] == BytesOfWords(ws[1..])[4 * (i - 1) .. 4 * (i - 1) + 4];
    }
  }

  /** Reading back the words of an encoding gives the words. */
  lemma WordsOfBytesOfWords(ws: seq<Word>)
    ensures WordsOf(BytesOfWords(ws)) == ws
  {
    var r := WordsOf(BytesOfWords(ws));
    forall i | 0 <= i < |ws|
      ensures r[i] == ws[i]
    {
      BytesOfWordsAt(ws, i);
    }
  }

  // ---------------------------------------------------------------------------
  // Little-endian unsigned integers of a fixed width

  /** The value of `b` read as a little-endian unsigned integer. */
  function LeValue(b: seq<Byte>): (r: nat)
    ensures r < Pow256(|b|)
  {
    if b == [] then 0 else b[0] as int + 256 * LeValue(b[1..])
  }

  /** The `n` little-endian bytes of `x`, most significant part dropped
      beyond `n` bytes (the caller keeps `x < 256^n`). */
  function LeBytes(x: nat, n: nat): (r: seq<Byte>)
    ensures |r| == n
  {
    if n == 0 then [] else [ByteOf(x % 256)] + LeBytes(x / 256, n - 1)
  }

  /** `LeBytes` is the inverse of `LeValue` on values that fit. */
  lemma {:induction false} LeValueOfLeBytes(x: nat, n: nat)
    requires x < Pow256(n)
    ensures LeValue(LeBytes(x, n)) == x
  {
    if n > 0 {
      var b := LeBytes(x, n);
      assert x / 256 < Pow256(n - 1);
      LeValueOfLeBytes(x / 256, n - 1);
      assert b[1..] == LeBytes(x / 256, n - 1);
      assert b[0] as int == x % 256;
    }
  }

  lemma DivMod256(lo: nat, hi: nat)
    requires lo < 256
    ensures (lo + 256 * hi) % 256 == lo && (lo + 256 * hi) / 256 == hi
  {
  }

  /** `LeValue` is the inverse of `LeBytes`. */
  lemma {:induction false} LeBytesOfLeValue(b: seq<Byte>)
    ensures LeBytes(LeValue(b), |b|) == b
  {
    if b != [] {
      var lo, hi := b[0] as int, LeValue(b[1..]);
      assert LeValue(b) == lo + 256 * hi;
      DivMod256(lo, hi);
      ByteOfValue(b[0]);
      assert LeBytes(LeValue(b), |b|) == [ByteOf(lo)] + LeBytes(hi, |b| - 1);
      LeBytesOfLeValue(b[1..]);
      assert b == [b[0]] + b[1..];
    }
  }

  // ---------------------------------------------------------------------------
  // Lowercase hexadecimal

  predicate IsLowerHex(c: char) {
    '0' <= c <= '9' || 'a' <= c <= 'f'
  }

  /** The lowercase hex digit of a nibble. */
  function HexDigit(n: nat): (c: char)
    requires n < 16
    ensures IsLowerHex(c)
  {
    if n < 10 then ('0' as int + n) as char else ('a' as int + n - 10) as char
  }

  /** The nibble a lowercase hex digit stands for. */
  function HexValue(c: char): (n: nat)
    requires IsLowerHex(c)
    ensures n < 16 && HexDigit(n) == c
  {
    if '0' <= c <= '9' then c as int - '0' as int else c as int - 'a' as int + 10
  }

  /** The two lowercase hex digits of a byte, high nibble first (`format(b, '>02x')`). */
  function HexPair(b: Byte): (r: string)
    ensures |r| == 2 && IsLowerHex(r[0]) && IsLowerHex(r[1])
  {
    [HexDigit(b as int / 16), HexDigit(b as int % 16)]
  }

  /** The byte spelled by two lowercase hex digits. */
  function ByteOfPair(hi: char, lo: char): Byte
    requires IsLowerHex(hi) && IsLowerHex(lo)
  {
    ByteOf(16 * HexValue(hi) + HexValue(lo))
  }

  lemma ByteOfHexPair(b: Byte)
    ensures var p := HexPair(b); ByteOfPair(p[0], p[1]) == b
  {
    var hi, lo := b as int / 16, b as int % 16;
    HexValueOfDigit(hi);
    HexValueOfDigit(lo);
    assert 16 * hi + lo == b as int;
    ByteOfValue(b);
  }

  /** Two lowercase hex digits per byte. */
  function Hex(b: seq<Byte>): (r: string)
    ensures |r| == 2 * |b|
    ensures forall i :: 0 <= i < |r| ==> IsLowerHex(r[i])
  {
    if b == [] then [] else HexPair(b[0]) + Hex(b[1..])
  }

  /** Hex text of a concatenation is the concatenation of the hex texts. */
  lemma {:induction false} HexAppend(a: seq<Byte>, b: seq<Byte>)
    ensures Hex(a + b) == Hex(a) + Hex(b)
  {
    if a == [] {
      assert a + b == b;
    } else {
      assert (a + b)[1..] == a[1..] + b;
      HexAppend(a[1..], b);
    }
  }

  /** The bytes spelled by a lowercase hex string of even length. */
  function ParseHex(s: string): (r: seq<Byte>)
    requires |s| % 2 == 0
    requires forall i :: 0 <= i < |s| ==> IsLowerHex(s[i])
    ensures |r| == |s| / 2
  {
    if s == [] then [] else [ByteOfPair(s[0], s[1])] + ParseHex(s[2..])
  }

  lemma HexValueOfDigit(n: nat)
    requires n < 16
    ensures HexValue(HexDigit(n)) == n
  {
  }

  /** Hex text determines the bytes it was made from. */
  lemma {:induction false} ParseHexOfHex(b: seq<Byte>)
    ensures ParseHex(Hex(b)) == b
  {
    if b != [] {
      var h, p, t := Hex(b), HexPair(b[0]), Hex(b[1..]);
      assert h == p + t;
      assert h[0] == p[0] && h[1] == p[1] && h[2..] == t;
      ParseHexOfHex(b[1..]);
      ByteOfHexPair(b[0]);
    }
  }
}

=== FILE: key.dfy ===
/** `kiv_bit_rsa/rsa/key.py`: an RSA key is an exponent and a modulus, kept
    as given (the constructor validates nothing). */
module Key {
  import opened Wrappers
  import opened Modular
  import opened Bytes

  /** `RsaKey(exp, mod)`, the common base of the public and the private key;
      `exp` and `mod` are its two properties. */
  datatype RsaKey = RsaKey(exp: nat, mod: nat)

  /** `int.bit_length()`: the number of binary digits of `x`. */
  function BitLength(x: nat): (b: nat)
    ensures x < Pow(2, b)
    ensures x > 0 ==> b >= 1 && Pow(2, b - 1) <= x
    ensures x == 0 ==> b == 0
  {
    if x == 0 then 0
    else
      var b := BitLength(x / 2);
      assert Pow(2, b + 1) == 2 * Pow(2, b);
      assert b > 0 ==> Pow(2, b) == 2 * Pow(2, b - 1);
      b + 1
  }

  /** `byte_size()`, `ceil(bit_length / 8)`: the fewest bytes that hold the
      modulus. */
  function ByteSize(key: RsaKey): (n: nat)
    ensures key.mod < Pow256(n)
    ensures n > 0 ==> Pow256(n - 1) <= key.mod
  {
    var b := BitLength(key.mod);
    var n := (b + 7) / 8;
    BytesForBits(b, n);
    n
  }

  lemma BytesForBits(b: nat, n: nat)
    requires n == (b + 7) / 8
    ensures Pow(2, b) <= Pow256(n)
    ensures n > 0 ==> b >= 1 && Pow256(n - 1) <= Pow(2, b - 1)
  {
    PowMonotone(2, b, 8 * n);
    PowOfTwoAndBytes(n);
    if n > 0 {
      PowMonotone(2, 8 * (n - 1), b - 1);
      PowOfTwoAndBytes(n - 1);
    }
  }

  lemma {:induction false} PowOfTwoAndBytes(n: nat)
    ensures Pow(2, 8 * n) == Pow256(n)
  {
    if n > 0 {
      PowOfTwoAndBytes(n - 1);
      PowAdd(2, 8, 8 * (n - 1));
      assert 8 * n == 8 + 8 * (n - 1);
      assert Pow(2, 8) == 256;
    }
  }

  /** `encrypt_int(num)`: `OverflowError` unless `num < mod`, then
      `pow(num, exp, mod)`, whose `ValueError` for a zero modulus a negative
      `num` can still reach. */
  function EncryptInt(key: RsaKey, num: int): (r: Result<nat>)
    ensures r == Failure(TooBigForModulus) <==> num >= key.mod
    ensures r == Failure(ZeroModulus) <==> num < key.mod == 0
    ensures r.Success? ==> r.value < key.mod && (r.value - Pow(num, key.exp)) % key.mod == 0
  {
    if num >= key.mod then Failure(TooBigForModulus)
    else if key.mod == 0 then Failure(ZeroModulus)
    else
      var v := Pow(num, key.exp) % key.mod;
      ModSub(v, Pow(num, key.exp), key.mod);
      ModOfSmall(v, key.mod);
      Success(v)
  }

  /** `decrypt_int(num)`: the same guard and the same power as `encrypt_int`. */
  function DecryptInt(key: RsaKey, num: int): (r: Result<nat>)
    ensures r == EncryptInt(key, num)
  {
    if num >= key.mod then Failure(TooBigForModulus)
    else if key.mod == 0 then Failure(ZeroModulus)
    else Success(Pow(num, key.exp) % key.mod)
  }
}

=== FILE: math.dfy ===
/** `kiv_bit_rsa/math/math.py`: the Miller-Rabin test `is_prime`, the prime
    search `get_random_prime` and the extended-Euclid inverse
    `modular_multiplicative_inverse`. The package's `__init__.py` imports
    `random_prime` and `mod_inverse`, which this file does not define; the
    model uses the functions the file defines.

    The random draws are inputs: the witnesses of `randrange(2, num - 1)`, one
    per round, and the candidates of `getrandbits(n_bits)`. The number of
    rounds, which the code computes from the certainty with floating-point
    logarithms, is the number of witnesses supplied. */
module Math {
  import opened Wrappers
  import opened Modular

  /** The certainty every caller in the repository uses (the default). */
  const DefaultCertainty: real := 0.99

  // ---------------------------------------------------------------------------
  // is_prime

  /** Values `randrange(2, num - 1)` can produce: 2 to `num - 2`. */
  predicate Witnesses(num: int, witnesses: seq<int>) {
    forall i :: 0 <= i < |witnesses| ==> 2 <= witnesses[i] <= num - 2
  }

  /** The halving loop: `(r, s)` with `n == 2^r * s` and `s` odd. */
  function Halve(n: nat): (rs: (nat, nat))
    requires n > 0
    ensures Pow(2, rs.0) * rs.1 == n && rs.1 % 2 == 1
    ensures n % 2 == 0 ==> rs.0 >= 1
    decreases n
  {
    if n % 2 == 0 then
      var (r, s) := Halve(n / 2);
      assert Pow(2, r + 1) * s == 2 * (Pow(2, r) * s);
      (r + 1, s)
    else
      (0, n)
  }

  /** The loop `for _ in range(count)` of one round: whether squaring `x`
      modulo `num` reaches `num - 1` (the `break`) within `count` squarings. */
  function Squarings(x: int, num: int, count: nat): bool
    requires num >= 1
    decreases count
  {
    if count == 0 then false
    else
      var y := (x * x) % num;
      y == num - 1 || Squarings(y, num, count - 1)
  }

  /** One Miller-Rabin round with witness `a` on `num - 1 == 2^r * s`: the
      round continues (`True`) unless it reaches the `else: return False`. */
  predicate WitnessPasses(num: int, r: nat, s: nat, a: int)
    requires num >= 1 && r >= 1
  {
    var x := Pow(a, s) % num;
    x == 1 || x == num - 1 || Squarings(x, num, r - 1)
  }

  /** The loop `for _ in range(k)` over the rounds, stopping at the first
      round that returns `False`. */
  function Rounds(num: int, r: nat, s: nat, witnesses: seq<int>): (b: bool)
    requires num >= 1 && r >= 1
    ensures b <==> forall i :: 0 <= i < |witnesses| ==> WitnessPasses(num, r, s, witnesses[i])
  {
    if witnesses == [] then true
    else if !WitnessPasses(num, r, s, witnesses[0]) then false
    else
      var b := Rounds(num, r, s, witnesses[1..]);
      assert forall i :: 1 <= i < |witnesses| ==> witnesses[i] == witnesses[1..][i - 1];
      b
  }

  /** `is_prime(num, certainty)` with the round witnesses given. */
  function IsPrime(num: int, certainty: real, witnesses: seq<int>): (r: Result<bool>)
    requires num > 3 ==> Witnesses(num, witnesses)
    ensures r == Failure(CertaintyOutOfRange) <==> certainty <= 0.0 || certainty >= 1.0
    ensures r == Failure(EmptyWitnessRange) <==> 0.0 < certainty < 1.0 && num == 3 && |witnesses| > 0
    ensures r.Failure? ==> r.error in {CertaintyOutOfRange, EmptyWitnessRange}
    ensures r == Success(true) ==> num == 2 || (num >= 3 && num % 2 == 1)
    ensures 0.0 < certainty < 1.0 && num == 2 ==> r == Success(true)
    ensures 0.0 < certainty < 1.0 && num == 3 && witnesses == [] ==> r == Success(true)
    ensures 0.0 < certainty < 1.0 && num >= 5 && num % 2 == 1 ==> (r.Success?
      && (r.value <==> forall i :: 0 <= i < |witnesses| ==>
            WitnessPasses(num, Halve(num - 1).0, Halve(num - 1).1, witnesses[i])))
  {
    if certainty <= 0.0 || certainty >= 1.0 then Failure(CertaintyOutOfRange)
    else if num <= 1 then Success(false)
    else if num == 2 then Success(true)
    else if num % 2 == 0 then Success(false)
    else if num == 3 && |witnesses| > 0 then Failure(EmptyWitnessRange)
    else
      var (r, s) := Halve(num - 1);
      Success(Rounds(num, r, s, witnesses))
  }

  // ---------------------------------------------------------------------------
  // Soundness of the test: a prime passes every round

  /** `a^(s * 2^j) mod num`: the round's `x` after `j` squarings. */
  function Squared(a: int, s: nat, j: nat, num: int): int
    requires num >= 1
  {
    PowPositive(2, j);
    Pow(a, s * Pow(2, j)) % num
  }

  lemma SquaringStep(a: int, s: nat, j: nat, num: int)
    requires num >= 1
    ensures Squared(a, s, j + 1, num) == (Squared(a, s, j, num) * Squared(a, s, j, num)) % num
  {
    PowPositive(2, j);
    var e: nat := s * Pow(2, j);
    assert s * Pow(2, j + 1) == e * 2;
    PowMul(a, e, 2);
    var b := Pow(a, e);
    assert Pow(b, 1) == b;
    assert Pow(b, 2) == b * b;
    ModMul(b, b, num);
  }

  /** If `x` is not 1 after `i` squarings but is 1 after `i + c + 1`, a prime
      modulus makes it reach `num - 1` on the way. */
  lemma {:induction false} ReachesMinusOne(p: int, a: int, s: nat, i: nat, c: nat)
    requires Prime(p)
    requires Squared(a, s, i + c + 1, p) == 1 && Squared(a, s, i, p) != 1
    ensures Squared(a, s, i, p) == p - 1 || Squarings(Squared(a, s, i, p), p, c)
    decreases c
  {
    var x, y := Squared(a, s, i, p), Squared(a, s, i + 1, p);
    SquaringStep(a, s, i, p);
    if y == 1 {
      SquareRootOfOne(p, x);
    } else if y != p - 1 {
      ReachesMinusOne(p, a, s, i + 1, c - 1);
    }
  }

  /** Every witness in range lets an odd prime through its round. */
  lemma PrimePassesRound(p: int, r: nat, s: nat, a: int)
    requires Prime(p) && r >= 1 && Pow(2, r) * s == p - 1
    requires 2 <= a <= p - 2
    ensures WitnessPasses(p, r, s, a)
  {
    ModOfSmall(a, p);
    Fermat(a, p);
    assert s * Pow(2, r) == p - 1;
    assert Squared(a, s, r, p) == 1;
    assert Squared(a, s, 0, p) == Pow(a, s) % p;
    if Squared(a, s, 0, p) != 1 {
      ReachesMinusOne(p, a, s, 0, r - 1);
    }
  }

  /** `is_prime` accepts every prime it can answer for. */
  lemma IsPrimeAcceptsPrimes(num: int, certainty: real, witnesses: seq<int>)
    requires num > 3 ==> Witnesses(num, witnesses)
    requires Prime(num) && 0.0 < certainty < 1.0
    requires num == 3 ==> witnesses == []
    ensures IsPrime(num, certainty, witnesses) == Success(true)
  {
    if num > 2 {
      assert !Divides(2, num);
      assert (num - 1) % 2 == 0;
      var (r, s) := Halve(num - 1);
      forall i | 0 <= i < |witnesses|
        ensures WitnessPasses(num, r, s, witnesses[i])
      {
        PrimePassesRound(num, r, s, witnesses[i]);
      }
    }
  }

  /** So a `False` answer proves `num` composite (or below 2). */
  lemma RejectedIsNotPrime(num: int, certainty: real, witnesses: seq<int>)
    requires num > 3 ==> Witnesses(num, witnesses)
    requires IsPrime(num, certainty, witnesses) == Success(false)
    ensures !Prime(num)
  {
    if Prime(num) {
      IsPrimeAcceptsPrimes(num, certainty, witnesses);
    }
  }

  // ---------------------------------------------------------------------------
  // get_random_prime

  /** One pass of the search loop: the candidate `getrandbits(n_bits)` returned
      and the witnesses `is_prime` draws for it. */
  datatype Draw = Draw(candidate: int, witnesses: seq<int>)

  /** Draws the random sources can produce for `n_bits`. */
  predicate DrawsFor(nBits: nat, draws: seq<Draw>) {
    forall i :: 0 <= i < |draws| ==>
      0 <= draws[i].candidate < Pow(2, nBits)
      && (draws[i].candidate > 3 ==> Witnesses(draws[i].candidate, draws[i].witnesses))
  }

  /** A draw ends the search: `is_prime` accepts its candidate or raises. */
  predicate Decides(certainty: real, d: Draw)
    requires d.candidate > 3 ==> Witnesses(d.candidate, d.witnesses)
  {
    IsPrime(d.candidate, certainty, d.witnesses) != Success(false)
  }

  /** How a deciding draw ends the search: with its candidate when `is_prime`
      accepts it, with the error `is_prime` raises otherwise. */
  function Outcome(certainty: real, d: Draw): Result<nat>
    requires 0 <= d.candidate && (d.candidate > 3 ==> Witnesses(d.candidate, d.witnesses))
  {
    var v := IsPrime(d.candidate, certainty, d.witnesses);
    if v.Success? then Success(d.candidate) else Failure(v.error)
  }

  /** `get_random_prime(n_bits, certainty)` over the given draws: the first
      candidate `is_prime` accepts. */
  function RandomPrime(nBits: nat, certainty: real, draws: seq<Draw>): (r: Result<nat>)
    requires DrawsFor(nBits, draws)
    ensures r.Success? ==> 2 <= r.value < Pow(2, nBits)
    ensures r.Success? ==> exists i :: (0 <= i < |draws| && draws[i].candidate == r.value
      && IsPrime(r.value, certainty, draws[i].witnesses) == Success(true)
      && forall j :: 0 <= j < i ==> IsPrime(draws[j].candidate, certainty, draws[j].witnesses) == Success(false))
    ensures r == Failure(DrawsExhausted) <==>
      forall j :: 0 <= j < |draws| ==> IsPrime(draws[j].candidate, certainty, draws[j].witnesses) == Success(false)
    ensures r.Failure? ==> r.error in {CertaintyOutOfRange, EmptyWitnessRange, DrawsExhausted}
    ensures forall i :: (0 <= i < |draws| && Decides(certainty, draws[i])
                         && forall j :: 0 <= j < i ==> !Decides(certainty, draws[j])) ==>
        r == Outcome(certainty, draws[i])
  {
    if draws == [] then Failure(DrawsExhausted)
    else
      var d := draws[0];
      var accepted :- IsPrime(d.candidate, certainty, d.witnesses);
      if accepted then Success(d.candidate)
      else
        var r := RandomPrime(nBits, certainty, draws[1..]);
        assert forall j :: 1 <= j < |draws| ==> draws[j] == draws[1..][j - 1];
        r
  }

  /** A prime among the draws ends the search at it or earlier, unless the
      candidate 3 comes first with a round to run. */
  lemma {:induction false} RandomPrimeFindsPrime(nBits: nat, certainty: real, draws: seq<Draw>, i: nat)
    requires DrawsFor(nBits, draws) && 0.0 < certainty < 1.0
    requires i < |draws| && Prime(draws[i].candidate)
    requires forall j :: 0 <= j <= i && draws[j].candidate == 3 ==> draws[j].witnesses == []
    ensures RandomPrime(nBits, certainty, draws).Success?
  {
    var d := draws[0];
    if i == 0 {
      IsPrimeAcceptsPrimes(d.candidate, certainty, d.witnesses);
    } else if IsPrime(d.candidate, certainty, d.witnesses) == Success(false) {
      assert forall j :: 1 <= j < |draws| ==> draws[j] == draws[1..][j - 1];
      RandomPrimeFindsPrime(nBits, certainty, draws[1..], i - 1);
    } else if d.candidate == 3 {
      assert d.witnesses == [];
    }
  }

  // ---------------------------------------------------------------------------
  // modular_multiplicative_inverse

  /** Python's `//`: the quotient rounded towards negative infinity, so that
      the remainder takes the sign of the divisor. */
  function FloorDiv(x: int, y: int): (q: int)
    requires y != 0
    ensures y > 0 ==> 0 <= x - q * y < y
    ensures y < 0 ==> y < x - q * y <= 0
  {
    if y > 0 || x % y == 0 then x / y else x / y - 1
  }

  function Abs(x: int): nat {
    if x < 0 then -x else x
  }

  /** `modular_multiplicative_inverse(a, n)`: the extended Euclidean algorithm
      on `(n, a)`, tracking only the coefficients of `a`. */
  method ModularInverse(a: int, n: int) returns (inverse: Option<int>)
    ensures 0 <= a && 0 <= n ==> (inverse.None? <==> Gcd(n, a) > 1)
    ensures 0 <= a && 2 <= n && inverse.Some? ==> 0 <= inverse.value < n && (a * inverse.value) % n == 1
  {
    var t, newT := 0, 1;
    var r, newR := n, a;
    ghost var natural := 0 <= a && 0 <= n;
    while newR != 0
      invariant natural ==> 0 <= r && 0 <= newR && Gcd(r, newR) == Gcd(n, a)
      invariant n > 0 ==> (t * a - r) % n == 0 && (newT * a - newR) % n == 0
      invariant natural && n > 0 ==> 1 <= r && t * newT <= 0 && Abs(t) <= n
      invariant natural && n > 0 ==> Abs(newT) * r + Abs(t) * newR == n
      decreases Abs(newR)
    {
      var quotient := FloorDiv(r, newR);
      CongruenceStep(a, n, t, newT, r, newR, quotient);
      if natural {
        GcdStep(r, newR, quotient);
        if n > 0 {
          BoundStep(n, t, newT, r, newR, quotient);
        }
      }
      t, newT := newT, t - quotient * newT;
      r, newR := newR, r - quotient * newR;
    }
    if r > 1 {
      return None;
    }
    if natural && n >= 2 {
      InverseInRange(a, n, t);
    }
    if t < 0 {
      t := t + n;
    }
    return Some(t);
  }

  /** On non-negative values the loop is Euclid's algorithm. */
  lemma GcdStep(r: int, newR: int, q: int)
    requires 0 <= r && 0 < newR && q == FloorDiv(r, newR)
    ensures q == r / newR && r - q * newR == r % newR
    ensures Gcd(newR, r - q * newR) == Gcd(r, newR)
  {
  }

  /** The loop keeps `t * a == r` and `new_t * a == new_r` modulo `n`. */
  lemma CongruenceStep(a: int, n: int, t: int, newT: int, r: int, newR: int, q: int)
    requires n > 0 ==> (t * a - r) % n == 0 && (newT * a - newR) % n == 0
    ensures n > 0 ==> ((t - q * newT) * a - (r - q * newR)) % n == 0
  {
    if n > 0 {
      assert (t - q * newT) * a - (r - q * newR) == 1 * (t * a - r) + (-q) * (newT * a - newR);
      ModOfCombination(n, t * a - r, newT * a - newR, 1, -q);
    }
  }

  /** The coefficients alternate in sign and satisfy
      `|new_t| * r + |t| * new_r == n`, which bounds them by `n`. */
  lemma BoundStep(n: int, t: int, newT: int, r: int, newR: int, q: int)
    requires n > 0 && 1 <= r && 0 < newR && q == r / newR
    requires t * newT <= 0 && Abs(t) <= n && Abs(newT) * r + Abs(t) * newR == n
    ensures 0 <= r - q * newR
    ensures newT * (t - q * newT) <= 0 && Abs(newT) <= n
    ensures Abs(t - q * newT) * newR + Abs(newT) * (r - q * newR) == n
  {
    var A, B := Abs(t), Abs(newT);
    QuotientStep(r, newR, q);
    SignStep(t, newT, q);
    StepIdentity(A, B, q, r, newR);
    AtMostMultiple(B, r);
  }

  /** The quotient of a positive by a positive is non-negative, the remainder in range. */
  lemma QuotientStep(r: int, newR: int, q: int)
    requires 1 <= r && 0 < newR && q == r / newR
    ensures q >= 0 && 0 <= r - q * newR
  {
    assert r == newR * q + r % newR;
  }

  /** With `t` and `new_t` of opposite signs, `t - q * new_t` has the sign
      of `t` and magnitude `|t| + q * |new_t|`. */
  lemma SignStep(t: int, newT: int, q: int)
    requires q >= 0 && t * newT <= 0
    ensures Abs(t - q * newT) == Abs(t) + q * Abs(newT)
    ensures newT * (t - q * newT) <= 0
  {
    OppositeSigns(t, newT);
    if t >= 0 && newT <= 0 {
      assert t - q * newT == t + q * (-newT);
      NonPositiveTimes(newT, t - q * newT);
    } else {
      assert t - q * newT == -(-t + q * newT);
      NonPositiveTimes(t - q * newT, newT);
    }
  }

  lemma OppositeSigns(t: int, u: int)
    requires t * u <= 0
    ensures (t >= 0 && u <= 0) || (t <= 0 && u >= 0)
  {
  }

  lemma NonPositiveTimes(x: int, y: int)
    requires x <= 0 && y >= 0
    ensures x * y <= 0
  {
  }

  lemma StepIdentity(A: int, B: int, q: int, r: int, newR: int)
    ensures (A + q * B) * newR + B * (r - q * newR) == A * newR + B * r
  {
  }

  lemma AtMostMultiple(b: int, r: int)
    requires b >= 0 && r >= 1
    ensures b <= b * r
  {
  }

  /** A coefficient with `t * a == 1 (mod n)` and `|t| <= n`, shifted by `n`
      when negative, is the inverse in `0 .. n - 1`. */
  lemma InverseInRange(a: int, n: int, t: int)
    requires n >= 2 && (t * a - 1) % n == 0 && Abs(t) <= n
    ensures var v := if t < 0 then t + n else t; 0 <= v < n && (a * v) % n == 1
  {
    ModOfSmall(1, n);
    ModSub(t * a, 1, n);
    var v := if t < 0 then t + n else t;
    assert a * v == t * a + n * (if t < 0 then a else 0);
    ModAddMultiple(t * a, if t < 0 then a else 0, n);
    MultipleMinusOne(a, n);
  }

  /** `n * a` is never 1 modulo `n`, so the coefficient is never `n` itself. */
  lemma MultipleMinusOne(a: int, n: int)
    requires n >= 2
    ensures (n * a - 1) % n != 0
  {
    assert n * a - 1 == n * (a - 1) + (n - 1);
    DivModUnique(n * a - 1, n, a - 1, n - 1);
  }
}

=== FILE: md5.dfy ===
/** The MD5 digest object as the repository implements it
    (kiv_bit_rsa/hash/md5.py; the hashing/ and md5/ packages repeat the
    same algorithm under the names `_hash_block`, `digest` and `hex_digest`).

    A digest object is a byte buffer kept shorter than one 64-byte block, a
    count of the bytes fed so far and four 32-bit state words. Feeding bytes
    compresses every block that fills up and adds the result into the state
    word by word. Unlike RFC 1321, every block is compressed starting from
    the fixed initial words rather than from the running state, and the
    final tail is compressed in one call that reads only its first 16 words.
    Python integers masked with `& 0xffffffff` are modelled as `bv32`. */
module Md5 {
  import opened Bytes
  import opened Wrappers

  /** Size in bytes of the block the compression consumes (`_block_size`). */
  const BlockSize: nat := 64

  /** The four 32-bit words a, b, c, d. */
  datatype Words = Words(a: Word, b: Word, c: Word, d: Word)

  /** `_a_init` .. `_d_init`. */
  const Initial: Words := Words(0x67452301, 0xefcdab89, 0x98badcfe, 0x10325476)

  /** A left-rotation amount; every entry of `_s` lies in 4 .. 23. */
  type Shift = s: Word | 4 <= s <= 23 witness 4

  /** Per-round left-rotation amounts (`_s`). */
  const S: seq<Shift> := [
    7, 12, 17, 22, 7, 12, 17, 22, 7, 12, 17, 22, 7, 12, 17, 22] + [
    5, 9, 14, 20, 5, 9, 14, 20, 5, 9, 14, 20, 5, 9, 14, 20] + [
    4, 11, 16, 23, 4, 11, 16, 23, 4, 11, 16, 23, 4, 11, 16, 23] + [
    6, 10, 15, 21, 6, 10, 15, 21, 6, 10, 15, 21, 6, 10, 15, 21]

  /** Per-round additive constants (`_k`). */
  const K: seq<Word> := [
    0xd76aa478, 0xe8c7b756, 0x242070db, 0xc1bdceee,
    0xf57c0faf, 0x4787c62a, 0xa8304613, 0xfd469501,
    0x698098d8, 0x8b44f7af, 0xffff5bb1, 0x895cd7be,
    0x6b901122, 0xfd987193, 0xa679438e, 0x49b40821] + [
    0xf61e2562, 0xc040b340, 0x265e5a51, 0xe9b6c7aa,
    0xd62f105d, 0x02441453, 0xd8a1e681, 0xe7d3fbc8,
    0x21e1cde6, 0xc33707d6, 0xf4d50d87, 0x455a14ed,
    0xa9e3e905, 0xfcefa3f8, 0x676f02d9, 0x8d2a4c8a] + [
    0xfffa3942, 0x8771f681, 0x6d9d6122, 0xfde5380c,
    0xa4beea44, 0x4bdecfa9, 0xf6bb4b60, 0xbebfbc70,
    0x289b7ec6, 0xeaa127fa, 0xd4ef3085, 0x04881d05,
    0xd9d4d039, 0xe6db99e5, 0x1fa27cf8, 0xc4ac5665] + [
    0xf4292244, 0x432aff97, 0xab9423a7, 0xfc93a039,
    0x655b59c3, 0x8f0ccc92, 0xffeff47d, 0x85845dd1,
    0x6fa87e4f, 0xfe2ce6e0, 0xa3014314, 0x4e0811a1,
    0xf7537e82, 0xbd3af235, 0x2ad7d2bb, 0xeb86d391]

  // ---------------------------------------------------------------------------
  // Auxiliary functions of section 3.4 of RFC 1321. `kiv_bit_rsa/hash/md5.py` writes NOT x as
  // x ^ 0xffffffff; the lemmas below state the RFC's bitwise reading with `!`.
  // The contracts live in lemmas so that the compression's unfoldings do not
  // carry them.

  /** `_f` */
  function F(b: Word, c: Word, d: Word): Word {
    (b & c) | ((b ^ 0xffffffff) & d)
  }

  /** `_g` */
  function G(b: Word, c: Word, d: Word): Word {
    (b & d) | (c & (d ^ 0xffffffff))
  }

  /** `_h` */
  function H(b: Word, c: Word, d: Word): Word {
    b ^ c ^ d
  }

  /** `_i` */
  function I(b: Word, c: Word, d: Word): Word {
    c ^ (b | (d ^ 0xffffffff))
  }

  /** Where b is set F copies c, elsewhere it copies d. */
  lemma FSelectsBits(b: Word, c: Word, d: Word)
    ensures F(b, c, d) & b == c & b && F(b, c, d) & !b == d & !b
  {
  }

  /** Where d is set G copies b, elsewhere it copies c. */
  lemma GSelectsBits(b: Word, c: Word, d: Word)
    ensures G(b, c, d) & d == b & d && G(b, c, d) & !d == c & !d
  {
  }

  /** Where b and c agree H copies d, where they differ it inverts d. */
  lemma HSelectsBits(b: Word, c: Word, d: Word)
    ensures H(b, c, d) & !(b ^ c) == d & !(b ^ c) && H(b, c, d) & (b ^ c) == !d & (b ^ c)
  {
  }

  /** Where b is set or d is clear I inverts c, elsewhere it copies c. */
  lemma ISelectsBits(b: Word, c: Word, d: Word)
    ensures I(b, c, d) & (b | !d) == !c & (b | !d) && I(b, c, d) & !(b | !d) == c & !(b | !d)
  {
  }

  /** `_rotate_left` in 32-bit arithmetic. */
  function RotateLeft(num: Word, bits: Word): Word
    requires 1 <= bits <= 31
  {
    (num << bits) | (num >> (32 - bits))
  }

  /** The top `bits` bits of `num` come round to the bottom and the
      remaining bits move up by `bits`. */
  lemma RotateLeftMovesBits(num: Word, bits: Word)
    requires 1 <= bits <= 31
    ensures RotateLeft(num, bits) >> bits == num & (0xffffffff >> bits)
    ensures RotateLeft(num, bits) & (0xffffffff >> (32 - bits)) == num >> (32 - bits)
  {
  }

  /** Rotating on by the remaining `32 - bits` positions restores `num`. */
  lemma RotateLeftInverse(num: Word, bits: Word)
    requires 1 <= bits <= 31
    ensures RotateLeft(RotateLeft(num, bits), 32 - bits) == num
  {
  }

  /** The same rotation computed as `_rotate_left` does on unbounded integers:
      the shifted value may need up to 63 bits before the final mask, so a
      64-bit vector holds it exactly. */
  lemma RotateLeftOnIntegers(num: Word, bits: Word)
    requires 1 <= bits <= 31
    ensures ((((num as bv64) << bits) | ((num as bv64) >> (32 - bits))) & 0xffffffff) as Word
            == RotateLeft(num, bits)
  {
  }

  // ---------------------------------------------------------------------------
  // Compression

  /** The message word read in round `i`: i, (5i+1) mod 16, (3i+5) mod 16 and
      7i mod 16 in the four phases. */
  function MessageIndex(i: nat): (g: nat)
    requires i < 64
    ensures g < 16
    ensures i < 16 ==> g == i
  {
    if i < 16 then i
    else if i < 32 then (5 * i + 1) % 16
    else if i < 48 then (3 * i + 5) % 16
    else (7 * i) % 16
  }

  /** The nonlinear function of round `i`. */
  function RoundFunction(i: nat, w: Words): Word
    requires i < 64
  {
    if i < 16 then F(w.b, w.c, w.d)
    else if i < 32 then G(w.b, w.c, w.d)
    else if i < 48 then H(w.b, w.c, w.d)
    else I(w.b, w.c, w.d)
  }

  /** The new b of one iteration: `b + _rotate_left((f + a + k + m) & 0xffffffff, s)`. */
  function Mix(f: Word, a: Word, b: Word, k: Word, m: Word, s: Word): Word
    requires 1 <= s <= 31
  {
    b + RotateLeft(f + a + k + m, s)
  }

  /** One iteration of the 64-round loop of `_hash_chunk`, reading message word `x`. */
  function Step(i: nat, w: Words, x: Word): (r: Words)
    requires i < 64
    ensures r.a == w.d && r.c == w.b && r.d == w.c
  {
    Words(w.d, Mix(RoundFunction(i, w), w.a, w.b, K[i], x, S[i]), w.b, w.c)
  }

  /** Round `i` over the message words `m`. */
  function Round(m: seq<Word>, i: nat, w: Words): Words
    requires 16 <= |m| && i < 64
  {
    Step(i, w, m[MessageIndex(i)])
  }

  /** Rounds `i` .. 63 applied to `w`. */
  function Rounds(m: seq<Word>, i: nat, w: Words): Words
    requires 16 <= |m| && i <= 64
    decreases 64 - i
  {
    if i == 64 then w else Rounds(m, i + 1, Round(m, i, w))
  }

  /** The compression reads only the first 16 words of its input. */
  lemma {:induction false} RoundsReadFirstSixteenWords(m: seq<Word>, m': seq<Word>, i: nat, w: Words)
    requires 16 <= |m| && 16 <= |m'| && i <= 64 && m[..16] == m'[..16]
    ensures Rounds(m, i, w) == Rounds(m', i, w)
    decreases 64 - i
  {
    if i < 64 {
      var g := MessageIndex(i);
      assert m[g] == m[..16][g] == m'[..16][g] == m'[g];
      assert Round(m, i, w) == Round(m', i, w);
      RoundsReadFirstSixteenWords(m, m', i + 1, Round(m, i, w));
    }
  }

  /** `_hash_chunk`: the 64 rounds over the little-endian words of `chunk`,
      started from the initial constants (not from the running state).
      The tail passed by `_finalize` may be 128 bytes long; only its first
      64 bytes are read. */
  function HashChunk(chunk: seq<Byte>): Words
    requires |chunk| == 64 || |chunk| == 128
  {
    Rounds(WordsOf(chunk), 0, Initial)
  }

  /** Bytes beyond the first 64 do not affect the chunk hash. */
  lemma HashChunkReadsFirstBlock(chunk: seq<Byte>)
    requires |chunk| == 64 || |chunk| == 128
    ensures HashChunk(chunk) == HashChunk(chunk[..64])
  {
    var m, m' := WordsOf(chunk), WordsOf(chunk[..64]);
    WordsOfFirstBlock(chunk);
    assert m'[..16] == m';
    RoundsReadFirstSixteenWords(m, m', 0, Initial);
  }

  /** Word-wise addition modulo 2^32 (`(s + h) & 0xffffffff`). */
  function Add(s: Words, h: Words): Words {
    Words(s.a + h.a, s.b + h.b, s.c + h.c, s.d + h.d)
  }

  /** Adding a full block into the state (`update`, lines 101-103): the
      chunk hash, computed from the initial words, is added word-wise. */
  function Absorb(s: Words, block: seq<Byte>): Words
    requires |block| == BlockSize
  {
    Add(s, HashChunk(block))
  }

  /** Reference for the running state: every complete 64-byte block of
      `data`, in order, absorbed into `s`. */
  function BlockSum(s: Words, data: seq<Byte>): Words
    decreases |data|
  {
    if |data| < BlockSize then s else BlockSum(Absorb(s, data[..BlockSize]), data[BlockSize..])
  }

  /** The bytes of `data` after its last complete block. */
  function Pending(data: seq<Byte>): (r: seq<Byte>)
    ensures |r| == |data| % BlockSize
    ensures r == data[|data| - |r| ..]
    decreases |data|
  {
    if |data| < BlockSize then data
    else
      var tail := data[BlockSize..];
      var r := Pending(tail);
      ModAfterBlock(|tail|);
      SuffixOfSuffix(data, BlockSize, |r|);
      r
  }

  lemma SuffixOfSuffix(data: seq<Byte>, k: nat, n: nat)
    requires k + n <= |data|
    ensures data[k..][|data| - k - n ..] == data[|data| - n ..]
  {
  }

  lemma ModAfterBlock(n: nat)
    ensures (n + 64) % 64 == n % 64
  {
  }

  // ---------------------------------------------------------------------------
  // The digest object

  /** The fields `_buffer`, `_size` and `_state`. */
  datatype Hasher = Hasher(buffer: seq<Byte>, size: nat, state: Words)

  /** The buffer never holds a whole block between calls. */
  predicate Valid(h: Hasher) {
    |h.buffer| < BlockSize
  }

  /** A digest object before any data (`Md5()`). */
  const Empty: Hasher := Hasher([], 0, Initial)

  /** One iteration of the byte loop of `update`: append the byte, count it,
      and absorb and clear the buffer once it holds a block. */
  function UpdateByte(h: Hasher, x: Byte): (r: Hasher)
    requires Valid(h)
    ensures Valid(r) && r.size == h.size + 1
  {
    var buffer := h.buffer + [x];
    if |buffer| == BlockSize then Hasher([], h.size + 1, Absorb(h.state, buffer))
    else Hasher(buffer, h.size + 1, h.state)
  }

  /** `update(data)`: the byte count grows by `|data|`, the buffer holds what
      follows the last complete block of old buffer plus data, and the state
      has absorbed every complete block of old buffer plus data. */
  function Update(h: Hasher, data: seq<Byte>): (r: Hasher)
    requires Valid(h)
    ensures Valid(r)
    ensures r.size == h.size + |data|
    ensures r.buffer == Pending(h.buffer + data)
    ensures r.state == BlockSum(h.state, h.buffer + data)
    decreases |data|
  {
    if data == [] then h
    else
      UpdateByteStep(h, data);
      Update(UpdateByte(h, data[0]), data[1..])
  }

  /** Feeding byte `x` moves it from the input into the buffer, or absorbs
      the block it completes, without changing what is pending or absorbed
      overall. */
  lemma UpdateByteStep(h: Hasher, data: seq<Byte>)
    requires Valid(h) && data != []
    ensures var h' := UpdateByte(h, data[0]);
      && Pending(h'.buffer + data[1..]) == Pending(h.buffer + data)
      && BlockSum(h'.state, h'.buffer + data[1..]) == BlockSum(h.state, h.buffer + data)
  {
    var x, rest, all := data[0], data[1..], h.buffer + data;
    assert (h.buffer + [x]) + rest == all;
    if |h.buffer| + 1 == BlockSize {
      assert all[..BlockSize] == h.buffer + [x] && all[BlockSize..] == rest;
      assert [] + rest == rest;
    }
  }

  /** `Md5(data)`: a fresh digest object fed `data` when `data` is not empty. */
  function New(data: seq<Byte>): (r: Hasher)
    ensures Valid(r) && r.size == |data|
    ensures r.buffer == Pending(data) && r.state == BlockSum(Initial, data)
  {
    if data == [] then Empty else
      assert Empty.buffer + data == data;
      Update(Empty, data)
  }

  /** Streaming: feeding `x` and then `y` leaves the object exactly as feeding
      `x + y` in one call. */
  lemma {:induction false} UpdateConcat(h: Hasher, x: seq<Byte>, y: seq<Byte>)
    requires Valid(h)
    ensures Update(Update(h, x), y) == Update(h, x + y)
    decreases |x|
  {
    if x == [] {
      assert x + y == y;
    } else {
      assert (x + y)[0] == x[0];
      assert (x + y)[1..] == x[1..] + y;
      UpdateConcat(UpdateByte(h, x[0]), x[1..], y);
    }
  }

  // ---------------------------------------------------------------------------
  // Finalisation

  /** `n` zero bytes. */
  function Zeros(n: nat): (r: seq<Byte>)
    ensures |r| == n
  {
    seq(n, _ => 0)
  }

  /** The zero-padding loop of `_finalize`: the shortest extension of `block`
      by zero bytes whose length is 56 modulo 64. */
  function PadZeros(block: seq<Byte>): (r: seq<Byte>)
    ensures |r| % 64 == 56 && |block| <= |r| < |block| + 64
    ensures r == block + Zeros(|r| - |block|)
    decreases (120 - |block| % 64) % 64
  {
    if |block| % 64 == 56 then block
    else
      PadZerosStep(|block|);
      var r := PadZeros(block + [0]);
      ZerosAfterZero(block, |r| - |block| - 1);
      r
  }

  lemma ZerosAfterZero(block: seq<Byte>, n: nat)
    ensures (block + [0]) + Zeros(n) == block + Zeros(n + 1)
  {
    assert Zeros(n + 1) == [0] + Zeros(n);
  }

  /** Each appended byte moves the length one step closer to 56 modulo 64. */
  lemma PadZerosStep(n: nat)
    requires n % 64 != 56
    ensures (120 - (n + 1) % 64) % 64 < (120 - n % 64) % 64
    ensures (n + 1) % 64 == 56 ==> (120 - n % 64) % 64 == 1
  {
    var k := n % 64;
    NextResidue(n);
    Gap(k);
    Gap(if k == 63 then 0 else k + 1);
  }

  /** The residue of `n + 1` modulo 64 follows that of `n`. */
  lemma NextResidue(n: nat)
    ensures (n + 1) % 64 == if n % 64 == 63 then 0 else n % 64 + 1
  {
    var q, k := n / 64, n % 64;
    assert n == 64 * q + k;
    if k == 63 {
      assert n + 1 == 64 * (q + 1);
    } else {
      assert n + 1 == 64 * q + (k + 1);
    }
  }

  /** The number of bytes from residue `k` up to residue 56. */
  lemma Gap(k: int)
    requires 0 <= k < 64
    ensures (120 - k) % 64 == if k <= 56 then 56 - k else 120 - k
  {
    if k <= 56 {
      assert 120 - k == 64 + (56 - k);
    }
  }

  /** The padded length is 56 when the buffer and marker fit before the
      length field, and 120 otherwise. */
  lemma PaddedLength(n: nat, m: nat)
    requires 1 <= n <= 64 && m % 64 == 56 && n <= m < n + 64
    ensures m == if n <= 56 then 56 else 120
  {
    var q := m / 64;
    assert m == 64 * q + 56;
    assert q < 2;
  }

  lemma EightBytes()
    ensures Pow256(8) == LengthLimit
  {
  }

  /** Upper bound of the bit count `pack("<Q", ...)` accepts. */
  const LengthLimit: nat := 0x1_0000_0000_0000_0000

  /** The block `_finalize` compresses: the buffer, the byte 0x80, zeros up to
      56 modulo 64 and the bit count as 8 little-endian bytes. Packing a bit
      count of 2^64 or more fails. */
  function Tail(buffer: seq<Byte>, size: nat): (r: Result<seq<Byte>>)
    requires |buffer| < 64
    ensures r.Failure? <==> size * 8 >= LengthLimit
    ensures r.Failure? ==> r.error == LengthTooLarge
    ensures r.Success? ==> var t := r.value;
      && |t| == (if |buffer| < 56 then 64 else 128)
      && t[..|buffer| + 1] == buffer + [0x80]
      && t[|buffer| + 1 .. |t| - 8] == Zeros(|t| - 9 - |buffer|)
      && LeValue(t[|t| - 8 ..]) == size * 8
  {
    if size * 8 >= LengthLimit then Failure(LengthTooLarge)
    else
      var padded := PadZeros(buffer + [0x80]);
      var t := padded + LeBytes(size * 8, 8);
      PaddedLength(|buffer| + 1, |padded|);
      assert t[|t| - 8 ..] == LeBytes(size * 8, 8);
      EightBytes();
      LeValueOfLeBytes(size * 8, 8);
      assert t[..|buffer| + 1] == padded[..|buffer| + 1];
      assert t[|buffer| + 1 .. |t| - 8] == padded[|buffer| + 1 ..];
      Success(t)
  }

  /** A buffer shorter than 56 bytes gives a single-block tail. */
  lemma ShortTail(buffer: seq<Byte>, size: nat)
    requires |buffer| < 56 && size * 8 < LengthLimit
    ensures Tail(buffer, size) == Success(buffer + [0x80] + Zeros(55 - |buffer|) + LeBytes(size * 8, 8))
  {
    var t, n := Tail(buffer, size).value, |buffer|;
    LeBytesOfLeValue(t[56..]);
    assert t == t[..n + 1] + t[n + 1 .. 56] + t[56..];
  }

  /** `_finalize`: the state plus the chunk hash of the tail. Only the
      first 64 bytes of a 128-byte tail are read. */
  function Finalize(h: Hasher): (r: Result<Words>)
    requires Valid(h)
    ensures r.Failure? <==> h.size * 8 >= LengthLimit
  {
    var tail :- Tail(h.buffer, h.size);
    Success(Add(h.state, HashChunk(tail)))
  }

  /** The four words as 16 bytes, each word little-endian (`pack("<I", i)`). */
  function WordsToBytes(w: Words): (r: seq<Byte>)
    ensures |r| == 16 && WordsOf(r) == [w.a, w.b, w.c, w.d]
  {
    var ws := [w.a, w.b, w.c, w.d];
    WordsOfBytesOfWords(ws);
    BytesOfWords(ws)
  }

  /** `to_bytes`: the final words as 16 bytes. */
  function ToBytes(h: Hasher): (r: Result<seq<Byte>>)
    requires Valid(h)
    ensures r.Failure? <==> h.size * 8 >= LengthLimit
    ensures r.Success? ==> |r.value| == 16
    ensures r.Success? ==> WordsOf(r.value) == var w := Finalize(h).value; [w.a, w.b, w.c, w.d]
  {
    var w :- Finalize(h);
    Success(WordsToBytes(w))
  }

  /** `to_hex`: two lowercase hex digits per digest byte. */
  function ToHex(h: Hasher): (r: Result<string>)
    requires Valid(h)
    ensures r.Failure? <==> ToBytes(h).Failure?
    ensures r.Success? ==>
      && |r.value| == 32
      && (forall i :: 0 <= i < 32 ==> IsLowerHex(r.value[i]))
      && ParseHex(r.value) == ToBytes(h).value
  {
    var b :- ToBytes(h);
    ParseHexOfHex(b);
    Success(Hex(b))
  }

  /** When the buffer holds 56 bytes or more the length field lands in the
      second half of the tail, which `_hash_chunk` never reads: the digest
      does not depend on the byte count. */
  lemma FinalizeIgnoresSizeOfLongBuffer(h: Hasher, size': nat)
    requires Valid(h) && 56 <= |h.buffer|
    requires h.size * 8 < LengthLimit && size' * 8 < LengthLimit
    ensures Finalize(h) == Finalize(Hasher(h.buffer, size', h.state))
  {
    var t, t' := Tail(h.buffer, h.size).value, Tail(h.buffer, size').value;
    assert t[..64] == t'[..64] by {
      assert t[..|h.buffer| + 1] == t'[..|h.buffer| + 1];
      assert t[|h.buffer| + 1 .. 120] == t'[|h.buffer| + 1 .. 120];
      assert t[..64] == t[..|h.buffer| + 1][..] + t[|h.buffer| + 1 .. 120][..63 - |h.buffer|];
      assert t'[..64] == t'[..|h.buffer| + 1][..] + t'[|h.buffer| + 1 .. 120][..63 - |h.buffer|];
    }
    HashChunkReadsFirstBlock(t);
    HashChunkReadsFirstBlock(t');
  }
}

=== FILE: md5_conformance.dfy ===
/** The repository's digest object against the RFC 1321 reference: its 64
    iterations compute the RFC's four rounds, and on messages shorter than
    56 bytes, where one padded block is compressed from the initial words,
    its digest is RFC 1321 MD5. */
module Md5Conformance {
  import opened Bytes
  import opened Wrappers
  import Md5
  import opened Rfc1321

  /** The function of the round that holds step `i`. */
  function AuxOf(i: nat): Aux {
    if i < 16 then F else if i < 32 then G else if i < 48 then H else I
  }

  /** The repository's step `i` is the RFC's operation with the registers
      renamed: the new b is `[abcd]` applied to the old a, b, c, d. */
  lemma StepIsOp(i: nat, w: Md5.Words, x: Word, f: Aux)
    requires i < 64 && Md5.RoundFunction(i, w) == Apply(f, w.b, w.c, w.d)
    ensures Md5.Step(i, w, x) == Md5.Words(w.d, Op(f, w.a, w.b, w.c, w.d, x, Md5.S[i], Md5.K[i]), w.b, w.c)
  {
    MixIsOp(f, w.a, w.b, w.c, w.d, Md5.K[i], x, Md5.S[i]);
  }

  /** The loop's `b + _rotate_left(f + a + k + m, s)` is the RFC's
      `b + ((a + f(b, c, d) + X[k] + T[i]) <<< s)`: the four addends are the same. */
  lemma MixIsOp(f: Aux, a: Word, b: Word, c: Word, d: Word, k: Word, m: Word, s: Word)
    requires 1 <= s <= 31
    ensures Md5.Mix(Apply(f, b, c, d), a, b, k, m, s) == Op(f, a, b, c, d, m, s, k)
  {
  }

  /** The repository selects the round's function by the step's phase. */
  lemma RoundFunctionIsAux(i: nat, w: Md5.Words)
    requires i < 64
    ensures Md5.RoundFunction(i, w) == Apply(AuxOf(i), w.b, w.c, w.d)
  {
  }

  /** Iteration `i` of the repository's loop is the RFC's operation on
      message word `k` with shift `s`, when the schedule picks `k` and `s`. */
  lemma OpAgrees(m: seq<Word>, i: nat, w: Md5.Words, k: nat, s: Word)
    requires |m| == 16 && i < 64 && k < 16 && Md5.MessageIndex(i) == k && Md5.S[i] == s
    ensures Md5.Round(m, i, w) == Md5.Words(w.d, Op(AuxOf(i), w.a, w.b, w.c, w.d, m[k], s, Md5.K[i]), w.b, w.c)
  {
    RoundFunctionIsAux(i, w);
    StepIsOp(i, w, m[k], AuxOf(i));
  }

  /** Four iterations of the loop, taken one at a time. */
  lemma FourRounds(m: seq<Word>, i: nat, w: Md5.Words)
    requires |m| == 16 && i + 4 <= 64
    ensures Md5.Rounds(m, i, w)
         == Md5.Rounds(m, i + 4, Md5.Round(m, i + 3, Md5.Round(m, i + 2, Md5.Round(m, i + 1, Md5.Round(m, i, w)))))
  {
    var w1 := Md5.Round(m, i, w);
    var w2 := Md5.Round(m, i + 1, w1);
    var w3 := Md5.Round(m, i + 2, w2);
    assert Md5.Rounds(m, i, w) == Md5.Rounds(m, i + 1, w1);
    assert Md5.Rounds(m, i + 1, w1) == Md5.Rounds(m, i + 2, w2);
    assert Md5.Rounds(m, i + 2, w2) == Md5.Rounds(m, i + 3, w3);
  }

  // One lemma per line of the RFC's listing: iterations 4q .. 4q+3 of the
  // repository's loop perform quartet q.

  lemma Quartet0Agrees(m: seq<Word>, w: Md5.Words)
    requires |m| == 16
    ensures Md5.Round(m, 3, Md5.Round(m, 2, Md5.Round(m, 1, Md5.Round(m, 0, w))))
         == Quartet(F, m, w, 0, [0, 1, 2, 3], [7, 12, 17, 22])
  {
    var a := Op(F, w.a, w.b, w.c, w.d, m[0], 7, Md5.K[0]);
    var d := Op(F, w.d, a, w.b, w.c, m[1], 12, Md5.K[1]);
    var c := Op(F, w.c, d, a, w.b, m[2], 17, Md5.K[2]);
    OpAgrees(m, 0, w, 0, 7);
    OpAgrees(m, 1, Md5.Words(w.d, a, w.b, w.c), 1, 12);
    OpAgrees(m, 2, Md5.Words(w.c, d, a, w.b), 2, 17);
    OpAgrees(m, 3, Md5.Words(w.b, c, d, a), 3, 22);
  }

  lemma Quartet1Agrees(m: seq<Word>, w: Md5.Words)
    requires |m| == 16
    ensures Md5.Round(m, 7, Md5.Round(m, 6, Md5.Round(m, 5, Md5.Round(m, 4, w))))
         == Quartet(F, m, w, 4, [4, 5, 6, 7], [7, 12, 17, 22])
  {
    var a := Op(F, w.a, w.b, w.c, w.d, m[4], 7, Md5.K[4]);
    var d := Op(F, w.d, a, w.b, w.c, m[5], 12, Md5.K[5]);
    var c := Op(F, w.c, d, a, w.b, m[6], 17, Md5.K[6]);
    OpAgrees(m, 4, w, 4, 7);
    OpAgrees(m, 5, Md5.Words(w.d, a, w.b, w.c), 5, 12);
    OpAgrees(m, 6, Md5.Words(w.c, d, a, w.b), 6, 17);
    OpAgrees(m, 7, Md5.Words(w.b, c, d, a), 7, 22);
  }

  lemma Quartet2Agrees(m: seq<Word>, w: Md5.Words)
    requires |m| == 16
    ensures Md5.Round(m, 11, Md5.Round(m, 10, Md5.Round(m, 9, Md5.Round(m, 8, w))))
         == Quartet(F, m, w, 8, [8, 9, 10, 11], [7, 12, 17, 22])
  {
    var a := Op(F, w.a, w.b, w.c, w.d, m[8], 7, Md5.K[8]);
    var d := Op(F, w.d, a, w.b, w.c, m[9], 12, Md5.K[9]);
    var c := Op(F, w.c, d, a, w.b, m[10], 17, Md5.K[10]);
    OpAgrees(m, 8, w, 8, 7);
    OpAgrees(m, 9, Md5.Words(w.d, a, w.b, w.c), 9, 12);
    OpAgrees(m, 10, Md5.Words(w.c, d, a, w.b), 10, 17);
    OpAgrees(m, 11, Md5.Words(w.b, c, d, a), 11, 22);
  }

  lemma Quartet3Agrees(m: seq<Word>, w: Md5.Words)
    requires |m| == 16
    ensures Md5.Round(m, 15, Md5.Round(m, 14, Md5.Round(m, 13, Md5.Round(m, 12, w))))
         == Quartet(F, m, w, 12, [12, 13, 14, 15], [7, 12, 17, 22])
  {
    var a := Op(F, w.a, w.b, w.c, w.d, m[12], 7, Md5.K[12]);
    var d := Op(F, w.d, a, w.b, w.c, m[13], 12, Md5.K[13]);
    var c := Op(F, w.c, d, a, w.b, m[14], 17, Md5.K[14]);
    OpAgrees(m, 12, w, 12, 7);
    OpAgrees(m, 13, Md5.Words(w.d, a, w.b, w.c), 13, 12);
    OpAgrees(m, 14, Md5.Words(w.c, d, a, w.b), 14, 17);
    OpAgrees(m, 15, Md5.Words(w.b, c, d, a), 15, 22);
  }

  lemma Quartet4Agrees(m: seq<Word>, w: Md5.Words)
    requires |m| == 16
    ensures Md5.Round(m, 19, Md5.Round(m, 18, Md5.Round(m, 17, Md5.Round(m, 16, w))))
         == Quartet(G, m, w, 16, [1, 6, 11, 0], [5, 9, 14, 20])
  {
    var a := Op(G, w.a, w.b, w.c, w.d, m[1], 5, Md5.K[16]);
    var d := Op(G, w.d, a, w.b, w.c, m[6], 9, Md5.K[17]);
    var c := Op(G, w.c, d, a, w.b, m[11], 14, Md5.K[18]);
    OpAgrees(m, 16, w, 1, 5);
    OpAgrees(m, 17, Md5.Words(w.d, a, w.b, w.c), 6, 9);
    OpAgrees(m, 18, Md5.Words(w.c, d, a, w.b), 11, 14);
    OpAgrees(m, 19, Md5.Words(w.b, c, d, a), 0, 20);
  }

  lemma Quartet5Agrees(m: seq<Word>, w: Md5.Words)
    requires |m| == 16
    ensures Md5.Round(m, 23, Md5.Round(m, 22, Md5.Round(m, 21, Md5.Round(m, 20, w))))
         == Quartet(G, m, w, 20, [5, 10, 15, 4], [5, 9, 14, 20])
  {
    var a := Op(G, w.a, w.b, w.c, w.d, m[5], 5, Md5.K[20]);
    var d := Op(G, w.d, a, w.b, w.c, m[10], 9, Md5.K[21]);
    var c := Op(G, w.c, d, a, w.b, m[15], 14, Md5.K[22]);
    OpAgrees(m, 20, w, 5, 5);
    OpAgrees(m, 21, Md5.Words(w.d, a, w.b, w.c), 10, 9);
    OpAgrees(m, 22, Md5.Words(w.c, d, a, w.b), 15, 14);
    OpAgrees(m, 23, Md5.Words(w.b, c, d, a), 4, 20);
  }

  lemma Quartet6Agrees(m: seq<Word>, w: Md5.Words)
    requires |m| == 16
    ensures Md5.Round(m, 27, Md5.Round(m, 26, Md5.Round(m, 25, Md5.Round(m, 24, w))))
         == Quartet(G, m, w, 24, [9, 14, 3, 8], [5, 9, 14, 20])
  {
    var a := Op(G, w.a, w.b, w.c, w.d, m[9], 5, Md5.K[24]);
    var d := Op(G, w.d, a, w.b, w.c, m[14], 9, Md5.K[25]);
    var c := Op(G, w.c, d, a, w.b, m[3], 14, Md5.K[26]);
    OpAgrees(m, 24, w, 9, 5);
    OpAgrees(m, 25, Md5.Words(w.d, a, w.b, w.c), 14, 9);
    OpAgrees(m, 26, Md5.Words(w.c, d, a, w.b), 3, 14);
    OpAgrees(m, 27, Md5.Words(w.b, c, d, a), 8, 20);
  }

  lemma Quartet7Agrees(m: seq<Word>, w: Md5.Words)
    requires |m| == 16
    ensures Md5.Round(m, 31, Md5.Round(m, 30, Md5.Round(m, 29, Md5.Round(m, 28, w))))
         == Quartet(G, m, w, 28, [13, 2, 7, 12], [5, 9, 14, 20])
  {
    var a := Op(G, w.a, w.b, w.c, w.d, m[13], 5, Md5.K[28]);
    var d := Op(G, w.d, a, w.b, w.c, m[2], 9, Md5.K[29]);
    var c := Op(G, w.c, d, a, w.b, m[7], 14, Md5.K[30]);
    OpAgrees(m, 28, w, 13, 5);
    OpAgrees(m, 29, Md5.Words(w.d, a, w.b, w.c), 2, 9);
    OpAgrees(m, 30, Md5.Words(w.c, d, a, w.b), 7, 14);
    OpAgrees(m, 31, Md5.Words(w.b, c, d, a), 12, 20);
  }

  lemma Quartet8Agrees(m: seq<Word>, w: Md5.Words)
    requires |m| == 16
    ensures Md5.Round(m, 35, Md5.Round(m, 34, Md5.Round(m, 33, Md5.Round(m, 32, w))))
         == Quartet(H, m, w, 32, [5, 8, 11, 14], [4, 11, 16, 23])
  {
    var a := Op(H, w.a, w.b, w.c, w.d, m[5], 4, Md5.K[32]);
    var d := Op(H, w.d, a, w.b, w.c, m[8], 11, Md5.K[33]);
    var c := Op(H, w.c, d, a, w.b, m[11], 16, Md5.K[34]);
    OpAgrees(m, 32, w, 5, 4);
    OpAgrees(m, 33, Md5.Words(w.d, a, w.b, w.c), 8, 11);
    OpAgrees(m, 34, Md5.Words(w.c, d, a, w.b), 11, 16);
    OpAgrees(m, 35, Md5.Words(w.b, c, d, a), 14, 23);
  }

  lemma Quartet9Agrees(m: seq<Word>, w: Md5.Words)
    requires |m| == 16
    ensures Md5.Round(m, 39, Md5.Round(m, 38, Md5.Round(m, 37, Md5.Round(m, 36, w))))
         == Quartet(H, m, w, 36, [1, 4, 7, 10], [4, 11, 16, 23])
  {
    var a := Op(H, w.a, w.b, w.c, w.d, m[1], 4, Md5.K[36]);
    var d := Op(H, w.d, a, w.b, w.c, m[4], 11, Md5.K[37]);
    var c := Op(H, w.c, d, a, w.b, m[7], 16, Md5.K[38]);
    OpAgrees(m, 36, w, 1, 4);
    OpAgrees(m, 37, Md5.Words(w.d, a, w.b, w.c), 4, 11);
    OpAgrees(m, 38, Md5.Words(w.c, d, a, w.b), 7, 16);
    OpAgrees(m, 39, Md5.Words(w.b, c, d, a), 10, 23);
  }

  lemma Quartet10Agrees(m: seq<Word>, w: Md5.Words)
    requires |m| == 16
    ensures Md5.Round(m, 43, Md5.Round(m, 42, Md5.Round(m, 41, Md5.Round(m, 40, w))))
         == Quartet(H, m, w, 40, [13, 0, 3, 6], [4, 11, 16, 23])
  {
    var a := Op(H, w.a, w.b, w.c, w.d, m[13], 4, Md5.K[40]);
    var d := Op(H, w.d, a, w.b, w.c, m[0], 11, Md5.K[41]);
    var c := Op(H, w.c, d, a, w.b, m[3], 16, Md5.K[42]);
    OpAgrees(m, 40, w, 13, 4);
    OpAgrees(m, 41, Md5.Words(w.d, a, w.b, w.c), 0, 11);
    OpAgrees(m, 42, Md5.Words(w.c, d, a, w.b), 3, 16);
    OpAgrees(m, 43, Md5.Words(w.b, c, d, a), 6, 23);
  }

  lemma Quartet11Agrees(m: seq<Word>, w: Md5.Words)
    requires |m| == 16
    ensures Md5.Round(m, 47, Md5.Round(m, 46, Md5.Round(m, 45, Md5.Round(m, 44, w))))
         == Quartet(H, m, w, 44, [9, 12, 15, 2], [4, 11, 16, 23])
  {
    var a := Op(H, w.a, w.b, w.c, w.d, m[9], 4, Md5.K[44]);
    var d := Op(H, w.d, a, w.b, w.c, m[12], 11, Md5.K[45]);
    var c := Op(H, w.c, d, a, w.b, m[15], 16, Md5.K[46]);
    OpAgrees(m, 44, w, 9, 4);
    OpAgrees(m, 45, Md5.Words(w.d, a, w.b, w.c), 12, 11);
    OpAgrees(m, 46, Md5.Words(w.c, d, a, w.b), 15, 16);
    OpAgrees(m, 47, Md5.Words(w.b, c, d, a), 2, 23);
  }

  lemma Quartet12Agrees(m: seq<Word>, w: Md5.Words)
    requires |m| == 16
    ensures Md5.Round(m, 51, Md5.Round(m, 50, Md5.Round(m, 49, Md5.Round(m, 48, w))))
         == Quartet(I, m, w, 48, [0, 7, 14, 5], [6, 10, 15, 21])
  {
    var a := Op(I, w.a, w.b, w.c, w.d, m[0], 6, Md5.K[48]);
    var d := Op(I, w.d, a, w.b, w.c, m[7], 10, Md5.K[49]);
    var c := Op(I, w.c, d, a, w.b, m[14], 15, Md5.K[50]);
    OpAgrees(m, 48, w, 0, 6);
    OpAgrees(m, 49, Md5.Words(w.d, a, w.b, w.c), 7, 10);
    OpAgrees(m, 50, Md5.Words(w.c, d, a, w.b), 14, 15);
    OpAgrees(m, 51, Md5.Words(w.b, c, d, a), 5, 21);
  }

  lemma Quartet13Agrees(m: seq<Word>, w: Md5.Words)
    requires |m| == 16
    ensures Md5.Round(m, 55, Md5.Round(m, 54, Md5.Round(m, 53, Md5.Round(m, 52, w))))
         == Quartet(I, m, w, 52, [12, 3, 10, 1], [6, 10, 15, 21])
  {
    var a := Op(I, w.a, w.b, w.c, w.d, m[12], 6, Md5.K[52]);
    var d := Op(I, w.d, a, w.b, w.c, m[3], 10, Md5.K[53]);
    var c := Op(I, w.c, d, a, w.b, m[10], 15, Md5.K[54]);
    OpAgrees(m, 52, w, 12, 6);
    OpAgrees(m, 53, Md5.Words(w.d, a, w.b, w.c), 3, 10);
    OpAgrees(m, 54, Md5.Words(w.c, d, a, w.b), 10, 15);
    OpAgrees(m, 55, Md5.Words(w.b, c, d, a), 1, 21);
  }

  lemma Quartet14Agrees(m: seq<Word>, w: Md5.Words)
    requires |m| == 16
    ensures Md5.Round(m, 59, Md5.Round(m, 58, Md5.Round(m, 57, Md5.Round(m, 56, w))))
         == Quartet(I, m, w, 56, [8, 15, 6, 13], [6, 10, 15, 21])
  {
    var a := Op(I, w.a, w.b, w.c, w.d, m[8], 6, Md5.K[56]);
    var d := Op(I, w.d, a, w.b, w.c, m[15], 10, Md5.K[57]);
    var c := Op(I, w.c, d, a, w.b, m[6], 15, Md5.K[58]);
    OpAgrees(m, 56, w, 8, 6);
    OpAgrees(m, 57, Md5.Words(w.d, a, w.b, w.c), 15, 10);
    OpAgrees(m, 58, Md5.Words(w.c, d, a, w.b), 6, 15);
    OpAgrees(m, 59, Md5.Words(w.b, c, d, a), 13, 21);
  }

  lemma Quartet15Agrees(m: seq<Word>, w: Md5.Words)
    requires |m| == 16
    ensures Md5.Round(m, 63, Md5.Round(m, 62, Md5.Round(m, 61, Md5.Round(m, 60, w))))
         == Quartet(I, m, w, 60, [4, 11, 2, 9], [6, 10, 15, 21])
  {
    var a := Op(I, w.a, w.b, w.c, w.d, m[4], 6, Md5.K[60]);
    var d := Op(I, w.d, a, w.b, w.c, m[11], 10, Md5.K[61]);
    var c := Op(I, w.c, d, a, w.b, m[2], 15, Md5.K[62]);
    OpAgrees(m, 60, w, 4, 6);
    OpAgrees(m, 61, Md5.Words(w.d, a, w.b, w.c), 11, 10);
    OpAgrees(m, 62, Md5.Words(w.c, d, a, w.b), 2, 15);
    OpAgrees(m, 63, Md5.Words(w.b, c, d, a), 9, 21);
  }

  /** Iterations 0 .. 15 of the repository's loop perform round 1. */
  lemma Round1Agrees(m: seq<Word>, w: Md5.Words)
    requires |m| == 16
    ensures Md5.Rounds(m, 0, w) == Md5.Rounds(m, 16, Round1(m, w))
  {
    var w1 := Quartet(F, m, w, 0, [0, 1, 2, 3], [7, 12, 17, 22]);
    var w2 := Quartet(F, m, w1, 4, [4, 5, 6, 7], [7, 12, 17, 22]);
    var w3 := Quartet(F, m, w2, 8, [8, 9, 10, 11], [7, 12, 17, 22]);
    FourRounds(m, 0, w);
    Quartet0Agrees(m, w);
    FourRounds(m, 4, w1);
    Quartet1Agrees(m, w1);
    FourRounds(m, 8, w2);
    Quartet2Agrees(m, w2);
    FourRounds(m, 12, w3);
    Quartet3Agrees(m, w3);
  }

  /** Iterations 16 .. 31 of the repository's loop perform round 2. */
  lemma Round2Agrees(m: seq<Word>, w: Md5.Words)
    requires |m| == 16
    ensures Md5.Rounds(m, 16, w) == Md5.Rounds(m, 32, Round2(m, w))
  {
    var w1 := Quartet(G, m, w, 16, [1, 6, 11, 0], [5, 9, 14, 20]);
    var w2 := Quartet(G, m, w1, 20, [5, 10, 15, 4], [5, 9, 14, 20]);
    var w3 := Quartet(G, m, w2, 24, [9, 14, 3, 8], [5, 9, 14, 20]);
    FourRounds(m, 16, w);
    Quartet4Agrees(m, w);
    FourRounds(m, 20, w1);
    Quartet5Agrees(m, w1);
    FourRounds(m, 24, w2);
    Quartet6Agrees(m, w2);
    FourRounds(m, 28, w3);
    Quartet7Agrees(m, w3);
  }

  /** Iterations 32 .. 47 of the repository's loop perform round 3. */
  lemma Round3Agrees(m: seq<Word>, w: Md5.Words)
    requires |m| == 16
    ensures Md5.Rounds(m, 32, w) == Md5.Rounds(m, 48, Round3(m, w))
  {
    var w1 := Quartet(H, m, w, 32, [5, 8, 11, 14], [4, 11, 16, 23]);
    var w2 := Quartet(H, m, w1, 36, [1, 4, 7, 10], [4, 11, 16, 23]);
    var w3 := Quartet(H, m, w2, 40, [13, 0, 3, 6], [4, 11, 16, 23]);
    FourRounds(m, 32, w);
    Quartet8Agrees(m, w);
    FourRounds(m, 36, w1);
    Quartet9Agrees(m, w1);
    FourRounds(m, 40, w2);
    Quartet10Agrees(m, w2);
    FourRounds(m, 44, w3);
    Quartet11Agrees(m, w3);
  }

  /** Iterations 48 .. 63 of the repository's loop perform round 4. */
  lemma Round4Agrees(m: seq<Word>, w: Md5.Words)
    requires |m| == 16
    ensures Md5.Rounds(m, 48, w) == Md5.Rounds(m, 64, Round4(m, w))
  {
    var w1 := Quartet(I, m, w, 48, [0, 7, 14, 5], [6, 10, 15, 21]);
    var w2 := Quartet(I, m, w1, 52, [12, 3, 10, 1], [6, 10, 15, 21]);
    var w3 := Quartet(I, m, w2, 56, [8, 15, 6, 13], [6, 10, 15, 21]);
    FourRounds(m, 48, w);
    Quartet12Agrees(m, w);
    FourRounds(m, 52, w1);
    Quartet13Agrees(m, w1);
    FourRounds(m, 56, w2);
    Quartet14Agrees(m, w2);
    FourRounds(m, 60, w3);
    Quartet15Agrees(m, w3);
  }

  /** The repository's 64 iterations compute the RFC's four rounds. */
  lemma RoundsAgree(m: seq<Word>, w: Md5.Words)
    requires |m| == 16
    ensures Md5.Rounds(m, 0, w) == Round4(m, Round3(m, Round2(m, Round1(m, w))))
  {
    var w1 := Round1(m, w);
    var w2 := Round2(m, w1);
    var w3 := Round3(m, w2);
    Round1Agrees(m, w);
    Round2Agrees(m, w1);
    Round3Agrees(m, w2);
    Round4Agrees(m, w3);
  }

  /** One call of `_hash_chunk`, added to the initial words, is one block of
      the RFC chained from the initial words. */
  lemma HashChunkIsCompress(block: seq<Byte>)
    requires |block| == 64
    ensures Md5.Add(Md5.Initial, Md5.HashChunk(block)) == Compress(Md5.Initial, block)
  {
    RoundsAgree(WordsOf(block), Md5.Initial);
  }

  /** A message shorter than 56 bytes is padded to one block, by the
      repository exactly as by the RFC. */
  lemma ShortTailIsPad(msg: seq<Byte>)
    requires |msg| < 56
    ensures Md5.Tail(msg, |msg|) == Success(Pad(msg))
  {
    ShortPad(msg);
    Md5.ShortTail(msg, |msg|);
    PaddedIs(msg, 55 - |msg|, |msg| * 8);
  }

  /** Under 56 bytes the RFC's padding is 0x80, then 55 - n zeros, then the bit count. */
  lemma ShortPad(msg: seq<Byte>)
    requires |msg| < 56
    ensures Pad(msg) == Padded(msg, 55 - |msg|, |msg| * 8)
  {
    var n := |msg|;
    assert ZeroCount(n) == 55 - n;
    assert BitCount(n) == n * 8;
  }

  lemma PaddedIs(msg: seq<Byte>, zeros: nat, bits: nat)
    ensures Padded(msg, zeros, bits) == msg + [0x80] + Md5.Zeros(zeros) + LeBytes(bits, 8)
  {
  }

  /** A 64-byte message is one block. */
  lemma ChainOneBlock(state: Md5.Words, block: seq<Byte>)
    requires |block| == 64
    ensures Chain(state, block) == Compress(state, block)
  {
    assert block[..64] == block && block[64..] == [];
  }

  /** On a message shorter than 56 bytes the digest object computes RFC 1321
      MD5: such a message never fills a block, and its single padded block
      is compressed from the initial words, which is also the RFC's chaining
      value for a first block. `Rfc1321` shares the round functions, the
      rotation and the sine table with `Md5`, so this lemma checks the step
      formula, the message schedule, the shifts, the padding and the chaining;
      the known digests of
      `Md5KnownAnswers` check the shared primitives. */
  lemma ShortMessageAgrees(msg: seq<Byte>)
    requires |msg| < 56
    ensures Md5.Finalize(Md5.New(msg)) == Success(DigestWords(msg))
    ensures Md5.ToBytes(Md5.New(msg)) == Success(Digest(msg))
  {
    var h := Md5.New(msg);
    assert h == Md5.Hasher(msg, |msg|, Md5.Initial);
    ShortTailIsPad(msg);
    HashChunkIsCompress(Pad(msg));
    ChainOneBlock(Md5.Initial, Pad(msg));
  }
}

=== FILE: md5_known_answers.dfy ===
/** The known answers of the repository's digest tests: "Hello world!" and
    a 20-byte UTF-8 text with Czech diacritics. Both are shorter than 56
    bytes, so each is one padded block compressed from the initial words. */
module Md5KnownAnswers {
  import opened Bytes
  import opened Wrappers
  import Md5

  /** `n` zero words. */
  function ZeroWords(n: nat): (r: seq<Word>)
    ensures |r| == n && forall i | 0 <= i < n :: r[i] == 0
  {
    seq(n, _ => 0)
  }

  lemma WordsOfZeros(n: nat)
    ensures WordsOf(Md5.Zeros(4 * n)) == ZeroWords(n)
  {
    var z := Md5.Zeros(4 * n);
    forall i | 0 <= i < n
      ensures WordsOf(z)[i] == 0
    {
      assert z[4 * i .. 4 * i + 4] == [0, 0, 0, 0];
    }
  }

  /** The words of the tail of a short buffer whose length is a multiple of 4. */
  lemma ShortTailWords(buffer: seq<Byte>, size: nat)
    requires |buffer| < 56 && |buffer| % 4 == 0 && size * 8 < Md5.LengthLimit
    ensures var t := Md5.Tail(buffer, size).value;
      WordsOf(t) == WordsOf(buffer) + [0x80] + ZeroWords(13 - |buffer| / 4) + WordsOf(LeBytes(size * 8, 8))
  {
    Md5.ShortTail(buffer, size);
    TailWords(buffer, LeBytes(size * 8, 8), Md5.Tail(buffer, size).value);
  }

  /** The words of a buffer padded by the marker and zeros to 56 bytes, then `len`. */
  lemma TailWords(buffer: seq<Byte>, len: seq<Byte>, t: seq<Byte>)
    requires |buffer| <= 52 && |buffer| % 4 == 0 && |len| % 4 == 0
    requires t == buffer + [0x80] + Md5.Zeros(55 - |buffer|) + len
    ensures WordsOf(t) == WordsOf(buffer) + [0x80] + ZeroWords(13 - |buffer| / 4) + WordsOf(len)
  {
    var n := |buffer|;
    Regroup(buffer, len);
    MarkedWords(buffer, Md5.Zeros(52 - n), len);
    PaddingWords(n);
  }

  /** The words of a buffer, the marker word, zero bytes and the length field. */
  lemma MarkedWords(buffer: seq<Byte>, z: seq<Byte>, len: seq<Byte>)
    requires |buffer| % 4 == 0 && |z| % 4 == 0 && |len| % 4 == 0
    ensures WordsOf(buffer + [0x80, 0, 0, 0] + z + len)
      == WordsOf(buffer) + [0x80] + WordsOf(z) + WordsOf(len)
  {
    var a := buffer + [0x80, 0, 0, 0];
    WordsOfAppend(buffer, [0x80, 0, 0, 0]);
    WordsOfAppend(a, z);
    WordsOfAppend(a + z, len);
    assert WordsOf([0x80, 0, 0, 0]) == [0x80];
  }

  lemma PaddingWords(n: nat)
    requires n <= 52 && n % 4 == 0
    ensures WordsOf(Md5.Zeros(52 - n)) == ZeroWords(13 - n / 4)
  {
    assert 52 - n == 4 * (13 - n / 4);
    WordsOfZeros(13 - n / 4);
  }

  /** The marker and the first three zero bytes form one word. */
  lemma Regroup(buffer: seq<Byte>, len: seq<Byte>)
    requires |buffer| <= 52
    ensures buffer + [0x80] + Md5.Zeros(55 - |buffer|) + len == buffer + [0x80, 0, 0, 0] + Md5.Zeros(52 - |buffer|) + len
  {
    var z := Md5.Zeros(52 - |buffer|);
    assert Md5.Zeros(55 - |buffer|) == [0, 0, 0] + z;
  }

  /** A bit count below 256 is one byte followed by seven zero bytes. */
  lemma SmallLeBytes(x: nat)
    requires x < 256
    ensures LeBytes(x, 8) == [ByteOf(x), 0, 0, 0, 0, 0, 0, 0]
  {
    assert x % 256 == x && x / 256 == 0;
    var z := LeBytes(0, 7);
    SevenZeros();
    assert LeBytes(x, 8) == [ByteOf(x)] + z;
  }

  lemma SevenZeros()
    ensures LeBytes(0, 7) == [0, 0, 0, 0, 0, 0, 0]
  {
  }

  /** The digest bytes are the four words' encodings in order. */
  lemma WordsToBytesParts(w: Md5.Words)
    ensures Md5.WordsToBytes(w) == BytesOfWord(w.a) + (BytesOfWord(w.b) + (BytesOfWord(w.c) + BytesOfWord(w.d)))
  {
    var ba, bb, bc, bd := BytesOfWord(w.a), BytesOfWord(w.b), BytesOfWord(w.c), BytesOfWord(w.d);
    assert [w.d][1..] == [];
    assert BytesOfWords([w.d]) == bd;
    assert [w.c, w.d][1..] == [w.d];
    assert BytesOfWords([w.c, w.d]) == bc + bd;
    assert [w.b, w.c, w.d][1..] == [w.c, w.d];
    assert BytesOfWords([w.b, w.c, w.d]) == bb + (bc + bd);
    assert [w.a, w.b, w.c, w.d][1..] == [w.b, w.c, w.d];
  }

  /** The hex text of the four words, word by word. */
  lemma HexOfWords(w: Md5.Words)
    ensures Hex(Md5.WordsToBytes(w))
         == Hex(BytesOfWord(w.a)) + (Hex(BytesOfWord(w.b)) + (Hex(BytesOfWord(w.c)) + Hex(BytesOfWord(w.d))))
  {
    var ba, bb, bc, bd := BytesOfWord(w.a), BytesOfWord(w.b), BytesOfWord(w.c), BytesOfWord(w.d);
    WordsToBytesParts(w);
    HexAppend(ba, bb + (bc + bd));
    HexAppend(bb, bc + bd);
    HexAppend(bc, bd);
  }

  // ---------------------------------------------------------------------------
  // "Hello world!" (tests/hash/test_md5.py, test_validity)

  const HelloWorld: seq<Byte> := [
    72, 101, 108, 108, 111, 32, 119, 111, 114, 108, 100, 33]

  /** The 16 words of its padded block. */
  const HelloWorldBlock: seq<Word> := [
    0x6c6c6548, 0x6f77206f, 0x21646c72, 0x00000080,
    0x00000000, 0x00000000, 0x00000000, 0x00000000,
    0x00000000, 0x00000000, 0x00000000, 0x00000000,
    0x00000000, 0x00000000, 0x00000060, 0x00000000]

  lemma HelloWorldDigest()
    ensures Md5.ToHex(Md5.New(HelloWorld)) == Success("86fb269d190d2c85f6e0468ceca42a20")
  {
    HelloWorldFinal();
    HelloWorldHexText();
  }

  lemma HelloWorldHexText()
    ensures Hex(Md5.WordsToBytes(Md5.Words(0x9d26fb86, 0x852c0d19, 0x8c46e0f6, 0x202aa4ec))) == "86fb269d190d2c85f6e0468ceca42a20"
  {
    HexOfWords(Md5.Words(0x9d26fb86, 0x852c0d19, 0x8c46e0f6, 0x202aa4ec));
    HelloWorldHex0();
    HelloWorldHex1();
    HelloWorldHex2();
    HelloWorldHex3();
    HelloWorldHexJoin();
  }

  lemma HelloWorldHexJoin()
    ensures "86fb269d190d2c85f6e0468ceca42a20" == "86fb269d" + ("190d2c85" + ("f6e0468c" + "eca42a20"))
  {
  }

  lemma HelloWorldFinal()
    ensures Md5.Finalize(Md5.New(HelloWorld)) == Success(Md5.Words(0x9d26fb86, 0x852c0d19, 0x8c46e0f6, 0x202aa4ec))
  {
    var h := Md5.New(HelloWorld);
    assert h == Md5.Hasher(HelloWorld, 12, Md5.Initial);
    HelloWorldBlockWords();
    HelloWorldRounds();
  }

  lemma HelloWorldHex0()
    ensures Hex(BytesOfWord(0x9d26fb86)) == "86fb269d"
  {
  }

  lemma HelloWorldHex1()
    ensures Hex(BytesOfWord(0x852c0d19)) == "190d2c85"
  {
  }

  lemma HelloWorldHex2()
    ensures Hex(BytesOfWord(0x8c46e0f6)) == "f6e0468c"
  {
  }

  lemma HelloWorldHex3()
    ensures Hex(BytesOfWord(0x202aa4ec)) == "eca42a20"
  {
  }

  /** The padded block: the text, 0x80, zeros and the bit count 96. */
  lemma HelloWorldBlockWords()
    ensures WordsOf(Md5.Tail(HelloWorld, 12).value) == HelloWorldBlock
  {
    ShortTailWords(HelloWorld, 12);
    HelloWorldTextWords();
    HelloWorldLengthWords();
    HelloWorldBlockParts();
  }

  lemma HelloWorldBlockParts()
    ensures HelloWorldBlock == [0x6c6c6548, 0x6f77206f, 0x21646c72] + [0x80] + ZeroWords(10) + [0x60, 0x0]
  {
  }

  lemma HelloWorldTextWords()
    ensures WordsOf(HelloWorld) == [0x6c6c6548, 0x6f77206f, 0x21646c72]
  {
    HelloWorldWord0();
    HelloWorldWord1();
    HelloWorldWord2();
  }

  lemma HelloWorldLengthWords()
    ensures WordsOf(LeBytes(96, 8)) == [0x60, 0x0]
  {
    HelloWorldLengthBytes();
    HelloWorldLengthFieldWords();
  }

  lemma HelloWorldLengthBytes()
    ensures LeBytes(96, 8) == [96, 0, 0, 0, 0, 0, 0, 0]
  {
    SmallLeBytes(96);
  }

  lemma HelloWorldLengthFieldWords()
    ensures WordsOf([96, 0, 0, 0, 0, 0, 0, 0]) == [0x60, 0x0]
  {
  }

  lemma HelloWorldWord0()
    ensures WordOf(HelloWorld[0 .. 4]) == 0x6c6c6548
  {
    assert HelloWorld[0 .. 4] == [72, 101, 108, 108];
  }

  lemma HelloWorldWord1()
    ensures WordOf(HelloWorld[4 .. 8]) == 0x6f77206f
  {
    assert HelloWorld[4 .. 8] == [111, 32, 119, 111];
  }

  lemma HelloWorldWord2()
    ensures WordOf(HelloWorld[8 .. 12]) == 0x21646c72
  {
    assert HelloWorld[8 .. 12] == [114, 108, 100, 33];
  }

  /** Iterations 0 .. 63 of the loop of `_hash_chunk` on the padded block. */
  lemma HelloWorldRounds()
    ensures Md5.Rounds(HelloWorldBlock, 0, Md5.Initial) == Md5.Words(0x35e1d885, 0x955e6190, 0xf38c03f8, 0x0ff85076)
  {
    HelloWorldRound0();
    HelloWorldRound1();
    HelloWorldRound2();
    HelloWorldRound3();
    HelloWorldRound4();
    HelloWorldRound5();
    HelloWorldRound6();
    HelloWorldRound7();
    HelloWorldRound8();
    HelloWorldRound9();
    HelloWorldRound10();
    HelloWorldRound11();
    HelloWorldRound12();
    HelloWorldRound13();
    HelloWorldRound14();
    HelloWorldRound15();
    HelloWorldRound16();
    HelloWorldRound17();
    HelloWorldRound18();
    HelloWorldRound19();
    HelloWorldRound20();
    HelloWorldRound21();
    HelloWorldRound22();
    HelloWorldRound23();
    HelloWorldRound24();
    HelloWorldRound25();
    HelloWorldRound26();
    HelloWorldRound27();
    HelloWorldRound28();
    HelloWorldRound29();
    HelloWorldRound30();
    HelloWorldRound31();
    HelloWorldRound32();
    HelloWorldRound33();
    HelloWorldRound34();
    HelloWorldRound35();
    HelloWorldRound36();
    HelloWorldRound37();
    HelloWorldRound38();
    HelloWorldRound39();
    HelloWorldRound40();
    HelloWorldRound41();
    HelloWorldRound42();
    HelloWorldRound43();
    HelloWorldRound44();
    HelloWorldRound45();
    HelloWorldRound46();
    HelloWorldRound47();
    HelloWorldRound48();
    HelloWorldRound49();
    HelloWorldRound50();
    HelloWorldRound51();
    HelloWorldRound52();
    HelloWorldRound53();
    HelloWorldRound54();
    HelloWorldRound55();
    HelloWorldRound56();
    HelloWorldRound57();
    HelloWorldRound58();
    HelloWorldRound59();
    HelloWorldRound60();
    HelloWorldRound61();
    HelloWorldRound62();
    HelloWorldRound63();
  }

  lemma HelloWorldRound0()
    ensures Md5.Rounds(HelloWorldBlock, 0, Md5.Words(0x67452301, 0xefcdab89, 0x98badcfe, 0x10325476)) == Md5.Rounds(HelloWorldBlock, 1, Md5.Words(0x10325476, 0xdb528b2a, 0xefcdab89, 0x98badcfe))
  {
    assert Md5.MessageIndex(0) == 0 && HelloWorldBlock[0] == 0x6c6c6548 && Md5.K[0] == 0xd76aa478 && Md5.S[0] == 7;
    assert Md5.RoundFunction(0, Md5.Words(0x67452301, 0xefcdab89, 0x98badcfe, 0x10325476)) == 0x98badcfe;
    assert 0x98badcfe + 0x67452301 + 0xd76aa478 + 0x6c6c6548 == 0x43d709bf as Word;
    assert Md5.RotateLeft(0x43d709bf, 7) == 0xeb84dfa1;
  }

  lemma HelloWorldRound1()
    ensures Md5.Rounds(HelloWorldBlock, 1, Md5.Words(0x10325476, 0xdb528b2a, 0xefcdab89, 0x98badcfe)) == Md5.Rounds(HelloWorldBlock, 2, Md5.Words(0x98badcfe, 0x7c13fe6f, 0xdb528b2a, 0xefcdab89))
  {
    assert Md5.MessageIndex(1) == 1 && HelloWorldBlock[1] == 0x6f77206f && Md5.K[1] == 0xe8c7b756 && Md5.S[1] == 12;
    assert Md5.RoundFunction(1, Md5.Words(0x10325476, 0xdb528b2a, 0xefcdab89, 0x98badcfe)) == 0xcbe8dfdc;
    assert 0xcbe8dfdc + 0x10325476 + 0xe8c7b756 + 0x6f77206f == 0x345a0c17 as Word;
    assert Md5.RotateLeft(0x345a0c17, 12) == 0xa0c17345;
  }

  lemma HelloWorldRound2()
    ensures Md5.Rounds(HelloWorldBlock, 2, Md5.Words(0x98badcfe, 0x7c13fe6f, 0xdb528b2a, 0xefcdab89)) == Md5.Rounds(HelloWorldBlock, 3, Md5.Words(0xefcdab89, 0x07ff72ab, 0x7c13fe6f, 0xdb528b2a))
  {
    assert Md5.MessageIndex(2) == 2 && HelloWorldBlock[2] == 0x21646c72 && Md5.K[2] == 0x242070db && Md5.S[2] == 17;
    assert Md5.RoundFunction(2, Md5.Words(0x98badcfe, 0x7c13fe6f, 0xdb528b2a, 0xefcdab89)) == 0xdbde8baa;
    assert 0xdbde8baa + 0x98badcfe + 0x242070db + 0x21646c72 == 0xba1e45f5 as Word;
    assert Md5.RotateLeft(0xba1e45f5, 17) == 0x8beb743c;
  }

  lemma HelloWorldRound3()
    ensures Md5.Rounds(HelloWorldBlock, 3, Md5.Words(0xefcdab89, 0x07ff72ab, 0x7c13fe6f, 0xdb528b2a)) == Md5.Rounds(HelloWorldBlock, 4, Md5.Words(0xdb528b2a, 0x90a2da88, 0x07ff72ab, 0x7c13fe6f))
  {
    assert Md5.MessageIndex(3) == 3 && HelloWorldBlock[3] == 0x80 && Md5.K[3] == 0xc1bdceee && Md5.S[3] == 22;
    assert Md5.RoundFunction(3, Md5.Words(0xefcdab89, 0x07ff72ab, 0x7c13fe6f, 0xdb528b2a)) == 0xdc13fb2b;
    assert 0xdc13fb2b + 0xefcdab89 + 0xc1bdceee + 0x80 == 0x8d9f7622 as Word;
    assert Md5.RotateLeft(0x8d9f7622, 22) == 0x88a367dd;
  }

  lemma HelloWorldRound4()
    ensures Md5.Rounds(HelloWorldBlock, 4, Md5.Words(0xdb528b2a, 0x90a2da88, 0x07ff72ab, 0x7c13fe6f)) == Md5.Rounds(HelloWorldBlock, 5, Md5.Words(0x7c13fe6f, 0x51abbea6, 0x90a2da88, 0x07ff72ab))
  {
    assert Md5.MessageIndex(4) == 4 && HelloWorldBlock[4] == 0x0 && Md5.K[4] == 0xf57c0faf && Md5.S[4] == 7;
    assert Md5.RoundFunction(4, Md5.Words(0xdb528b2a, 0x90a2da88, 0x07ff72ab, 0x7c13fe6f)) == 0x6cb376ef;
    assert 0x6cb376ef + 0xdb528b2a + 0xf57c0faf + 0x0 == 0x3d8211c8 as Word;
    assert Md5.RotateLeft(0x3d8211c8, 7) == 0xc108e41e;
  }

  lemma HelloWorldRound5()
    ensures Md5.Rounds(HelloWorldBlock, 5, Md5.Words(0x7c13fe6f, 0x51abbea6, 0x90a2da88, 0x07ff72ab)) == Md5.Rounds(HelloWorldBlock, 6, Md5.Words(0x07ff72ab, 0x7b9dec4f, 0x51abbea6, 0x90a2da88))
  {
    assert Md5.MessageIndex(5) == 5 && HelloWorldBlock[5] == 0x0 && Md5.K[5] == 0x4787c62a && Md5.S[5] == 12;
    assert Md5.RoundFunction(5, Md5.Words(0x7c13fe6f, 0x51abbea6, 0x90a2da88, 0x07ff72ab)) == 0x16f6da89;
    assert 0x16f6da89 + 0x7c13fe6f + 0x4787c62a + 0x0 == 0xda929f22 as Word;
    assert Md5.RotateLeft(0xda929f22, 12) == 0x29f22da9;
  }

  lemma HelloWorldRound6()
    ensures Md5.Rounds(HelloWorldBlock, 6, Md5.Words(0x07ff72ab, 0x7b9dec4f, 0x51abbea6, 0x90a2da88)) == Md5.Rounds(HelloWorldBlock, 7, Md5.Words(0x90a2da88, 0x6a26f005, 0x7b9dec4f, 0x51abbea6))
  {
    assert Md5.MessageIndex(6) == 6 && HelloWorldBlock[6] == 0x0 && Md5.K[6] == 0xa8304613 && Md5.S[6] == 17;
    assert Md5.RoundFunction(6, Md5.Words(0x07ff72ab, 0x7b9dec4f, 0x51abbea6, 0x90a2da88)) == 0xd1abbe86;
    assert 0xd1abbe86 + 0x7ff72ab + 0xa8304613 + 0x0 == 0x81db7744 as Word;
    assert Md5.RotateLeft(0x81db7744, 17) == 0xee8903b6;
  }

  lemma HelloWorldRound7()
    ensures Md5.Rounds(HelloWorldBlock, 7, Md5.Words(0x90a2da88, 0x6a26f005, 0x7b9dec4f, 0x51abbea6)) == Md5.Rounds(HelloWorldBlock, 8, Md5.Words(0x51abbea6, 0xf6294ddc, 0x6a26f005, 0x7b9dec4f))
  {
    assert Md5.MessageIndex(7) == 7 && HelloWorldBlock[7] == 0x0 && Md5.K[7] == 0xfd469501 && Md5.S[7] == 22;
    assert Md5.RoundFunction(7, Md5.Words(0x90a2da88, 0x6a26f005, 0x7b9dec4f, 0x51abbea6)) == 0x7b8deea7;
    assert 0x7b8deea7 + 0x90a2da88 + 0xfd469501 + 0x0 == 0x9775e30 as Word;
    assert Md5.RotateLeft(0x9775e30, 22) == 0x8c025dd7;
  }

  lemma HelloWorldRound8()
    ensures Md5.Rounds(HelloWorldBlock, 8, Md5.Words(0x51abbea6, 0xf6294ddc, 0x6a26f005, 0x7b9dec4f)) == Md5.Rounds(HelloWorldBlock, 9, Md5.Words(0x7b9dec4f, 0x66c5106f, 0xf6294ddc, 0x6a26f005))
  {
    assert Md5.MessageIndex(8) == 8 && HelloWorldBlock[8] == 0x0 && Md5.K[8] == 0x698098d8 && Md5.S[8] == 7;
    assert Md5.RoundFunction(8, Md5.Words(0x51abbea6, 0xf6294ddc, 0x6a26f005, 0x7b9dec4f)) == 0x6bb4e007;
    assert 0x6bb4e007 + 0x51abbea6 + 0x698098d8 + 0x0 == 0x26e13785 as Word;
    assert Md5.RotateLeft(0x26e13785, 7) == 0x709bc293;
  }

  lemma HelloWorldRound9()
    ensures Md5.Rounds(HelloWorldBlock, 9, Md5.Words(0x7b9dec4f, 0x66c5106f, 0xf6294ddc, 0x6a26f005)) == Md5.Rounds(HelloWorldBlock, 10, Md5.Words(0x6a26f005, 0xd309b7bf, 0x66c5106f, 0xf6294ddc))
  {
    assert Md5.MessageIndex(9) == 9 && HelloWorldBlock[9] == 0x0 && Md5.K[9] == 0x8b44f7af && Md5.S[9] == 12;
    assert Md5.RoundFunction(9, Md5.Words(0x7b9dec4f, 0x66c5106f, 0xf6294ddc, 0x6a26f005)) == 0x6e23e04c;
    assert 0x6e23e04c + 0x7b9dec4f + 0x8b44f7af + 0x0 == 0x7506c44a as Word;
    assert Md5.RotateLeft(0x7506c44a, 12) == 0x6c44a750;
  }

  lemma HelloWorldRound10()
    ensures Md5.Rounds(HelloWorldBlock, 10, Md5.Words(0x6a26f005, 0xd309b7bf, 0x66c5106f, 0xf6294ddc)) == Md5.Rounds(HelloWorldBlock, 11, Md5.Words(0xf6294ddc, 0x1b55584e, 0xd309b7bf, 0x66c5106f))
  {
    assert Md5.MessageIndex(10) == 10 && HelloWorldBlock[10] == 0x0 && Md5.K[10] == 0xffff5bb1 && Md5.S[10] == 17;
    assert Md5.RoundFunction(10, Md5.Words(0x6a26f005, 0xd309b7bf, 0x66c5106f, 0xf6294ddc)) == 0x6621586f;
    assert 0x6621586f + 0x6a26f005 + 0xffff5bb1 + 0x0 == 0xd047a425 as Word;
    assert Md5.RotateLeft(0xd047a425, 17) == 0x484ba08f;
  }

  lemma HelloWorldRound11()
    ensures Md5.Rounds(HelloWorldBlock, 11, Md5.Words(0xf6294ddc, 0x1b55584e, 0xd309b7bf, 0x66c5106f)) == Md5.Rounds(HelloWorldBlock, 12, Md5.Words(0x66c5106f, 0x8dd31a1b, 0x1b55584e, 0xd309b7bf))
  {
    assert Md5.MessageIndex(11) == 11 && HelloWorldBlock[11] == 0x0 && Md5.K[11] == 0x895cd7be && Md5.S[11] == 22;
    assert Md5.RoundFunction(11, Md5.Words(0xf6294ddc, 0x1b55584e, 0xd309b7bf, 0x66c5106f)) == 0x7781102f;
    assert 0x7781102f + 0xf6294ddc + 0x895cd7be + 0x0 == 0xf70735c9 as Word;
    assert Md5.RotateLeft(0xf70735c9, 22) == 0x727dc1cd;
  }

  lemma HelloWorldRound12()
    ensures Md5.Rounds(HelloWorldBlock, 12, Md5.Words(0x66c5106f, 0x8dd31a1b, 0x1b55584e, 0xd309b7bf)) == Md5.Rounds(HelloWorldBlock, 13, Md5.Words(0xd309b7bf, 0x6542b9b1, 0x8dd31a1b, 0x1b55584e))
  {
    assert Md5.MessageIndex(12) == 12 && HelloWorldBlock[12] == 0x0 && Md5.K[12] == 0x6b901122 && Md5.S[12] == 7;
    assert Md5.RoundFunction(12, Md5.Words(0x66c5106f, 0x8dd31a1b, 0x1b55584e, 0xd309b7bf)) == 0x5b59bdae;
    assert 0x5b59bdae + 0x66c5106f + 0x6b901122 + 0x0 == 0x2daedf3f as Word;
    assert Md5.RotateLeft(0x2daedf3f, 7) == 0xd76f9f96;
  }

  lemma HelloWorldRound13()
    ensures Md5.Rounds(HelloWorldBlock, 13, Md5.Words(0xd309b7bf, 0x6542b9b1, 0x8dd31a1b, 0x1b55584e)) == Md5.Rounds(HelloWorldBlock, 14, Md5.Words(0x1b55584e, 0xfd5dd8b0, 0x6542b9b1, 0x8dd31a1b))
  {
    assert Md5.MessageIndex(13) == 13 && HelloWorldBlock[13] == 0x0 && Md5.K[13] == 0xfd987193 && Md5.S[13] == 12;
    assert Md5.RoundFunction(13, Md5.Words(0xd309b7bf, 0x6542b9b1, 0x8dd31a1b, 0x1b55584e)) == 0x1f57585f;
    assert 0x1f57585f + 0xd309b7bf + 0xfd987193 + 0x0 == 0xeff981b1 as Word;
    assert Md5.RotateLeft(0xeff981b1, 12) == 0x981b1eff;
  }

  lemma HelloWorldRound14()
    ensures Md5.Rounds(HelloWorldBlock, 14, Md5.Words(0x1b55584e, 0xfd5dd8b0, 0x6542b9b1, 0x8dd31a1b)) == Md5.Rounds(HelloWorldBlock, 15, Md5.Words(0x8dd31a1b, 0x6b4c27d2, 0xfd5dd8b0, 0x6542b9b1))
  {
    assert Md5.MessageIndex(14) == 14 && HelloWorldBlock[14] == 0x60 && Md5.K[14] == 0xa679438e && Md5.S[14] == 17;
    assert Md5.RoundFunction(14, Md5.Words(0x1b55584e, 0xfd5dd8b0, 0x6542b9b1, 0x8dd31a1b)) == 0x65c29abb;
    assert 0x65c29abb + 0x1b55584e + 0xa679438e + 0x60 == 0x279136f7 as Word;
    assert Md5.RotateLeft(0x279136f7, 17) == 0x6dee4f22;
  }

  lemma HelloWorldRound15()
    ensures Md5.Rounds(HelloWorldBlock, 15, Md5.Words(0x8dd31a1b, 0x6b4c27d2, 0xfd5dd8b0, 0x6542b9b1)) == Md5.Rounds(HelloWorldBlock, 16, Md5.Words(0x6542b9b1, 0x269d5d40, 0x6b4c27d2, 0xfd5dd8b0))
  {
    assert Md5.MessageIndex(15) == 15 && HelloWorldBlock[15] == 0x0 && Md5.K[15] == 0x49b40821 && Md5.S[15] == 22;
    assert Md5.RoundFunction(15, Md5.Words(0x8dd31a1b, 0x6b4c27d2, 0xfd5dd8b0, 0x6542b9b1)) == 0x6d4e98b1;
    assert 0x6d4e98b1 + 0x8dd31a1b + 0x49b40821 + 0x0 == 0x44d5baed as Word;
    assert Md5.RotateLeft(0x44d5baed, 22) == 0xbb51356e;
  }

  lemma HelloWorldRound16()
    ensures Md5.Rounds(HelloWorldBlock, 16, Md5.Words(0x6542b9b1, 0x269d5d40, 0x6b4c27d2, 0xfd5dd8b0)) == Md5.Rounds(HelloWorldBlock, 17, Md5.Words(0xfd5dd8b0, 0x454d35de, 0x269d5d40, 0x6b4c27d2))
  {
    assert Md5.MessageIndex(16) == 1 && HelloWorldBlock[1] == 0x6f77206f && Md5.K[16] == 0xf61e2562 && Md5.S[16] == 5;
    assert Md5.RoundFunction(16, Md5.Words(0x6542b9b1, 0x269d5d40, 0x6b4c27d2, 0xfd5dd8b0)) == 0x261d7f42;
    assert 0x261d7f42 + 0x6542b9b1 + 0xf61e2562 + 0x6f77206f == 0xf0f57ec4 as Word;
    assert Md5.RotateLeft(0xf0f57ec4, 5) == 0x1eafd89e;
  }

  lemma HelloWorldRound17()
    ensures Md5.Rounds(HelloWorldBlock, 17, Md5.Words(0xfd5dd8b0, 0x454d35de, 0x269d5d40, 0x6b4c27d2)) == Md5.Rounds(HelloWorldBlock, 18, Md5.Words(0x6b4c27d2, 0x3d60b9e4, 0x454d35de, 0x269d5d40))
  {
    assert Md5.MessageIndex(17) == 6 && HelloWorldBlock[6] == 0x0 && Md5.K[17] == 0xc040b340 && Md5.S[17] == 9;
    assert Md5.RoundFunction(17, Md5.Words(0xfd5dd8b0, 0x454d35de, 0x269d5d40, 0x6b4c27d2)) == 0x45dd7dd2;
    assert 0x45dd7dd2 + 0xfd5dd8b0 + 0xc040b340 + 0x0 == 0x37c09c2 as Word;
    assert Md5.RotateLeft(0x37c09c2, 9) == 0xf8138406;
  }

  lemma HelloWorldRound18()
    ensures Md5.Rounds(HelloWorldBlock, 18, Md5.Words(0x6b4c27d2, 0x3d60b9e4, 0x454d35de, 0x269d5d40)) == Md5.Rounds(HelloWorldBlock, 19, Md5.Words(0x269d5d40, 0xec61379e, 0x3d60b9e4, 0x454d35de))
  {
    assert Md5.MessageIndex(18) == 11 && HelloWorldBlock[11] == 0x0 && Md5.K[18] == 0x265e5a51 && Md5.S[18] == 14;
    assert Md5.RoundFunction(18, Md5.Words(0x6b4c27d2, 0x3d60b9e4, 0x454d35de, 0x269d5d40)) == 0x654039de;
    assert 0x654039de + 0x6b4c27d2 + 0x265e5a51 + 0x0 == 0xf6eabc01 as Word;
    assert Md5.RotateLeft(0xf6eabc01, 14) == 0xaf007dba;
  }

  lemma HelloWorldRound19()
    ensures Md5.Rounds(HelloWorldBlock, 19, Md5.Words(0x269d5d40, 0xec61379e, 0x3d60b9e4, 0x454d35de)) == Md5.Rounds(HelloWorldBlock, 20, Md5.Words(0x454d35de, 0x6b70c9c2, 0xec61379e, 0x3d60b9e4))
  {
    assert Md5.MessageIndex(19) == 0 && HelloWorldBlock[0] == 0x6c6c6548 && Md5.K[19] == 0xe9b6c7aa && Md5.S[19] == 20;
    assert Md5.RoundFunction(19, Md5.Words(0x269d5d40, 0xec61379e, 0x3d60b9e4, 0x454d35de)) == 0x7c61bdbe;
    assert 0x7c61bdbe + 0x269d5d40 + 0xe9b6c7aa + 0x6c6c6548 == 0xf92247f0 as Word;
    assert Md5.RotateLeft(0xf92247f0, 20) == 0x7f0f9224;
  }

  lemma HelloWorldRound20()
    ensures Md5.Rounds(HelloWorldBlock, 20, Md5.Words(0x454d35de, 0x6b70c9c2, 0xec61379e, 0x3d60b9e4)) == Md5.Rounds(HelloWorldBlock, 21, Md5.Words(0x3d60b9e4, 0x072b8c62, 0x6b70c9c2, 0xec61379e))
  {
    assert Md5.MessageIndex(20) == 5 && HelloWorldBlock[5] == 0x0 && Md5.K[20] == 0xd62f105d && Md5.S[20] == 5;
    assert Md5.RoundFunction(20, Md5.Words(0x454d35de, 0x6b70c9c2, 0xec61379e, 0x3d60b9e4)) == 0xe9618fda;
    assert 0xe9618fda + 0x454d35de + 0xd62f105d + 0x0 == 0x4ddd615 as Word;
    assert Md5.RotateLeft(0x4ddd615, 5) == 0x9bbac2a0;
  }

  lemma HelloWorldRound21()
    ensures Md5.Rounds(HelloWorldBlock, 21, Md5.Words(0x3d60b9e4, 0x072b8c62, 0x6b70c9c2, 0xec61379e)) == Md5.Rounds(HelloWorldBlock, 22, Md5.Words(0xec61379e, 0xb4607eef, 0x072b8c62, 0x6b70c9c2))
  {
    assert Md5.MessageIndex(21) == 10 && HelloWorldBlock[10] == 0x0 && Md5.K[21] == 0x2441453 && Md5.S[21] == 9;
    assert Md5.RoundFunction(21, Md5.Words(0x3d60b9e4, 0x072b8c62, 0x6b70c9c2, 0xec61379e)) == 0x731cc42;
    assert 0x731cc42 + 0x3d60b9e4 + 0x2441453 + 0x0 == 0x46d69a79 as Word;
    assert Md5.RotateLeft(0x46d69a79, 9) == 0xad34f28d;
  }

  lemma HelloWorldRound22()
    ensures Md5.Rounds(HelloWorldBlock, 22, Md5.Words(0xec61379e, 0xb4607eef, 0x072b8c62, 0x6b70c9c2)) == Md5.Rounds(HelloWorldBlock, 23, Md5.Words(0x6b70c9c2, 0x4f20f94a, 0xb4607eef, 0x072b8c62))
  {
    assert Md5.MessageIndex(22) == 15 && HelloWorldBlock[15] == 0x0 && Md5.K[22] == 0xd8a1e681 && Md5.S[22] == 14;
    assert Md5.RoundFunction(22, Md5.Words(0xec61379e, 0xb4607eef, 0x072b8c62, 0x6b70c9c2)) == 0x246b4ce2;
    assert 0x246b4ce2 + 0xec61379e + 0xd8a1e681 + 0x0 == 0xe96e6b01 as Word;
    assert Md5.RotateLeft(0xe96e6b01, 14) == 0x9ac07a5b;
  }

  lemma HelloWorldRound23()
    ensures Md5.Rounds(HelloWorldBlock, 23, Md5.Words(0x6b70c9c2, 0x4f20f94a, 0xb4607eef, 0x072b8c62)) == Md5.Rounds(HelloWorldBlock, 24, Md5.Words(0x072b8c62, 0x54b1a3a6, 0x4f20f94a, 0xb4607eef))
  {
    assert Md5.MessageIndex(23) == 4 && HelloWorldBlock[4] == 0x0 && Md5.K[23] == 0xe7d3fbc8 && Md5.S[23] == 20;
    assert Md5.RoundFunction(23, Md5.Words(0x6b70c9c2, 0x4f20f94a, 0xb4607eef, 0x072b8c62)) == 0xb760facf;
    assert 0xb760facf + 0x6b70c9c2 + 0xe7d3fbc8 + 0x0 == 0xaa5c059 as Word;
    assert Md5.RotateLeft(0xaa5c059, 20) == 0x590aa5c;
  }

  lemma HelloWorldRound24()
    ensures Md5.Rounds(HelloWorldBlock, 24, Md5.Words(0x072b8c62, 0x54b1a3a6, 0x4f20f94a, 0xb4607eef)) == Md5.Rounds(HelloWorldBlock, 25, Md5.Words(0xb4607eef, 0x5a716177, 0x54b1a3a6, 0x4f20f94a))
  {
    assert Md5.MessageIndex(24) == 9 && HelloWorldBlock[9] == 0x0 && Md5.K[24] == 0x21e1cde6 && Md5.S[24] == 5;
    assert Md5.RoundFunction(24, Md5.Words(0x072b8c62, 0x54b1a3a6, 0x4f20f94a, 0xb4607eef)) == 0x5f20a3a6;
    assert 0x5f20a3a6 + 0x72b8c62 + 0x21e1cde6 + 0x0 == 0x882dfdee as Word;
    assert Md5.RotateLeft(0x882dfdee, 5) == 0x5bfbdd1;
  }

  lemma HelloWorldRound25()
    ensures Md5.Rounds(HelloWorldBlock, 25, Md5.Words(0xb4607eef, 0x5a716177, 0x54b1a3a6, 0x4f20f94a)) == Md5.Rounds(HelloWorldBlock, 26, Md5.Words(0x4f20f94a, 0xec47791b, 0x5a716177, 0x54b1a3a6))
  {
    assert Md5.MessageIndex(25) == 14 && HelloWorldBlock[14] == 0x60 && Md5.K[25] == 0xc33707d6 && Md5.S[25] == 9;
    assert Md5.RoundFunction(25, Md5.Words(0xb4607eef, 0x5a716177, 0x54b1a3a6, 0x4f20f94a)) == 0x5ab163e6;
    assert 0x5ab163e6 + 0xb4607eef + 0xc33707d6 + 0x60 == 0xd248eb0b as Word;
    assert Md5.RotateLeft(0xd248eb0b, 9) == 0x91d617a4;
  }

  lemma HelloWorldRound26()
    ensures Md5.Rounds(HelloWorldBlock, 26, Md5.Words(0x4f20f94a, 0xec47791b, 0x5a716177, 0x54b1a3a6)) == Md5.Rounds(HelloWorldBlock, 27, Md5.Words(0x54b1a3a6, 0xc6709da8, 0xec47791b, 0x5a716177))
  {
    assert Md5.MessageIndex(26) == 3 && HelloWorldBlock[3] == 0x80 && Md5.K[26] == 0xf4d50d87 && Md5.S[26] == 14;
    assert Md5.RoundFunction(26, Md5.Words(0x4f20f94a, 0xec47791b, 0x5a716177, 0x54b1a3a6)) == 0x4e416153;
    assert 0x4e416153 + 0x4f20f94a + 0xf4d50d87 + 0x80 == 0x923768a4 as Word;
    assert Md5.RotateLeft(0x923768a4, 14) == 0xda29248d;
  }

  lemma HelloWorldRound27()
    ensures Md5.Rounds(HelloWorldBlock, 27, Md5.Words(0x54b1a3a6, 0xc6709da8, 0xec47791b, 0x5a716177)) == Md5.Rounds(HelloWorldBlock, 28, Md5.Words(0x5a716177, 0xe228a5c5, 0xc6709da8, 0xec47791b))
  {
    assert Md5.MessageIndex(27) == 8 && HelloWorldBlock[8] == 0x0 && Md5.K[27] == 0x455a14ed && Md5.S[27] == 20;
    assert Md5.RoundFunction(27, Md5.Words(0x54b1a3a6, 0xc6709da8, 0xec47791b, 0x5a716177)) == 0xe6761928;
    assert 0xe6761928 + 0x54b1a3a6 + 0x455a14ed + 0x0 == 0x8081d1bb as Word;
    assert Md5.RotateLeft(0x8081d1bb, 20) == 0x1bb8081d;
  }

  lemma HelloWorldRound28()
    ensures Md5.Rounds(HelloWorldBlock, 28, Md5.Words(0x5a716177, 0xe228a5c5, 0xc6709da8, 0xec47791b)) == Md5.Rounds(HelloWorldBlock, 29, Md5.Words(0xec47791b, 0xb2e6a981, 0xe228a5c5, 0xc6709da8))
  {
    assert Md5.MessageIndex(28) == 13 && HelloWorldBlock[13] == 0x0 && Md5.K[28] == 0xa9e3e905 && Md5.S[28] == 5;
    assert Md5.RoundFunction(28, Md5.Words(0x5a716177, 0xe228a5c5, 0xc6709da8, 0xec47791b)) == 0xe230a5a1;
    assert 0xe230a5a1 + 0x5a716177 + 0xa9e3e905 + 0x0 == 0xe685f01d as Word;
    assert Md5.RotateLeft(0xe685f01d, 5) == 0xd0be03bc;
  }

  lemma HelloWorldRound29()
    ensures Md5.Rounds(HelloWorldBlock, 29, Md5.Words(0xec47791b, 0xb2e6a981, 0xe228a5c5, 0xc6709da8)) == Md5.Rounds(HelloWorldBlock, 30, Md5.Words(0xc6709da8, 0xbb4d3edb, 0xb2e6a981, 0xe228a5c5))
  {
    assert Md5.MessageIndex(29) == 2 && HelloWorldBlock[2] == 0x21646c72 && Md5.K[29] == 0xfcefa3f8 && Md5.S[29] == 9;
    assert Md5.RoundFunction(29, Md5.Words(0xec47791b, 0xb2e6a981, 0xe228a5c5, 0xc6709da8)) == 0xa268a9c5;
    assert 0xa268a9c5 + 0xec47791b + 0xfcefa3f8 + 0x21646c72 == 0xad04334a as Word;
    assert Md5.RotateLeft(0xad04334a, 9) == 0x866955a;
  }

  lemma HelloWorldRound30()
    ensures Md5.Rounds(HelloWorldBlock, 30, Md5.Words(0xc6709da8, 0xbb4d3edb, 0xb2e6a981, 0xe228a5c5)) == Md5.Rounds(HelloWorldBlock, 31, Md5.Words(0xe228a5c5, 0x2e9df706, 0xbb4d3edb, 0xb2e6a981))
  {
    assert Md5.MessageIndex(30) == 7 && HelloWorldBlock[7] == 0x0 && Md5.K[30] == 0x676f02d9 && Md5.S[30] == 14;
    assert Md5.RoundFunction(30, Md5.Words(0xc6709da8, 0xbb4d3edb, 0xb2e6a981, 0xe228a5c5)) == 0xb2ce2cc1;
    assert 0xb2ce2cc1 + 0xc6709da8 + 0x676f02d9 + 0x0 == 0xe0adcd42 as Word;
    assert Md5.RotateLeft(0xe0adcd42, 14) == 0x7350b82b;
  }

  lemma HelloWorldRound31()
    ensures Md5.Rounds(HelloWorldBlock, 31, Md5.Words(0xe228a5c5, 0x2e9df706, 0xbb4d3edb, 0xb2e6a981)) == Md5.Rounds(HelloWorldBlock, 32, Md5.Words(0xb2e6a981, 0xc937a510, 0x2e9df706, 0xbb4d3edb))
  {
    assert Md5.MessageIndex(31) == 12 && HelloWorldBlock[12] == 0x0 && Md5.K[31] == 0x8d2a4c8a && Md5.S[31] == 20;
    assert Md5.RoundFunction(31, Md5.Words(0xe228a5c5, 0x2e9df706, 0xbb4d3edb, 0xb2e6a981)) == 0x2b8db75a;
    assert 0x2b8db75a + 0xe228a5c5 + 0x8d2a4c8a + 0x0 == 0x9ae0a9a9 as Word;
    assert Md5.RotateLeft(0x9ae0a9a9, 20) == 0x9a99ae0a;
  }

  lemma HelloWorldRound32()
    ensures Md5.Rounds(HelloWorldBlock, 32, Md5.Words(0xb2e6a981, 0xc937a510, 0x2e9df706, 0xbb4d3edb)) == Md5.Rounds(HelloWorldBlock, 33, Md5.Words(0xbb4d3edb, 0xc5bc9e10, 0xc937a510, 0x2e9df706))
  {
    assert Md5.MessageIndex(32) == 5 && HelloWorldBlock[5] == 0x0 && Md5.K[32] == 0xfffa3942 && Md5.S[32] == 4;
    assert Md5.RoundFunction(32, Md5.Words(0xb2e6a981, 0xc937a510, 0x2e9df706, 0xbb4d3edb)) == 0x5ce76ccd;
    assert 0x5ce76ccd + 0xb2e6a981 + 0xfffa3942 + 0x0 == 0xfc84f90 as Word;
    assert Md5.RotateLeft(0xfc84f90, 4) == 0xfc84f900;
  }

  lemma HelloWorldRound33()
    ensures Md5.Rounds(HelloWorldBlock, 33, Md5.Words(0xbb4d3edb, 0xc5bc9e10, 0xc937a510, 0x2e9df706)) == Md5.Rounds(HelloWorldBlock, 34, Md5.Words(0x2e9df706, 0x75c7b136, 0xc5bc9e10, 0xc937a510))
  {
    assert Md5.MessageIndex(33) == 8 && HelloWorldBlock[8] == 0x0 && Md5.K[33] == 0x8771f681 && Md5.S[33] == 11;
    assert Md5.RoundFunction(33, Md5.Words(0xbb4d3edb, 0xc5bc9e10, 0xc937a510, 0x2e9df706)) == 0x2216cc06;
    assert 0x2216cc06 + 0xbb4d3edb + 0x8771f681 + 0x0 == 0x64d60162 as Word;
    assert Md5.RotateLeft(0x64d60162, 11) == 0xb00b1326;
  }

  lemma HelloWorldRound34()
    ensures Md5.Rounds(HelloWorldBlock, 34, Md5.Words(0x2e9df706, 0x75c7b136, 0xc5bc9e10, 0xc937a510)) == Md5.Rounds(HelloWorldBlock, 35, Md5.Words(0xc937a510, 0x5825c6bd, 0x75c7b136, 0xc5bc9e10))
  {
    assert Md5.MessageIndex(34) == 11 && HelloWorldBlock[11] == 0x0 && Md5.K[34] == 0x6d9d6122 && Md5.S[34] == 16;
    assert Md5.RoundFunction(34, Md5.Words(0x2e9df706, 0x75c7b136, 0xc5bc9e10, 0xc937a510)) == 0x794c8a36;
    assert 0x794c8a36 + 0x2e9df706 + 0x6d9d6122 + 0x0 == 0x1587e25e as Word;
    assert Md5.RotateLeft(0x1587e25e, 16) == 0xe25e1587;
  }

  lemma HelloWorldRound35()
    ensures Md5.Rounds(HelloWorldBlock, 35, Md5.Words(0xc937a510, 0x5825c6bd, 0x75c7b136, 0xc5bc9e10)) == Md5.Rounds(HelloWorldBlock, 36, Md5.Words(0xc5bc9e10, 0xe3fd84a0, 0x5825c6bd, 0x75c7b136))
  {
    assert Md5.MessageIndex(35) == 14 && HelloWorldBlock[14] == 0x60 && Md5.K[35] == 0xfde5380c && Md5.S[35] == 23;
    assert Md5.RoundFunction(35, Md5.Words(0xc937a510, 0x5825c6bd, 0x75c7b136, 0xc5bc9e10)) == 0xe85ee99b;
    assert 0xe85ee99b + 0xc937a510 + 0xfde5380c + 0x60 == 0xaf7bc717 as Word;
    assert Md5.RotateLeft(0xaf7bc717, 23) == 0x8bd7bde3;
  }

  lemma HelloWorldRound36()
    ensures Md5.Rounds(HelloWorldBlock, 36, Md5.Words(0xc5bc9e10, 0xe3fd84a0, 0x5825c6bd, 0x75c7b136)) == Md5.Rounds(HelloWorldBlock, 37, Md5.Words(0x75c7b136, 0x6527438a, 0xe3fd84a0, 0x5825c6bd))
  {
    assert Md5.MessageIndex(36) == 1 && HelloWorldBlock[1] == 0x6f77206f && Md5.K[36] == 0xa4beea44 && Md5.S[36] == 4;
    assert Md5.RoundFunction(36, Md5.Words(0xc5bc9e10, 0xe3fd84a0, 0x5825c6bd, 0x75c7b136)) == 0xce1ff32b;
    assert 0xce1ff32b + 0xc5bc9e10 + 0xa4beea44 + 0x6f77206f == 0xa8129bee as Word;
    assert Md5.RotateLeft(0xa8129bee, 4) == 0x8129beea;
  }

  lemma HelloWorldRound37()
    ensures Md5.Rounds(HelloWorldBlock, 37, Md5.Words(0x75c7b136, 0x6527438a, 0xe3fd84a0, 0x5825c6bd)) == Md5.Rounds(HelloWorldBlock, 38, Md5.Words(0x5825c6bd, 0x913af88f, 0x6527438a, 0xe3fd84a0))
  {
    assert Md5.MessageIndex(37) == 4 && HelloWorldBlock[4] == 0x0 && Md5.K[37] == 0x4bdecfa9 && Md5.S[37] == 11;
    assert Md5.RoundFunction(37, Md5.Words(0x75c7b136, 0x6527438a, 0xe3fd84a0, 0x5825c6bd)) == 0xdeff0197;
    assert 0xdeff0197 + 0x75c7b136 + 0x4bdecfa9 + 0x0 == 0xa0a58276 as Word;
    assert Md5.RotateLeft(0xa0a58276, 11) == 0x2c13b505;
  }

  lemma HelloWorldRound38()
    ensures Md5.Rounds(HelloWorldBlock, 38, Md5.Words(0x5825c6bd, 0x913af88f, 0x6527438a, 0xe3fd84a0)) == Md5.Rounds(HelloWorldBlock, 39, Md5.Words(0xe3fd84a0, 0xe2fd5f50, 0x913af88f, 0x6527438a))
  {
    assert Md5.MessageIndex(38) == 7 && HelloWorldBlock[7] == 0x0 && Md5.K[38] == 0xf6bb4b60 && Md5.S[38] == 16;
    assert Md5.RoundFunction(38, Md5.Words(0x5825c6bd, 0x913af88f, 0x6527438a, 0xe3fd84a0)) == 0x17e03fa5;
    assert 0x17e03fa5 + 0x5825c6bd + 0xf6bb4b60 + 0x0 == 0x66c151c2 as Word;
    assert Md5.RotateLeft(0x66c151c2, 16) == 0x51c266c1;
  }

  lemma HelloWorldRound39()
    ensures Md5.Rounds(HelloWorldBlock, 39, Md5.Words(0xe3fd84a0, 0xe2fd5f50, 0x913af88f, 0x6527438a)) == Md5.Rounds(HelloWorldBlock, 40, Md5.Words(0x6527438a, 0x95da2e62, 0xe2fd5f50, 0x913af88f))
  {
    assert Md5.MessageIndex(39) == 10 && HelloWorldBlock[10] == 0x0 && Md5.K[39] == 0xbebfbc70 && Md5.S[39] == 23;
    assert Md5.RoundFunction(39, Md5.Words(0xe3fd84a0, 0xe2fd5f50, 0x913af88f, 0x6527438a)) == 0x16e0e455;
    assert 0x16e0e455 + 0xe3fd84a0 + 0xbebfbc70 + 0x0 == 0xb99e2565 as Word;
    assert Md5.RotateLeft(0xb99e2565, 23) == 0xb2dccf12;
  }

  lemma HelloWorldRound40()
    ensures Md5.Rounds(HelloWorldBlock, 40, Md5.Words(0x6527438a, 0x95da2e62, 0xe2fd5f50, 0x913af88f)) == Md5.Rounds(HelloWorldBlock, 41, Md5.Words(0x913af88f, 0xd3deef39, 0x95da2e62, 0xe2fd5f50))
  {
    assert Md5.MessageIndex(40) == 13 && HelloWorldBlock[13] == 0x0 && Md5.K[40] == 0x289b7ec6 && Md5.S[40] == 4;
    assert Md5.RoundFunction(40, Md5.Words(0x6527438a, 0x95da2e62, 0xe2fd5f50, 0x913af88f)) == 0xe61d89bd;
    assert 0xe61d89bd + 0x6527438a + 0x289b7ec6 + 0x0 == 0x73e04c0d as Word;
    assert Md5.RotateLeft(0x73e04c0d, 4) == 0x3e04c0d7;
  }

  lemma HelloWorldRound41()
    ensures Md5.Rounds(HelloWorldBlock, 41, Md5.Words(0x913af88f, 0xd3deef39, 0x95da2e62, 0xe2fd5f50)) == Md5.Rounds(HelloWorldBlock, 42, Md5.Words(0xe2fd5f50, 0xe4fdd3a3, 0xd3deef39, 0x95da2e62))
  {
    assert Md5.MessageIndex(41) == 0 && HelloWorldBlock[0] == 0x6c6c6548 && Md5.K[41] == 0xeaa127fa && Md5.S[41] == 11;
    assert Md5.RoundFunction(41, Md5.Words(0x913af88f, 0xd3deef39, 0x95da2e62, 0xe2fd5f50)) == 0xa4f99e0b;
    assert 0xa4f99e0b + 0x913af88f + 0xeaa127fa + 0x6c6c6548 == 0x8d4223dc as Word;
    assert Md5.RotateLeft(0x8d4223dc, 11) == 0x111ee46a;
  }

  lemma HelloWorldRound42()
    ensures Md5.Rounds(HelloWorldBlock, 42, Md5.Words(0xe2fd5f50, 0xe4fdd3a3, 0xd3deef39, 0x95da2e62)) == Md5.Rounds(HelloWorldBlock, 43, Md5.Words(0x95da2e62, 0x884b2e88, 0xe4fdd3a3, 0xd3deef39))
  {
    assert Md5.MessageIndex(42) == 3 && HelloWorldBlock[3] == 0x80 && Md5.K[42] == 0xd4ef3085 && Md5.S[42] == 16;
    assert Md5.RoundFunction(42, Md5.Words(0xe2fd5f50, 0xe4fdd3a3, 0xd3deef39, 0x95da2e62)) == 0xa2f912f8;
    assert 0xa2f912f8 + 0xe2fd5f50 + 0xd4ef3085 + 0x80 == 0x5ae5a34d as Word;
    assert Md5.RotateLeft(0x5ae5a34d, 16) == 0xa34d5ae5;
  }

  lemma HelloWorldRound43()
    ensures Md5.Rounds(HelloWorldBlock, 43, Md5.Words(0x95da2e62, 0x884b2e88, 0xe4fdd3a3, 0xd3deef39)) == Md5.Rounds(HelloWorldBlock, 44, Md5.Words(0xd3deef39, 0x44f813b6, 0x884b2e88, 0xe4fdd3a3))
  {
    assert Md5.MessageIndex(43) == 6 && HelloWorldBlock[6] == 0x0 && Md5.K[43] == 0x4881d05 && Md5.S[43] == 23;
    assert Md5.RoundFunction(43, Md5.Words(0x95da2e62, 0x884b2e88, 0xe4fdd3a3, 0xd3deef39)) == 0xbf681212;
    assert 0xbf681212 + 0x95da2e62 + 0x4881d05 + 0x0 == 0x59ca5d79 as Word;
    assert Md5.RotateLeft(0x59ca5d79, 23) == 0xbcace52e;
  }

  lemma HelloWorldRound44()
    ensures Md5.Rounds(HelloWorldBlock, 44, Md5.Words(0xd3deef39, 0x44f813b6, 0x884b2e88, 0xe4fdd3a3)) == Md5.Rounds(HelloWorldBlock, 45, Md5.Words(0xe4fdd3a3, 0xa522f4b3, 0x44f813b6, 0x884b2e88))
  {
    assert Md5.MessageIndex(44) == 9 && HelloWorldBlock[9] == 0x0 && Md5.K[44] == 0xd9d4d039 && Md5.S[44] == 4;
    assert Md5.RoundFunction(44, Md5.Words(0xd3deef39, 0x44f813b6, 0x884b2e88, 0xe4fdd3a3)) == 0x284eee9d;
    assert 0x284eee9d + 0xd3deef39 + 0xd9d4d039 + 0x0 == 0xd602ae0f as Word;
    assert Md5.RotateLeft(0xd602ae0f, 4) == 0x602ae0fd;
  }

  lemma HelloWorldRound45()
    ensures Md5.Rounds(HelloWorldBlock, 45, Md5.Words(0xe4fdd3a3, 0xa522f4b3, 0x44f813b6, 0x884b2e88)) == Md5.Rounds(HelloWorldBlock, 46, Md5.Words(0x884b2e88, 0xfedb9e5e, 0xa522f4b3, 0x44f813b6))
  {
    assert Md5.MessageIndex(45) == 12 && HelloWorldBlock[12] == 0x0 && Md5.K[45] == 0xe6db99e5 && Md5.S[45] == 11;
    assert Md5.RoundFunction(45, Md5.Words(0xe4fdd3a3, 0xa522f4b3, 0x44f813b6, 0x884b2e88)) == 0x6991c98d;
    assert 0x6991c98d + 0xe4fdd3a3 + 0xe6db99e5 + 0x0 == 0x356b3715 as Word;
    assert Md5.RotateLeft(0x356b3715, 11) == 0x59b8a9ab;
  }

  lemma HelloWorldRound46()
    ensures Md5.Rounds(HelloWorldBlock, 46, Md5.Words(0x884b2e88, 0xfedb9e5e, 0xa522f4b3, 0x44f813b6)) == Md5.Rounds(HelloWorldBlock, 47, Md5.Words(0x44f813b6, 0x23b7654d, 0xfedb9e5e, 0xa522f4b3))
  {
    assert Md5.MessageIndex(46) == 15 && HelloWorldBlock[15] == 0x0 && Md5.K[46] == 0x1fa27cf8 && Md5.S[46] == 16;
    assert Md5.RoundFunction(46, Md5.Words(0x884b2e88, 0xfedb9e5e, 0xa522f4b3, 0x44f813b6)) == 0x1f01795b;
    assert 0x1f01795b + 0x884b2e88 + 0x1fa27cf8 + 0x0 == 0xc6ef24db as Word;
    assert Md5.RotateLeft(0xc6ef24db, 16) == 0x24dbc6ef;
  }

  lemma HelloWorldRound47()
    ensures Md5.Rounds(HelloWorldBlock, 47, Md5.Words(0x44f813b6, 0x23b7654d, 0xfedb9e5e, 0xa522f4b3)) == Md5.Rounds(HelloWorldBlock, 48, Md5.Words(0xa522f4b3, 0x3a8910c0, 0x23b7654d, 0xfedb9e5e))
  {
    assert Md5.MessageIndex(47) == 2 && HelloWorldBlock[2] == 0x21646c72 && Md5.K[47] == 0xc4ac5665 && Md5.S[47] == 23;
    assert Md5.RoundFunction(47, Md5.Words(0x44f813b6, 0x23b7654d, 0xfedb9e5e, 0xa522f4b3)) == 0x784e0fa0;
    assert 0x784e0fa0 + 0x44f813b6 + 0xc4ac5665 + 0x21646c72 == 0xa356e62d as Word;
    assert Md5.RotateLeft(0xa356e62d, 23) == 0x16d1ab73;
  }

  lemma HelloWorldRound48()
    ensures Md5.Rounds(HelloWorldBlock, 48, Md5.Words(0xa522f4b3, 0x3a8910c0, 0x23b7654d, 0xfedb9e5e)) == Md5.Rounds(HelloWorldBlock, 49, Md5.Words(0xfedb9e5e, 0xaf2d4b87, 0x3a8910c0, 0x23b7654d))
  {
    assert Md5.MessageIndex(48) == 0 && HelloWorldBlock[0] == 0x6c6c6548 && Md5.K[48] == 0xf4292244 && Md5.S[48] == 6;
    assert Md5.RoundFunction(48, Md5.Words(0xa522f4b3, 0x3a8910c0, 0x23b7654d, 0xfedb9e5e)) == 0x181a14ac;
    assert 0x181a14ac + 0xa522f4b3 + 0xf4292244 + 0x6c6c6548 == 0x1dd290eb as Word;
    assert Md5.RotateLeft(0x1dd290eb, 6) == 0x74a43ac7;
  }

  lemma HelloWorldRound49()
    ensures Md5.Rounds(HelloWorldBlock, 49, Md5.Words(0xfedb9e5e, 0xaf2d4b87, 0x3a8910c0, 0x23b7654d)) == Md5.Rounds(HelloWorldBlock, 50, Md5.Words(0x23b7654d, 0x5cd2fba6, 0xaf2d4b87, 0x3a8910c0))
  {
    assert Md5.MessageIndex(49) == 7 && HelloWorldBlock[7] == 0x0 && Md5.K[49] == 0x432aff97 && Md5.S[49] == 10;
    assert Md5.RoundFunction(49, Md5.Words(0xfedb9e5e, 0xaf2d4b87, 0x3a8910c0, 0x23b7654d)) == 0xc5e4cb77;
    assert 0xc5e4cb77 + 0xfedb9e5e + 0x432aff97 + 0x0 == 0x7eb696c as Word;
    assert Md5.RotateLeft(0x7eb696c, 10) == 0xada5b01f;
  }

  lemma HelloWorldRound50()
    ensures Md5.Rounds(HelloWorldBlock, 50, Md5.Words(0x23b7654d, 0x5cd2fba6, 0xaf2d4b87, 0x3a8910c0)) == Md5.Rounds(HelloWorldBlock, 51, Md5.Words(0x3a8910c0, 0xfb991cb9, 0x5cd2fba6, 0xaf2d4b87))
  {
    assert Md5.MessageIndex(50) == 14 && HelloWorldBlock[14] == 0x60 && Md5.K[50] == 0xab9423a7 && Md5.S[50] == 15;
    assert Md5.RoundFunction(50, Md5.Words(0x23b7654d, 0x5cd2fba6, 0xaf2d4b87, 0x3a8910c0)) == 0x72dbb438;
    assert 0x72dbb438 + 0x23b7654d + 0xab9423a7 + 0x60 == 0x42273d8c as Word;
    assert Md5.RotateLeft(0x42273d8c, 15) == 0x9ec62113;
  }

  lemma HelloWorldRound51()
    ensures Md5.Rounds(HelloWorldBlock, 51, Md5.Words(0x3a8910c0, 0xfb991cb9, 0x5cd2fba6, 0xaf2d4b87)) == Md5.Rounds(HelloWorldBlock, 52, Md5.Words(0xaf2d4b87, 0x06b4e178, 0xfb991cb9, 0x5cd2fba6))
  {
    assert Md5.MessageIndex(51) == 5 && HelloWorldBlock[5] == 0x0 && Md5.K[51] == 0xfc93a039 && Md5.S[51] == 21;
    assert Md5.RoundFunction(51, Md5.Words(0x3a8910c0, 0xfb991cb9, 0x5cd2fba6, 0xaf2d4b87)) == 0xa709475f;
    assert 0xa709475f + 0x3a8910c0 + 0xfc93a039 + 0x0 == 0xde25f858 as Word;
    assert Md5.RotateLeft(0xde25f858, 21) == 0xb1bc4bf;
  }

  lemma HelloWorldRound52()
    ensures Md5.Rounds(HelloWorldBlock, 52, Md5.Words(0xaf2d4b87, 0x06b4e178, 0xfb991cb9, 0x5cd2fba6)) == Md5.Rounds(HelloWorldBlock, 53, Md5.Words(0x5cd2fba6, 0x321ca414, 0x06b4e178, 0xfb991cb9))
  {
    assert Md5.MessageIndex(52) == 12 && HelloWorldBlock[12] == 0x0 && Md5.K[52] == 0x655b59c3 && Md5.S[52] == 6;
    assert Md5.RoundFunction(52, Md5.Words(0xaf2d4b87, 0x06b4e178, 0xfb991cb9, 0x5cd2fba6)) == 0x5c24f9c0;
    assert 0x5c24f9c0 + 0xaf2d4b87 + 0x655b59c3 + 0x0 == 0x70ad9f0a as Word;
    assert Md5.RotateLeft(0x70ad9f0a, 6) == 0x2b67c29c;
  }

  lemma HelloWorldRound53()
    ensures Md5.Rounds(HelloWorldBlock, 53, Md5.Words(0x5cd2fba6, 0x321ca414, 0x06b4e178, 0xfb991cb9)) == Md5.Rounds(HelloWorldBlock, 54, Md5.Words(0xfb991cb9, 0xd9583c86, 0x321ca414, 0x06b4e178))
  {
    assert Md5.MessageIndex(53) == 3 && HelloWorldBlock[3] == 0x80 && Md5.K[53] == 0x8f0ccc92 && Md5.S[53] == 10;
    assert Md5.RoundFunction(53, Md5.Words(0x5cd2fba6, 0x321ca414, 0x06b4e178, 0xfb991cb9)) == 0x30ca062e;
    assert 0x30ca062e + 0x5cd2fba6 + 0x8f0ccc92 + 0x80 == 0x1ca9cee6 as Word;
    assert Md5.RotateLeft(0x1ca9cee6, 10) == 0xa73b9872;
  }

  lemma HelloWorldRound54()
    ensures Md5.Rounds(HelloWorldBlock, 54, Md5.Words(0xfb991cb9, 0xd9583c86, 0x321ca414, 0x06b4e178)) == Md5.Rounds(HelloWorldBlock, 55, Md5.Words(0x06b4e178, 0x2f3d1fee, 0xd9583c86, 0x321ca414))
  {
    assert Md5.MessageIndex(54) == 10 && HelloWorldBlock[10] == 0x0 && Md5.K[54] == 0xffeff47d && Md5.S[54] == 15;
    assert Md5.RoundFunction(54, Md5.Words(0xfb991cb9, 0xd9583c86, 0x321ca414, 0x06b4e178)) == 0xcb479a93;
    assert 0xcb479a93 + 0xfb991cb9 + 0xffeff47d + 0x0 == 0xc6d0abc9 as Word;
    assert Md5.RotateLeft(0xc6d0abc9, 15) == 0x55e4e368;
  }

  lemma HelloWorldRound55()
    ensures Md5.Rounds(HelloWorldBlock, 55, Md5.Words(0x06b4e178, 0x2f3d1fee, 0xd9583c86, 0x321ca414)) == Md5.Rounds(HelloWorldBlock, 56, Md5.Words(0x321ca414, 0x93636ae6, 0x2f3d1fee, 0xd9583c86))
  {
    assert Md5.MessageIndex(55) == 1 && HelloWorldBlock[1] == 0x6f77206f && Md5.K[55] == 0x85845dd1 && Md5.S[55] == 21;
    assert Md5.RoundFunction(55, Md5.Words(0x06b4e178, 0x2f3d1fee, 0xd9583c86, 0x321ca414)) == 0x36a76369;
    assert 0x36a76369 + 0x6b4e178 + 0x85845dd1 + 0x6f77206f == 0x3257c321 as Word;
    assert Md5.RotateLeft(0x3257c321, 21) == 0x64264af8;
  }

  lemma HelloWorldRound56()
    ensures Md5.Rounds(HelloWorldBlock, 56, Md5.Words(0x321ca414, 0x93636ae6, 0x2f3d1fee, 0xd9583c86)) == Md5.Rounds(HelloWorldBlock, 57, Md5.Words(0xd9583c86, 0x3b6907f4, 0x93636ae6, 0x2f3d1fee))
  {
    assert Md5.MessageIndex(56) == 8 && HelloWorldBlock[8] == 0x0 && Md5.K[56] == 0x6fa87e4f && Md5.S[56] == 6;
    assert Md5.RoundFunction(56, Md5.Words(0x321ca414, 0x93636ae6, 0x2f3d1fee, 0xd9583c86)) == 0x98daf411;
    assert 0x98daf411 + 0x321ca414 + 0x6fa87e4f + 0x0 == 0x3aa01674 as Word;
    assert Md5.RotateLeft(0x3aa01674, 6) == 0xa8059d0e;
  }

  lemma HelloWorldRound57()
    ensures Md5.Rounds(HelloWorldBlock, 57, Md5.Words(0xd9583c86, 0x3b6907f4, 0x93636ae6, 0x2f3d1fee)) == Md5.Rounds(HelloWorldBlock, 58, Md5.Words(0x2f3d1fee, 0x722aecf4, 0x3b6907f4, 0x93636ae6))
  {
    assert Md5.MessageIndex(57) == 15 && HelloWorldBlock[15] == 0x0 && Md5.K[57] == 0xfe2ce6e0 && Md5.S[57] == 10;
    assert Md5.RoundFunction(57, Md5.Words(0xd9583c86, 0x3b6907f4, 0x93636ae6, 0x2f3d1fee)) == 0x68888d13;
    assert 0x68888d13 + 0xd9583c86 + 0xfe2ce6e0 + 0x0 == 0x400db079 as Word;
    assert Md5.RotateLeft(0x400db079, 10) == 0x36c1e500;
  }

  lemma HelloWorldRound58()
    ensures Md5.Rounds(HelloWorldBlock, 58, Md5.Words(0x2f3d1fee, 0x722aecf4, 0x3b6907f4, 0x93636ae6)) == Md5.Rounds(HelloWorldBlock, 59, Md5.Words(0x93636ae6, 0xa0b078ff, 0x722aecf4, 0x3b6907f4))
  {
    assert Md5.MessageIndex(58) == 6 && HelloWorldBlock[6] == 0x0 && Md5.K[58] == 0xa3014314 && Md5.S[58] == 15;
    assert Md5.RoundFunction(58, Md5.Words(0x2f3d1fee, 0x722aecf4, 0x3b6907f4, 0x93636ae6)) == 0x45d7fa09;
    assert 0x45d7fa09 + 0x2f3d1fee + 0xa3014314 + 0x0 == 0x18165d0b as Word;
    assert Md5.RotateLeft(0x18165d0b, 15) == 0x2e858c0b;
  }

  lemma HelloWorldRound59()
    ensures Md5.Rounds(HelloWorldBlock, 59, Md5.Words(0x93636ae6, 0xa0b078ff, 0x722aecf4, 0x3b6907f4)) == Md5.Rounds(HelloWorldBlock, 60, Md5.Words(0x3b6907f4, 0xb2ff79f1, 0xa0b078ff, 0x722aecf4))
  {
    assert Md5.MessageIndex(59) == 13 && HelloWorldBlock[13] == 0x0 && Md5.K[59] == 0x4e0811a1 && Md5.S[59] == 21;
    assert Md5.RoundFunction(59, Md5.Words(0x93636ae6, 0xa0b078ff, 0x722aecf4, 0x3b6907f4)) == 0x969c140b;
    assert 0x969c140b + 0x93636ae6 + 0x4e0811a1 + 0x0 == 0x78079092 as Word;
    assert Md5.RotateLeft(0x78079092, 21) == 0x124f00f2;
  }

  lemma HelloWorldRound60()
    ensures Md5.Rounds(HelloWorldBlock, 60, Md5.Words(0x3b6907f4, 0xb2ff79f1, 0xa0b078ff, 0x722aecf4)) == Md5.Rounds(HelloWorldBlock, 61, Md5.Words(0x722aecf4, 0x35e1d885, 0xb2ff79f1, 0xa0b078ff))
  {
    assert Md5.MessageIndex(60) == 4 && HelloWorldBlock[4] == 0x0 && Md5.K[60] == 0xf7537e82 && Md5.S[60] == 6;
    assert Md5.RoundFunction(60, Md5.Words(0x3b6907f4, 0xb2ff79f1, 0xa0b078ff, 0x722aecf4)) == 0x1f4f0304;
    assert 0x1f4f0304 + 0x3b6907f4 + 0xf7537e82 + 0x0 == 0x520b897a as Word;
    assert Md5.RotateLeft(0x520b897a, 6) == 0x82e25e94;
  }

  lemma HelloWorldRound61()
    ensures Md5.Rounds(HelloWorldBlock, 61, Md5.Words(0x722aecf4, 0x35e1d885, 0xb2ff79f1, 0xa0b078ff)) == Md5.Rounds(HelloWorldBlock, 62, Md5.Words(0xa0b078ff, 0x0ff85076, 0x35e1d885, 0xb2ff79f1))
  {
    assert Md5.MessageIndex(61) == 11 && HelloWorldBlock[11] == 0x0 && Md5.K[61] == 0xbd3af235 && Md5.S[61] == 10;
    assert Md5.RoundFunction(61, Md5.Words(0x722aecf4, 0x35e1d885, 0xb2ff79f1, 0xa0b078ff)) == 0xcd10a674;
    assert 0xcd10a674 + 0x722aecf4 + 0xbd3af235 + 0x0 == 0xfc76859d as Word;
    assert Md5.RotateLeft(0xfc76859d, 10) == 0xda1677f1;
  }

  lemma HelloWorldRound62()
    ensures Md5.Rounds(HelloWorldBlock, 62, Md5.Words(0xa0b078ff, 0x0ff85076, 0x35e1d885, 0xb2ff79f1)) == Md5.Rounds(HelloWorldBlock, 63, Md5.Words(0xb2ff79f1, 0xf38c03f8, 0x0ff85076, 0x35e1d885))
  {
    assert Md5.MessageIndex(62) == 2 && HelloWorldBlock[2] == 0x21646c72 && Md5.K[62] == 0x2ad7d2bb && Md5.S[62] == 15;
    assert Md5.RoundFunction(62, Md5.Words(0xa0b078ff, 0x0ff85076, 0x35e1d885, 0xb2ff79f1)) == 0x7a190efb;
    assert 0x7a190efb + 0xa0b078ff + 0x2ad7d2bb + 0x21646c72 == 0x6705c727 as Word;
    assert Md5.RotateLeft(0x6705c727, 15) == 0xe393b382;
  }

  lemma HelloWorldRound63()
    ensures Md5.Rounds(HelloWorldBlock, 63, Md5.Words(0xb2ff79f1, 0xf38c03f8, 0x0ff85076, 0x35e1d885)) == Md5.Rounds(HelloWorldBlock, 64, Md5.Words(0x35e1d885, 0x955e6190, 0xf38c03f8, 0x0ff85076))
  {
    assert Md5.MessageIndex(63) == 9 && HelloWorldBlock[9] == 0x0 && Md5.K[63] == 0xeb86d391 && Md5.S[63] == 21;
    assert Md5.RoundFunction(63, Md5.Words(0xb2ff79f1, 0xf38c03f8, 0x0ff85076, 0x35e1d885)) == 0xf466778c;
    assert 0xf466778c + 0xb2ff79f1 + 0xeb86d391 + 0x0 == 0x92ecc50e as Word;
    assert Md5.RotateLeft(0x92ecc50e, 21) == 0xa1d25d98;
  }

  // ---------------------------------------------------------------------------
  // The diacritics text (tests/hash/test_md5.py, test_validity_diacritics)

  const Diacritics: seq<Byte> := [
    196, 155, 197, 161, 196, 141, 197, 153, 197, 153, 197, 190,
    195, 189, 195, 161, 195, 161, 195, 173]

  /** The 16 words of its padded block. */
  const DiacriticsBlock: seq<Word> := [
    0xa1c59bc4, 0x99c58dc4, 0xbec599c5, 0xa1c3bdc3,
    0xadc3a1c3, 0x00000080, 0x00000000, 0x00000000,
    0x00000000, 0x00000000, 0x00000000, 0x00000000,
    0x00000000, 0x00000000, 0x000000a0, 0x00000000]

  lemma DiacriticsDigest()
    ensures Md5.ToHex(Md5.New(Diacritics)) == Success("f41562989870cb1427341bc4b8c1af35")
  {
    DiacriticsFinal();
    DiacriticsHexText();
  }

  lemma DiacriticsHexText()
    ensures Hex(Md5.WordsToBytes(Md5.Words(0x986215f4, 0x14cb7098, 0xc41b3427, 0x35afc1b8))) == "f41562989870cb1427341bc4b8c1af35"
  {
    HexOfWords(Md5.Words(0x986215f4, 0x14cb7098, 0xc41b3427, 0x35afc1b8));
    DiacriticsHex0();
    DiacriticsHex1();
    DiacriticsHex2();
    DiacriticsHex3();
    DiacriticsHexJoin();
  }

  lemma DiacriticsHexJoin()
    ensures "f41562989870cb1427341bc4b8c1af35" == "f4156298" + ("9870cb14" + ("27341bc4" + "b8c1af35"))
  {
  }

  lemma DiacriticsFinal()
    ensures Md5.Finalize(Md5.New(Diacritics)) == Success(Md5.Words(0x986215f4, 0x14cb7098, 0xc41b3427, 0x35afc1b8))
  {
    var h := Md5.New(Diacritics);
    assert h == Md5.Hasher(Diacritics, 20, Md5.Initial);
    DiacriticsBlockWords();
    DiacriticsRounds();
  }

  lemma DiacriticsHex0()
    ensures Hex(BytesOfWord(0x986215f4)) == "f4156298"
  {
  }

  lemma DiacriticsHex1()
    ensures Hex(BytesOfWord(0x14cb7098)) == "9870cb14"
  {
  }

  lemma DiacriticsHex2()
    ensures Hex(BytesOfWord(0xc41b3427)) == "27341bc4"
  {
  }

  lemma DiacriticsHex3()
    ensures Hex(BytesOfWord(0x35afc1b8)) == "b8c1af35"
  {
  }

  /** The padded block: the text, 0x80, zeros and the bit count 160. */
  lemma DiacriticsBlockWords()
    ensures WordsOf(Md5.Tail(Diacritics, 20).value) == DiacriticsBlock
  {
    ShortTailWords(Diacritics, 20);
    DiacriticsTextWords();
    DiacriticsLengthWords();
    DiacriticsBlockParts();
  }

  lemma DiacriticsBlockParts()
    ensures DiacriticsBlock == [0xa1c59bc4, 0x99c58dc4, 0xbec599c5, 0xa1c3bdc3, 0xadc3a1c3] + [0x80] + ZeroWords(8) + [0xa0, 0x0]
  {
  }

  lemma DiacriticsTextWords()
    ensures WordsOf(Diacritics) == [0xa1c59bc4, 0x99c58dc4, 0xbec599c5, 0xa1c3bdc3, 0xadc3a1c3]
  {
    DiacriticsWord0();
    DiacriticsWord1();
    DiacriticsWord2();
    DiacriticsWord3();
    DiacriticsWord4();
  }

  lemma DiacriticsLengthWords()
    ensures WordsOf(LeBytes(160, 8)) == [0xa0, 0x0]
  {
    DiacriticsLengthBytes();
    DiacriticsLengthFieldWords();
  }

  lemma DiacriticsLengthBytes()
    ensures LeBytes(160, 8) == [160, 0, 0, 0, 0, 0, 0, 0]
  {
    SmallLeBytes(160);
  }

  lemma DiacriticsLengthFieldWords()
    ensures WordsOf([160, 0, 0, 0, 0, 0, 0, 0]) == [0xa0, 0x0]
  {
  }

  lemma DiacriticsWord0()
    ensures WordOf(Diacritics[0 .. 4]) == 0xa1c59bc4
  {
    assert Diacritics[0 .. 4] == [196, 155, 197, 161];
  }

  lemma DiacriticsWord1()
    ensures WordOf(Diacritics[4 .. 8]) == 0x99c58dc4
  {
    assert Diacritics[4 .. 8] == [196, 141, 197, 153];
  }

  lemma DiacriticsWord2()
    ensures WordOf(Diacritics[8 .. 12]) == 0xbec599c5
  {
    assert Diacritics[8 .. 12] == [197, 153, 197, 190];
  }

  lemma DiacriticsWord3()
    ensures WordOf(Diacritics[12 .. 16]) == 0xa1c3bdc3
  {
    assert Diacritics[12 .. 16] == [195, 189, 195, 161];
  }

  lemma DiacriticsWord4()
    ensures WordOf(Diacritics[16 .. 20]) == 0xadc3a1c3
  {
    assert Diacritics[16 .. 20] == [195, 161, 195, 173];
  }

  /** Iterations 0 .. 63 of the loop of `_hash_chunk` on the padded block. */
  lemma DiacriticsRounds()
    ensures Md5.Rounds(DiacriticsBlock, 0, Md5.Initial) == Md5.Words(0x311cf2f3, 0x24fdc50f, 0x2b605729, 0x257d6d42)
  {
    DiacriticsRound0();
    DiacriticsRound1();
    DiacriticsRound2();
    DiacriticsRound3();
    DiacriticsRound4();
    DiacriticsRound5();
    DiacriticsRound6();
    DiacriticsRound7();
    DiacriticsRound8();
    DiacriticsRound9();
    DiacriticsRound10();
    DiacriticsRound11();
    DiacriticsRound12();
    DiacriticsRound13();
    DiacriticsRound14();
    DiacriticsRound15();
    DiacriticsRound16();
    DiacriticsRound17();
    DiacriticsRound18();
    DiacriticsRound19();
    DiacriticsRound20();
    DiacriticsRound21();
    DiacriticsRound22();
    DiacriticsRound23();
    DiacriticsRound24();
    DiacriticsRound25();
    DiacriticsRound26();
    DiacriticsRound27();
    DiacriticsRound28();
    DiacriticsRound29();
    DiacriticsRound30();
    DiacriticsRound31();
    DiacriticsRound32();
    DiacriticsRound33();
    DiacriticsRound34();
    DiacriticsRound35();
    DiacriticsRound36();
    DiacriticsRound37();
    DiacriticsRound38();
    DiacriticsRound39();
    DiacriticsRound40();
    DiacriticsRound41();
    DiacriticsRound42();
    DiacriticsRound43();
    DiacriticsRound44();
    DiacriticsRound45();
    DiacriticsRound46();
    DiacriticsRound47();
    DiacriticsRound48();
    DiacriticsRound49();
    DiacriticsRound50();
    DiacriticsRound51();
    DiacriticsRound52();
    DiacriticsRound53();
    DiacriticsRound54();
    DiacriticsRound55();
    DiacriticsRound56();
    DiacriticsRound57();
    DiacriticsRound58();
    DiacriticsRound59();
    DiacriticsRound60();
    DiacriticsRound61();
    DiacriticsRound62();
    DiacriticsRound63();
  }

  lemma DiacriticsRound0()
    ensures Md5.Rounds(DiacriticsBlock, 0, Md5.Words(0x67452301, 0xefcdab89, 0x98badcfe, 0x10325476)) == Md5.Rounds(DiacriticsBlock, 1, Md5.Words(0x10325476, 0x87edc945, 0xefcdab89, 0x98badcfe))
  {
    assert Md5.MessageIndex(0) == 0 && DiacriticsBlock[0] == 0xa1c59bc4 && Md5.K[0] == 0xd76aa478 && Md5.S[0] == 7;
    assert Md5.RoundFunction(0, Md5.Words(0x67452301, 0xefcdab89, 0x98badcfe, 0x10325476)) == 0x98badcfe;
    assert 0x98badcfe + 0x67452301 + 0xd76aa478 + 0xa1c59bc4 == 0x7930403b as Word;
    assert Md5.RotateLeft(0x7930403b, 7) == 0x98201dbc;
  }

  lemma DiacriticsRound1()
    ensures Md5.Rounds(DiacriticsBlock, 1, Md5.Words(0x10325476, 0x87edc945, 0xefcdab89, 0x98badcfe)) == Md5.Rounds(DiacriticsBlock, 2, Md5.Words(0x98badcfe, 0x7b627c6e, 0x87edc945, 0xefcdab89))
  {
    assert Md5.MessageIndex(1) == 1 && DiacriticsBlock[1] == 0x99c58dc4 && Md5.K[1] == 0xe8c7b756 && Md5.S[1] == 12;
    assert Md5.RoundFunction(1, Md5.Words(0x10325476, 0x87edc945, 0xefcdab89, 0x98badcfe)) == 0x9fdf9dbb;
    assert 0x9fdf9dbb + 0x10325476 + 0xe8c7b756 + 0x99c58dc4 == 0x329f374b as Word;
    assert Md5.RotateLeft(0x329f374b, 12) == 0xf374b329;
  }

  lemma DiacriticsRound2()
    ensures Md5.Rounds(DiacriticsBlock, 2, Md5.Words(0x98badcfe, 0x7b627c6e, 0x87edc945, 0xefcdab89)) == Md5.Rounds(DiacriticsBlock, 3, Md5.Words(0xefcdab89, 0xe228838b, 0x7b627c6e, 0x87edc945))
  {
    assert Md5.MessageIndex(2) == 2 && DiacriticsBlock[2] == 0xbec599c5 && Md5.K[2] == 0x242070db && Md5.S[2] == 17;
    assert Md5.RoundFunction(2, Md5.Words(0x98badcfe, 0x7b627c6e, 0x87edc945, 0xefcdab89)) == 0x87edcbc5;
    assert 0x87edcbc5 + 0x98badcfe + 0x242070db + 0xbec599c5 == 0x38eb363 as Word;
    assert Md5.RotateLeft(0x38eb363, 17) == 0x66c6071d;
  }

  lemma DiacriticsRound3()
    ensures Md5.Rounds(DiacriticsBlock, 3, Md5.Words(0xefcdab89, 0xe228838b, 0x7b627c6e, 0x87edc945)) == Md5.Rounds(DiacriticsBlock, 4, Md5.Words(0x87edc945, 0x045750ab, 0xe228838b, 0x7b627c6e))
  {
    assert Md5.MessageIndex(3) == 3 && DiacriticsBlock[3] == 0xa1c3bdc3 && Md5.K[3] == 0xc1bdceee && Md5.S[3] == 22;
    assert Md5.RoundFunction(3, Md5.Words(0xefcdab89, 0xe228838b, 0x7b627c6e, 0x87edc945)) == 0x67e5484e;
    assert 0x67e5484e + 0xefcdab89 + 0xc1bdceee + 0xa1c3bdc3 == 0xbb348088 as Word;
    assert Md5.RotateLeft(0xbb348088, 22) == 0x222ecd20;
  }

  lemma DiacriticsRound4()
    ensures Md5.Rounds(DiacriticsBlock, 4, Md5.Words(0x87edc945, 0x045750ab, 0xe228838b, 0x7b627c6e)) == Md5.Rounds(DiacriticsBlock, 5, Md5.Words(0x7b627c6e, 0x2b2b13fe, 0x045750ab, 0xe228838b))
  {
    assert Md5.MessageIndex(4) == 4 && DiacriticsBlock[4] == 0xadc3a1c3 && Md5.K[4] == 0xf57c0faf && Md5.S[4] == 7;
    assert Md5.RoundFunction(4, Md5.Words(0x87edc945, 0x045750ab, 0xe228838b, 0x7b627c6e)) == 0x7b202ccf;
    assert 0x7b202ccf + 0x87edc945 + 0xf57c0faf + 0xadc3a1c3 == 0xa64da786 as Word;
    assert Md5.RotateLeft(0xa64da786, 7) == 0x26d3c353;
  }

  lemma DiacriticsRound5()
    ensures Md5.Rounds(DiacriticsBlock, 5, Md5.Words(0x7b627c6e, 0x2b2b13fe, 0x045750ab, 0xe228838b)) == Md5.Rounds(DiacriticsBlock, 6, Md5.Words(0xe228838b, 0x08674c2c, 0x2b2b13fe, 0x045750ab))
  {
    assert Md5.MessageIndex(5) == 5 && DiacriticsBlock[5] == 0x80 && Md5.K[5] == 0x4787c62a && Md5.S[5] == 12;
    assert Md5.RoundFunction(5, Md5.Words(0x7b627c6e, 0x2b2b13fe, 0x045750ab, 0xe228838b)) == 0xc00390ab;
    assert 0xc00390ab + 0x7b627c6e + 0x4787c62a + 0x80 == 0x82edd3c3 as Word;
    assert Md5.RotateLeft(0x82edd3c3, 12) == 0xdd3c382e;
  }

  lemma DiacriticsRound6()
    ensures Md5.Rounds(DiacriticsBlock, 6, Md5.Words(0xe228838b, 0x08674c2c, 0x2b2b13fe, 0x045750ab)) == Md5.Rounds(DiacriticsBlock, 7, Md5.Words(0x045750ab, 0xbd027943, 0x08674c2c, 0x2b2b13fe))
  {
    assert Md5.MessageIndex(6) == 6 && DiacriticsBlock[6] == 0x0 && Md5.K[6] == 0xa8304613 && Md5.S[6] == 17;
    assert Md5.RoundFunction(6, Md5.Words(0xe228838b, 0x08674c2c, 0x2b2b13fe, 0x045750ab)) == 0xc3310af;
    assert 0xc3310af + 0xe228838b + 0xa8304613 + 0x0 == 0x968bda4d as Word;
    assert Md5.RotateLeft(0x968bda4d, 17) == 0xb49b2d17;
  }

  lemma DiacriticsRound7()
    ensures Md5.Rounds(DiacriticsBlock, 7, Md5.Words(0x045750ab, 0xbd027943, 0x08674c2c, 0x2b2b13fe)) == Md5.Rounds(DiacriticsBlock, 8, Md5.Words(0x2b2b13fe, 0xd7056b8f, 0xbd027943, 0x08674c2c))
  {
    assert Md5.MessageIndex(7) == 7 && DiacriticsBlock[7] == 0x0 && Md5.K[7] == 0xfd469501 && Md5.S[7] == 22;
    assert Md5.RoundFunction(7, Md5.Words(0x045750ab, 0xbd027943, 0x08674c2c, 0x2b2b13fe)) == 0xa2b4abc;
    assert 0xa2b4abc + 0x45750ab + 0xfd469501 + 0x0 == 0xbc93068 as Word;
    assert Md5.RotateLeft(0xbc93068, 22) == 0x1a02f24c;
  }

  lemma DiacriticsRound8()
    ensures Md5.Rounds(DiacriticsBlock, 8, Md5.Words(0x2b2b13fe, 0xd7056b8f, 0xbd027943, 0x08674c2c)) == Md5.Rounds(DiacriticsBlock, 9, Md5.Words(0x08674c2c, 0xde126828, 0xd7056b8f, 0xbd027943))
  {
    assert Md5.MessageIndex(8) == 8 && DiacriticsBlock[8] == 0x0 && Md5.K[8] == 0x698098d8 && Md5.S[8] == 7;
    assert Md5.RoundFunction(8, Md5.Words(0x2b2b13fe, 0xd7056b8f, 0xbd027943, 0x08674c2c)) == 0x9d626d23;
    assert 0x9d626d23 + 0x2b2b13fe + 0x698098d8 + 0x0 == 0x320e19f9 as Word;
    assert Md5.RotateLeft(0x320e19f9, 7) == 0x70cfc99;
  }

  lemma DiacriticsRound9()
    ensures Md5.Rounds(DiacriticsBlock, 9, Md5.Words(0x08674c2c, 0xde126828, 0xd7056b8f, 0xbd027943)) == Md5.Rounds(DiacriticsBlock, 10, Md5.Words(0xbd027943, 0xa9e4d0d2, 0xde126828, 0xd7056b8f))
  {
    assert Md5.MessageIndex(9) == 9 && DiacriticsBlock[9] == 0x0 && Md5.K[9] == 0x8b44f7af && Md5.S[9] == 12;
    assert Md5.RoundFunction(9, Md5.Words(0x08674c2c, 0xde126828, 0xd7056b8f, 0xbd027943)) == 0xf700794b;
    assert 0xf700794b + 0x8674c2c + 0x8b44f7af + 0x0 == 0x8aacbd26 as Word;
    assert Md5.RotateLeft(0x8aacbd26, 12) == 0xcbd268aa;
  }

  lemma DiacriticsRound10()
    ensures Md5.Rounds(DiacriticsBlock, 10, Md5.Words(0xbd027943, 0xa9e4d0d2, 0xde126828, 0xd7056b8f)) == Md5.Rounds(DiacriticsBlock, 11, Md5.Words(0xd7056b8f, 0x29e806d8, 0xa9e4d0d2, 0xde126828))
  {
    assert Md5.MessageIndex(10) == 10 && DiacriticsBlock[10] == 0x0 && Md5.K[10] == 0xffff5bb1 && Md5.S[10] == 17;
    assert Md5.RoundFunction(10, Md5.Words(0xbd027943, 0xa9e4d0d2, 0xde126828, 0xd7056b8f)) == 0xde016b0d;
    assert 0xde016b0d + 0xbd027943 + 0xffff5bb1 + 0x0 == 0x9b034001 as Word;
    assert Md5.RotateLeft(0x9b034001, 17) == 0x80033606;
  }

  lemma DiacriticsRound11()
    ensures Md5.Rounds(DiacriticsBlock, 11, Md5.Words(0xd7056b8f, 0x29e806d8, 0xa9e4d0d2, 0xde126828)) == Md5.Rounds(DiacriticsBlock, 12, Md5.Words(0xde126828, 0x39401c03, 0x29e806d8, 0xa9e4d0d2))
  {
    assert Md5.MessageIndex(11) == 11 && DiacriticsBlock[11] == 0x0 && Md5.K[11] == 0x895cd7be && Md5.S[11] == 22;
    assert Md5.RoundFunction(11, Md5.Words(0xd7056b8f, 0x29e806d8, 0xa9e4d0d2, 0xde126828)) == 0xfff268f0;
    assert 0xfff268f0 + 0xd7056b8f + 0x895cd7be + 0x0 == 0x6054ac3d as Word;
    assert Md5.RotateLeft(0x6054ac3d, 22) == 0xf58152b;
  }

  lemma DiacriticsRound12()
    ensures Md5.Rounds(DiacriticsBlock, 12, Md5.Words(0xde126828, 0x39401c03, 0x29e806d8, 0xa9e4d0d2)) == Md5.Rounds(DiacriticsBlock, 13, Md5.Words(0xa9e4d0d2, 0xfcdf297c, 0x39401c03, 0x29e806d8))
  {
    assert Md5.MessageIndex(12) == 12 && DiacriticsBlock[12] == 0x0 && Md5.K[12] == 0x6b901122 && Md5.S[12] == 7;
    assert Md5.RoundFunction(12, Md5.Words(0xde126828, 0x39401c03, 0x29e806d8, 0xa9e4d0d2)) == 0xa9e4c4d0;
    assert 0xa9e4c4d0 + 0xde126828 + 0x6b901122 + 0x0 == 0xf3873e1a as Word;
    assert Md5.RotateLeft(0xf3873e1a, 7) == 0xc39f0d79;
  }

  lemma DiacriticsRound13()
    ensures Md5.Rounds(DiacriticsBlock, 13, Md5.Words(0xa9e4d0d2, 0xfcdf297c, 0x39401c03, 0x29e806d8)) == Md5.Rounds(DiacriticsBlock, 14, Md5.Words(0x29e806d8, 0xd1ed8789, 0xfcdf297c, 0x39401c03))
  {
    assert Md5.MessageIndex(13) == 13 && DiacriticsBlock[13] == 0x0 && Md5.K[13] == 0xfd987193 && Md5.S[13] == 12;
    assert Md5.RoundFunction(13, Md5.Words(0xa9e4d0d2, 0xfcdf297c, 0x39401c03, 0x29e806d8)) == 0x39600e80;
    assert 0x39600e80 + 0xa9e4d0d2 + 0xfd987193 + 0x0 == 0xe0dd50e5 as Word;
    assert Md5.RotateLeft(0xe0dd50e5, 12) == 0xd50e5e0d;
  }

  lemma DiacriticsRound14()
    ensures Md5.Rounds(DiacriticsBlock, 14, Md5.Words(0x29e806d8, 0xd1ed8789, 0xfcdf297c, 0x39401c03)) == Md5.Rounds(DiacriticsBlock, 15, Md5.Words(0x39401c03, 0x9a0f19e5, 0xd1ed8789, 0xfcdf297c))
  {
    assert Md5.MessageIndex(14) == 14 && DiacriticsBlock[14] == 0xa0 && Md5.K[14] == 0xa679438e && Md5.S[14] == 17;
    assert Md5.RoundFunction(14, Md5.Words(0x29e806d8, 0xd1ed8789, 0xfcdf297c, 0x39401c03)) == 0xf8cd190a;
    assert 0xf8cd190a + 0x29e806d8 + 0xa679438e + 0xa0 == 0xc92e6410 as Word;
    assert Md5.RotateLeft(0xc92e6410, 17) == 0xc821925c;
  }

  lemma DiacriticsRound15()
    ensures Md5.Rounds(DiacriticsBlock, 15, Md5.Words(0x39401c03, 0x9a0f19e5, 0xd1ed8789, 0xfcdf297c)) == Md5.Rounds(DiacriticsBlock, 16, Md5.Words(0xfcdf297c, 0x096d0e36, 0x9a0f19e5, 0xd1ed8789))
  {
    assert Md5.MessageIndex(15) == 15 && DiacriticsBlock[15] == 0x0 && Md5.K[15] == 0x49b40821 && Md5.S[15] == 22;
    assert Md5.RoundFunction(15, Md5.Words(0x39401c03, 0x9a0f19e5, 0xd1ed8789, 0xfcdf297c)) == 0xf4dd2199;
    assert 0xf4dd2199 + 0x39401c03 + 0x49b40821 + 0x0 == 0x77d145bd as Word;
    assert Md5.RotateLeft(0x77d145bd, 22) == 0x6f5df451;
  }

  lemma DiacriticsRound16()
    ensures Md5.Rounds(DiacriticsBlock, 16, Md5.Words(0xfcdf297c, 0x096d0e36, 0x9a0f19e5, 0xd1ed8789)) == Md5.Rounds(DiacriticsBlock, 17, Md5.Words(0xd1ed8789, 0x0fac6f09, 0x096d0e36, 0x9a0f19e5))
  {
    assert Md5.MessageIndex(16) == 1 && DiacriticsBlock[1] == 0x99c58dc4 && Md5.K[16] == 0xf61e2562 && Md5.S[16] == 5;
    assert Md5.RoundFunction(16, Md5.Words(0xfcdf297c, 0x096d0e36, 0x9a0f19e5, 0xd1ed8789)) == 0xb6f1e64;
    assert 0xb6f1e64 + 0xfcdf297c + 0xf61e2562 + 0x99c58dc4 == 0x9831fb06 as Word;
    assert Md5.RotateLeft(0x9831fb06, 5) == 0x63f60d3;
  }

  lemma DiacriticsRound17()
    ensures Md5.Rounds(DiacriticsBlock, 17, Md5.Words(0xd1ed8789, 0x0fac6f09, 0x096d0e36, 0x9a0f19e5)) == Md5.Rounds(DiacriticsBlock, 18, Md5.Words(0x9a0f19e5, 0x44402844, 0x0fac6f09, 0x096d0e36))
  {
    assert Md5.MessageIndex(17) == 6 && DiacriticsBlock[6] == 0x0 && Md5.K[17] == 0xc040b340 && Md5.S[17] == 9;
    assert Md5.RoundFunction(17, Md5.Words(0xd1ed8789, 0x0fac6f09, 0x096d0e36, 0x9a0f19e5)) == 0xb6c0f13;
    assert 0xb6c0f13 + 0xd1ed8789 + 0xc040b340 + 0x0 == 0x9d9a49dc as Word;
    assert Md5.RotateLeft(0x9d9a49dc, 9) == 0x3493b93b;
  }

  lemma DiacriticsRound18()
    ensures Md5.Rounds(DiacriticsBlock, 18, Md5.Words(0x9a0f19e5, 0x44402844, 0x0fac6f09, 0x096d0e36)) == Md5.Rounds(DiacriticsBlock, 19, Md5.Words(0x096d0e36, 0xbb911a0f, 0x44402844, 0x0fac6f09))
  {
    assert Md5.MessageIndex(18) == 11 && DiacriticsBlock[11] == 0x0 && Md5.K[18] == 0x265e5a51 && Md5.S[18] == 14;
    assert Md5.RoundFunction(18, Md5.Words(0x9a0f19e5, 0x44402844, 0x0fac6f09, 0x096d0e36)) == 0x6c0690d;
    assert 0x6c0690d + 0x9a0f19e5 + 0x265e5a51 + 0x0 == 0xc72ddd43 as Word;
    assert Md5.RotateLeft(0xc72ddd43, 14) == 0x7750f1cb;
  }

  lemma DiacriticsRound19()
    ensures Md5.Rounds(DiacriticsBlock, 19, Md5.Words(0x096d0e36, 0xbb911a0f, 0x44402844, 0x0fac6f09)) == Md5.Rounds(DiacriticsBlock, 20, Md5.Words(0x0fac6f09, 0x7aaf24a6, 0xbb911a0f, 0x44402844))
  {
    assert Md5.MessageIndex(19) == 0 && DiacriticsBlock[0] == 0xa1c59bc4 && Md5.K[19] == 0xe9b6c7aa && Md5.S[19] == 20;
    assert Md5.RoundFunction(19, Md5.Words(0x096d0e36, 0xbb911a0f, 0x44402844, 0x0fac6f09)) == 0x4bc00a4d;
    assert 0x4bc00a4d + 0x96d0e36 + 0xe9b6c7aa + 0xa1c59bc4 == 0xe0a97bf1 as Word;
    assert Md5.RotateLeft(0xe0a97bf1, 20) == 0xbf1e0a97;
  }

  lemma DiacriticsRound20()
    ensures Md5.Rounds(DiacriticsBlock, 20, Md5.Words(0x0fac6f09, 0x7aaf24a6, 0xbb911a0f, 0x44402844)) == Md5.Rounds(DiacriticsBlock, 21, Md5.Words(0x44402844, 0xa8456362, 0x7aaf24a6, 0xbb911a0f))
  {
    assert Md5.MessageIndex(20) == 5 && DiacriticsBlock[5] == 0x80 && Md5.K[20] == 0xd62f105d && Md5.S[20] == 5;
    assert Md5.RoundFunction(20, Md5.Words(0x0fac6f09, 0x7aaf24a6, 0xbb911a0f, 0x44402844)) == 0xfb91320f;
    assert 0xfb91320f + 0xfac6f09 + 0xd62f105d + 0x80 == 0xe16cb1f5 as Word;
    assert Md5.RotateLeft(0xe16cb1f5, 5) == 0x2d963ebc;
  }

  lemma DiacriticsRound21()
    ensures Md5.Rounds(DiacriticsBlock, 21, Md5.Words(0x44402844, 0xa8456362, 0x7aaf24a6, 0xbb911a0f)) == Md5.Rounds(DiacriticsBlock, 22, Md5.Words(0xbb911a0f, 0x0f0bd5bf, 0xa8456362, 0x7aaf24a6))
  {
    assert Md5.MessageIndex(21) == 10 && DiacriticsBlock[10] == 0x0 && Md5.K[21] == 0x2441453 && Md5.S[21] == 9;
    assert Md5.RoundFunction(21, Md5.Words(0x44402844, 0xa8456362, 0x7aaf24a6, 0xbb911a0f)) == 0xe82f26a2;
    assert 0xe82f26a2 + 0x44402844 + 0x2441453 + 0x0 == 0x2eb36339 as Word;
    assert Md5.RotateLeft(0x2eb36339, 9) == 0x66c6725d;
  }

  lemma DiacriticsRound22()
    ensures Md5.Rounds(DiacriticsBlock, 22, Md5.Words(0xbb911a0f, 0x0f0bd5bf, 0xa8456362, 0x7aaf24a6)) == Md5.Rounds(DiacriticsBlock, 23, Md5.Words(0x7aaf24a6, 0xa1295d5e, 0x0f0bd5bf, 0xa8456362))
  {
    assert Md5.MessageIndex(22) == 15 && DiacriticsBlock[15] == 0x0 && Md5.K[22] == 0xd8a1e681 && Md5.S[22] == 14;
    assert Md5.RoundFunction(22, Md5.Words(0xbb911a0f, 0x0f0bd5bf, 0xa8456362, 0x7aaf24a6)) == 0x8a4b47e6;
    assert 0x8a4b47e6 + 0xbb911a0f + 0xd8a1e681 + 0x0 == 0x1e7e4876 as Word;
    assert Md5.RotateLeft(0x1e7e4876, 14) == 0x921d879f;
  }

  lemma DiacriticsRound23()
    ensures Md5.Rounds(DiacriticsBlock, 23, Md5.Words(0x7aaf24a6, 0xa1295d5e, 0x0f0bd5bf, 0xa8456362)) == Md5.Rounds(DiacriticsBlock, 24, Md5.Words(0xa8456362, 0x2234d287, 0xa1295d5e, 0x0f0bd5bf))
  {
    assert Md5.MessageIndex(23) == 4 && DiacriticsBlock[4] == 0xadc3a1c3 && Md5.K[23] == 0xe7d3fbc8 && Md5.S[23] == 20;
    assert Md5.RoundFunction(23, Md5.Words(0x7aaf24a6, 0xa1295d5e, 0x0f0bd5bf, 0xa8456362)) == 0xa70bd5df;
    assert 0xa70bd5df + 0x7aaf24a6 + 0xe7d3fbc8 + 0xadc3a1c3 == 0xb7529810 as Word;
    assert Md5.RotateLeft(0xb7529810, 20) == 0x810b7529;
  }

  lemma DiacriticsRound24()
    ensures Md5.Rounds(DiacriticsBlock, 24, Md5.Words(0xa8456362, 0x2234d287, 0xa1295d5e, 0x0f0bd5bf)) == Md5.Rounds(DiacriticsBlock, 25, Md5.Words(0x0f0bd5bf, 0xab361474, 0x2234d287, 0xa1295d5e))
  {
    assert Md5.MessageIndex(24) == 9 && DiacriticsBlock[9] == 0x0 && Md5.K[24] == 0x21e1cde6 && Md5.S[24] == 5;
    assert Md5.RoundFunction(24, Md5.Words(0xa8456362, 0x2234d287, 0xa1295d5e, 0x0f0bd5bf)) == 0xa220d8c7;
    assert 0xa220d8c7 + 0xa8456362 + 0x21e1cde6 + 0x0 == 0x6c480a0f as Word;
    assert Md5.RotateLeft(0x6c480a0f, 5) == 0x890141ed;
  }

  lemma DiacriticsRound25()
    ensures Md5.Rounds(DiacriticsBlock, 25, Md5.Words(0x0f0bd5bf, 0xab361474, 0x2234d287, 0xa1295d5e)) == Md5.Rounds(DiacriticsBlock, 26, Md5.Words(0xa1295d5e, 0x9a20295e, 0xab361474, 0x2234d287))
  {
    assert Md5.MessageIndex(25) == 14 && DiacriticsBlock[14] == 0xa0 && Md5.K[25] == 0xc33707d6 && Md5.S[25] == 9;
    assert Md5.RoundFunction(25, Md5.Words(0x0f0bd5bf, 0xab361474, 0x2234d287, 0xa1295d5e)) == 0xa33496d5;
    assert 0xa33496d5 + 0xf0bd5bf + 0xc33707d6 + 0xa0 == 0x7577750a as Word;
    assert Md5.RotateLeft(0x7577750a, 9) == 0xeeea14ea;
  }

  lemma DiacriticsRound26()
    ensures Md5.Rounds(DiacriticsBlock, 26, Md5.Words(0xa1295d5e, 0x9a20295e, 0xab361474, 0x2234d287)) == Md5.Rounds(DiacriticsBlock, 27, Md5.Words(0x2234d287, 0xa567da17, 0x9a20295e, 0xab361474))
  {
    assert Md5.MessageIndex(26) == 3 && DiacriticsBlock[3] == 0xa1c3bdc3 && Md5.K[26] == 0xf4d50d87 && Md5.S[26] == 14;
    assert Md5.RoundFunction(26, Md5.Words(0xa1295d5e, 0x9a20295e, 0xab361474, 0x2234d287)) == 0x8b220476;
    assert 0x8b220476 + 0xa1295d5e + 0xf4d50d87 + 0xa1c3bdc3 == 0xc2e42d1e as Word;
    assert Md5.RotateLeft(0xc2e42d1e, 14) == 0xb47b0b9;
  }

  lemma DiacriticsRound27()
    ensures Md5.Rounds(DiacriticsBlock, 27, Md5.Words(0x2234d287, 0xa567da17, 0x9a20295e, 0xab361474)) == Md5.Rounds(DiacriticsBlock, 28, Md5.Words(0xab361474, 0xae896569, 0xa567da17, 0x9a20295e))
  {
    assert Md5.MessageIndex(27) == 8 && DiacriticsBlock[8] == 0x0 && Md5.K[27] == 0x455a14ed && Md5.S[27] == 20;
    assert Md5.RoundFunction(27, Md5.Words(0x2234d287, 0xa567da17, 0x9a20295e, 0xab361474)) == 0xb126391e;
    assert 0xb126391e + 0x2234d287 + 0x455a14ed + 0x0 == 0x18b52092 as Word;
    assert Md5.RotateLeft(0x18b52092, 20) == 0x9218b52;
  }

  lemma DiacriticsRound28()
    ensures Md5.Rounds(DiacriticsBlock, 28, Md5.Words(0xab361474, 0xae896569, 0xa567da17, 0x9a20295e)) == Md5.Rounds(DiacriticsBlock, 29, Md5.Words(0x9a20295e, 0x3ac77da9, 0xae896569, 0xa567da17))
  {
    assert Md5.MessageIndex(28) == 13 && DiacriticsBlock[13] == 0x0 && Md5.K[28] == 0xa9e3e905 && Md5.S[28] == 5;
    assert Md5.RoundFunction(28, Md5.Words(0xab361474, 0xae896569, 0xa567da17, 0x9a20295e)) == 0xaf47f349;
    assert 0xaf47f349 + 0xab361474 + 0xa9e3e905 + 0x0 == 0x461f0c2 as Word;
    assert Md5.RotateLeft(0x461f0c2, 5) == 0x8c3e1840;
  }

  lemma DiacriticsRound29()
    ensures Md5.Rounds(DiacriticsBlock, 29, Md5.Words(0x9a20295e, 0x3ac77da9, 0xae896569, 0xa567da17)) == Md5.Rounds(DiacriticsBlock, 30, Md5.Words(0xa567da17, 0x849086aa, 0x3ac77da9, 0xae896569))
  {
    assert Md5.MessageIndex(29) == 2 && DiacriticsBlock[2] == 0xbec599c5 && Md5.K[29] == 0xfcefa3f8 && Md5.S[29] == 9;
    assert Md5.RoundFunction(29, Md5.Words(0x9a20295e, 0x3ac77da9, 0xae896569, 0xa567da17)) == 0x2acf7d69;
    assert 0x2acf7d69 + 0x9a20295e + 0xfcefa3f8 + 0xbec599c5 == 0x80a4e484 as Word;
    assert Md5.RotateLeft(0x80a4e484, 9) == 0x49c90901;
  }

  lemma DiacriticsRound30()
    ensures Md5.Rounds(DiacriticsBlock, 30, Md5.Words(0xa567da17, 0x849086aa, 0x3ac77da9, 0xae896569)) == Md5.Rounds(DiacriticsBlock, 31, Md5.Words(0xae896569, 0xc2f6af11, 0x849086aa, 0x3ac77da9))
  {
    assert Md5.MessageIndex(30) == 7 && DiacriticsBlock[7] == 0x0 && Md5.K[30] == 0x676f02d9 && Md5.S[30] == 14;
    assert Md5.RoundFunction(30, Md5.Words(0xa567da17, 0x849086aa, 0x3ac77da9, 0xae896569)) == 0x94c61ca8;
    assert 0x94c61ca8 + 0xa567da17 + 0x676f02d9 + 0x0 == 0xa19cf998 as Word;
    assert Md5.RotateLeft(0xa19cf998, 14) == 0x3e662867;
  }

  lemma DiacriticsRound31()
    ensures Md5.Rounds(DiacriticsBlock, 31, Md5.Words(0xae896569, 0xc2f6af11, 0x849086aa, 0x3ac77da9)) == Md5.Rounds(DiacriticsBlock, 32, Md5.Words(0x3ac77da9, 0xd262d7b7, 0xc2f6af11, 0x849086aa))
  {
    assert Md5.MessageIndex(31) == 12 && DiacriticsBlock[12] == 0x0 && Md5.K[31] == 0x8d2a4c8a && Md5.S[31] == 20;
    assert Md5.RoundFunction(31, Md5.Words(0xae896569, 0xc2f6af11, 0x849086aa, 0x3ac77da9)) == 0x86d6af03;
    assert 0x86d6af03 + 0xae896569 + 0x8d2a4c8a + 0x0 == 0xc28a60f6 as Word;
    assert Md5.RotateLeft(0xc28a60f6, 20) == 0xf6c28a6;
  }

  lemma DiacriticsRound32()
    ensures Md5.Rounds(DiacriticsBlock, 32, Md5.Words(0x3ac77da9, 0xd262d7b7, 0xc2f6af11, 0x849086aa)) == Md5.Rounds(DiacriticsBlock, 33, Md5.Words(0x849086aa, 0xbece2f33, 0xd262d7b7, 0xc2f6af11))
  {
    assert Md5.MessageIndex(32) == 5 && DiacriticsBlock[5] == 0x80 && Md5.K[32] == 0xfffa3942 && Md5.S[32] == 4;
    assert Md5.RoundFunction(32, Md5.Words(0x3ac77da9, 0xd262d7b7, 0xc2f6af11, 0x849086aa)) == 0x9404fe0c;
    assert 0x9404fe0c + 0x3ac77da9 + 0xfffa3942 + 0x80 == 0xcec6b577 as Word;
    assert Md5.RotateLeft(0xcec6b577, 4) == 0xec6b577c;
  }

  lemma DiacriticsRound33()
    ensures Md5.Rounds(DiacriticsBlock, 33, Md5.Words(0x849086aa, 0xbece2f33, 0xd262d7b7, 0xc2f6af11)) == Md5.Rounds(DiacriticsBlock, 34, Md5.Words(0xc2f6af11, 0xa5743505, 0xbece2f33, 0xd262d7b7))
  {
    assert Md5.MessageIndex(33) == 8 && DiacriticsBlock[8] == 0x0 && Md5.K[33] == 0x8771f681 && Md5.S[33] == 11;
    assert Md5.RoundFunction(33, Md5.Words(0x849086aa, 0xbece2f33, 0xd262d7b7, 0xc2f6af11)) == 0xae5a5795;
    assert 0xae5a5795 + 0x849086aa + 0x8771f681 + 0x0 == 0xba5cd4c0 as Word;
    assert Md5.RotateLeft(0xba5cd4c0, 11) == 0xe6a605d2;
  }

  lemma DiacriticsRound34()
    ensures Md5.Rounds(DiacriticsBlock, 34, Md5.Words(0xc2f6af11, 0xa5743505, 0xbece2f33, 0xd262d7b7)) == Md5.Rounds(DiacriticsBlock, 35, Md5.Words(0xd262d7b7, 0x83292f71, 0xa5743505, 0xbece2f33))
  {
    assert Md5.MessageIndex(34) == 11 && DiacriticsBlock[11] == 0x0 && Md5.K[34] == 0x6d9d6122 && Md5.S[34] == 16;
    assert Md5.RoundFunction(34, Md5.Words(0xc2f6af11, 0xa5743505, 0xbece2f33, 0xd262d7b7)) == 0xc9d8cd81;
    assert 0xc9d8cd81 + 0xc2f6af11 + 0x6d9d6122 + 0x0 == 0xfa6cddb4 as Word;
    assert Md5.RotateLeft(0xfa6cddb4, 16) == 0xddb4fa6c;
  }

  lemma DiacriticsRound35()
    ensures Md5.Rounds(DiacriticsBlock, 35, Md5.Words(0xd262d7b7, 0x83292f71, 0xa5743505, 0xbece2f33)) == Md5.Rounds(DiacriticsBlock, 36, Md5.Words(0xbece2f33, 0x585d9d13, 0x83292f71, 0xa5743505))
  {
    assert Md5.MessageIndex(35) == 14 && DiacriticsBlock[14] == 0xa0 && Md5.K[35] == 0xfde5380c && Md5.S[35] == 23;
    assert Md5.RoundFunction(35, Md5.Words(0xd262d7b7, 0x83292f71, 0xa5743505, 0xbece2f33)) == 0x98933547;
    assert 0x98933547 + 0xd262d7b7 + 0xfde5380c + 0xa0 == 0x68db45aa as Word;
    assert Md5.RotateLeft(0x68db45aa, 23) == 0xd5346da2;
  }

  lemma DiacriticsRound36()
    ensures Md5.Rounds(DiacriticsBlock, 36, Md5.Words(0xbece2f33, 0x585d9d13, 0x83292f71, 0xa5743505)) == Md5.Rounds(DiacriticsBlock, 37, Md5.Words(0xa5743505, 0x0d90873a, 0x585d9d13, 0x83292f71))
  {
    assert Md5.MessageIndex(36) == 1 && DiacriticsBlock[1] == 0x99c58dc4 && Md5.K[36] == 0xa4beea44 && Md5.S[36] == 4;
    assert Md5.RoundFunction(36, Md5.Words(0xbece2f33, 0x585d9d13, 0x83292f71, 0xa5743505)) == 0x7e008767;
    assert 0x7e008767 + 0xbece2f33 + 0xa4beea44 + 0x99c58dc4 == 0x7b532ea2 as Word;
    assert Md5.RotateLeft(0x7b532ea2, 4) == 0xb532ea27;
  }

  lemma DiacriticsRound37()
    ensures Md5.Rounds(DiacriticsBlock, 37, Md5.Words(0xa5743505, 0x0d90873a, 0x585d9d13, 0x83292f71)) == Md5.Rounds(DiacriticsBlock, 38, Md5.Words(0x83292f71, 0xe46ed2e9, 0x0d90873a, 0x585d9d13))
  {
    assert Md5.MessageIndex(37) == 4 && DiacriticsBlock[4] == 0xadc3a1c3 && Md5.K[37] == 0x4bdecfa9 && Md5.S[37] == 11;
    assert Md5.RoundFunction(37, Md5.Words(0xa5743505, 0x0d90873a, 0x585d9d13, 0x83292f71)) == 0xd6e43558;
    assert 0xd6e43558 + 0xa5743505 + 0x4bdecfa9 + 0xadc3a1c3 == 0x75fadbc9 as Word;
    assert Md5.RotateLeft(0x75fadbc9, 11) == 0xd6de4baf;
  }

  lemma DiacriticsRound38()
    ensures Md5.Rounds(DiacriticsBlock, 38, Md5.Words(0x83292f71, 0xe46ed2e9, 0x0d90873a, 0x585d9d13)) == Md5.Rounds(DiacriticsBlock, 39, Md5.Words(0x585d9d13, 0x27fffe71, 0xe46ed2e9, 0x0d90873a))
  {
    assert Md5.MessageIndex(38) == 7 && DiacriticsBlock[7] == 0x0 && Md5.K[38] == 0xf6bb4b60 && Md5.S[38] == 16;
    assert Md5.RoundFunction(38, Md5.Words(0x83292f71, 0xe46ed2e9, 0x0d90873a, 0x585d9d13)) == 0xb1a3c8c0;
    assert 0xb1a3c8c0 + 0x83292f71 + 0xf6bb4b60 + 0x0 == 0x2b884391 as Word;
    assert Md5.RotateLeft(0x2b884391, 16) == 0x43912b88;
  }

  lemma DiacriticsRound39()
    ensures Md5.Rounds(DiacriticsBlock, 39, Md5.Words(0x585d9d13, 0x27fffe71, 0xe46ed2e9, 0x0d90873a)) == Md5.Rounds(DiacriticsBlock, 40, Md5.Words(0x0d90873a, 0xbaf28df3, 0x27fffe71, 0xe46ed2e9))
  {
    assert Md5.MessageIndex(39) == 10 && DiacriticsBlock[10] == 0x0 && Md5.K[39] == 0xbebfbc70 && Md5.S[39] == 23;
    assert Md5.RoundFunction(39, Md5.Words(0x585d9d13, 0x27fffe71, 0xe46ed2e9, 0x0d90873a)) == 0xce01aba2;
    assert 0xce01aba2 + 0x585d9d13 + 0xbebfbc70 + 0x0 == 0xe51f0525 as Word;
    assert Md5.RotateLeft(0xe51f0525, 23) == 0x92f28f82;
  }

  lemma DiacriticsRound40()
    ensures Md5.Rounds(DiacriticsBlock, 40, Md5.Words(0x0d90873a, 0xbaf28df3, 0x27fffe71, 0xe46ed2e9)) == Md5.Rounds(DiacriticsBlock, 41, Md5.Words(0xe46ed2e9, 0xb3ed04ad, 0xbaf28df3, 0x27fffe71))
  {
    assert Md5.MessageIndex(40) == 13 && DiacriticsBlock[13] == 0x0 && Md5.K[40] == 0x289b7ec6 && Md5.S[40] == 4;
    assert Md5.RoundFunction(40, Md5.Words(0x0d90873a, 0xbaf28df3, 0x27fffe71, 0xe46ed2e9)) == 0x7963a16b;
    assert 0x7963a16b + 0xd90873a + 0x289b7ec6 + 0x0 == 0xaf8fa76b as Word;
    assert Md5.RotateLeft(0xaf8fa76b, 4) == 0xf8fa76ba;
  }

  lemma DiacriticsRound41()
    ensures Md5.Rounds(DiacriticsBlock, 41, Md5.Words(0xe46ed2e9, 0xb3ed04ad, 0xbaf28df3, 0x27fffe71)) == Md5.Rounds(DiacriticsBlock, 42, Md5.Words(0x27fffe71, 0x645bb9aa, 0xb3ed04ad, 0xbaf28df3))
  {
    assert Md5.MessageIndex(41) == 0 && DiacriticsBlock[0] == 0xa1c59bc4 && Md5.K[41] == 0xeaa127fa && Md5.S[41] == 11;
    assert Md5.RoundFunction(41, Md5.Words(0xe46ed2e9, 0xb3ed04ad, 0xbaf28df3, 0x27fffe71)) == 0x2ee0772f;
    assert 0x2ee0772f + 0xe46ed2e9 + 0xeaa127fa + 0xa1c59bc4 == 0x9fb60dd6 as Word;
    assert Md5.RotateLeft(0x9fb60dd6, 11) == 0xb06eb4fd;
  }

  lemma DiacriticsRound42()
    ensures Md5.Rounds(DiacriticsBlock, 42, Md5.Words(0x27fffe71, 0x645bb9aa, 0xb3ed04ad, 0xbaf28df3)) == Md5.Rounds(DiacriticsBlock, 43, Md5.Words(0xbaf28df3, 0x8208c5a1, 0x645bb9aa, 0xb3ed04ad))
  {
    assert Md5.MessageIndex(42) == 3 && DiacriticsBlock[3] == 0xa1c3bdc3 && Md5.K[42] == 0xd4ef3085 && Md5.S[42] == 16;
    assert Md5.RoundFunction(42, Md5.Words(0x27fffe71, 0x645bb9aa, 0xb3ed04ad, 0xbaf28df3)) == 0x6d4430f4;
    assert 0x6d4430f4 + 0x27fffe71 + 0xd4ef3085 + 0xa1c3bdc3 == 0xbf71dad as Word;
    assert Md5.RotateLeft(0xbf71dad, 16) == 0x1dad0bf7;
  }

  lemma DiacriticsRound43()
    ensures Md5.Rounds(DiacriticsBlock, 43, Md5.Words(0xbaf28df3, 0x8208c5a1, 0x645bb9aa, 0xb3ed04ad)) == Md5.Rounds(DiacriticsBlock, 44, Md5.Words(0xb3ed04ad, 0x51136232, 0x8208c5a1, 0x645bb9aa))
  {
    assert Md5.MessageIndex(43) == 6 && DiacriticsBlock[6] == 0x0 && Md5.K[43] == 0x4881d05 && Md5.S[43] == 23;
    assert Md5.RoundFunction(43, Md5.Words(0xbaf28df3, 0x8208c5a1, 0x645bb9aa, 0xb3ed04ad)) == 0x55be78a6;
    assert 0x55be78a6 + 0xbaf28df3 + 0x4881d05 + 0x0 == 0x1539239e as Word;
    assert Md5.RotateLeft(0x1539239e, 23) == 0xcf0a9c91;
  }

  lemma DiacriticsRound44()
    ensures Md5.Rounds(DiacriticsBlock, 44, Md5.Words(0xb3ed04ad, 0x51136232, 0x8208c5a1, 0x645bb9aa)) == Md5.Rounds(DiacriticsBlock, 45, Md5.Words(0x645bb9aa, 0xa1329426, 0x51136232, 0x8208c5a1))
  {
    assert Md5.MessageIndex(44) == 9 && DiacriticsBlock[9] == 0x0 && Md5.K[44] == 0xd9d4d039 && Md5.S[44] == 4;
    assert Md5.RoundFunction(44, Md5.Words(0xb3ed04ad, 0x51136232, 0x8208c5a1, 0x645bb9aa)) == 0xb7401e39;
    assert 0xb7401e39 + 0xb3ed04ad + 0xd9d4d039 + 0x0 == 0x4501f31f as Word;
    assert Md5.RotateLeft(0x4501f31f, 4) == 0x501f31f4;
  }

  lemma DiacriticsRound45()
    ensures Md5.Rounds(DiacriticsBlock, 45, Md5.Words(0x645bb9aa, 0xa1329426, 0x51136232, 0x8208c5a1)) == Md5.Rounds(DiacriticsBlock, 46, Md5.Words(0x8208c5a1, 0xa56cba11, 0xa1329426, 0x51136232))
  {
    assert Md5.MessageIndex(45) == 12 && DiacriticsBlock[12] == 0x0 && Md5.K[45] == 0xe6db99e5 && Md5.S[45] == 11;
    assert Md5.RoundFunction(45, Md5.Words(0x645bb9aa, 0xa1329426, 0x51136232, 0x8208c5a1)) == 0x722933b5;
    assert 0x722933b5 + 0x645bb9aa + 0xe6db99e5 + 0x0 == 0xbd608744 as Word;
    assert Md5.RotateLeft(0xbd608744, 11) == 0x43a25eb;
  }

  lemma DiacriticsRound46()
    ensures Md5.Rounds(DiacriticsBlock, 46, Md5.Words(0x8208c5a1, 0xa56cba11, 0xa1329426, 0x51136232)) == Md5.Rounds(DiacriticsBlock, 47, Md5.Words(0x51136232, 0x340bb109, 0xa56cba11, 0xa1329426))
  {
    assert Md5.MessageIndex(46) == 15 && DiacriticsBlock[15] == 0x0 && Md5.K[46] == 0x1fa27cf8 && Md5.S[46] == 16;
    assert Md5.RoundFunction(46, Md5.Words(0x8208c5a1, 0xa56cba11, 0xa1329426, 0x51136232)) == 0x554d4c05;
    assert 0x554d4c05 + 0x8208c5a1 + 0x1fa27cf8 + 0x0 == 0xf6f88e9e as Word;
    assert Md5.RotateLeft(0xf6f88e9e, 16) == 0x8e9ef6f8;
  }

  lemma DiacriticsRound47()
    ensures Md5.Rounds(DiacriticsBlock, 47, Md5.Words(0x51136232, 0x340bb109, 0xa56cba11, 0xa1329426)) == Md5.Rounds(DiacriticsBlock, 48, Md5.Words(0xa1329426, 0x010e1e81, 0x340bb109, 0xa56cba11))
  {
    assert Md5.MessageIndex(47) == 2 && DiacriticsBlock[2] == 0xbec599c5 && Md5.K[47] == 0xc4ac5665 && Md5.S[47] == 23;
    assert Md5.RoundFunction(47, Md5.Words(0x51136232, 0x340bb109, 0xa56cba11, 0xa1329426)) == 0x30559f3e;
    assert 0x30559f3e + 0x51136232 + 0xc4ac5665 + 0xbec599c5 == 0x4daf19a as Word;
    assert Md5.RotateLeft(0x4daf19a, 23) == 0xcd026d78;
  }

  lemma DiacriticsRound48()
    ensures Md5.Rounds(DiacriticsBlock, 48, Md5.Words(0xa1329426, 0x010e1e81, 0x340bb109, 0xa56cba11)) == Md5.Rounds(DiacriticsBlock, 49, Md5.Words(0xa56cba11, 0xae9e63aa, 0x010e1e81, 0x340bb109))
  {
    assert Md5.MessageIndex(48) == 0 && DiacriticsBlock[0] == 0xa1c59bc4 && Md5.K[48] == 0xf4292244 && Md5.S[48] == 6;
    assert Md5.RoundFunction(48, Md5.Words(0xa1329426, 0x010e1e81, 0x340bb109, 0xa56cba11)) == 0x6f94eee6;
    assert 0x6f94eee6 + 0xa1329426 + 0xf4292244 + 0xa1c59bc4 == 0xa6b64114 as Word;
    assert Md5.RotateLeft(0xa6b64114, 6) == 0xad904529;
  }

  lemma DiacriticsRound49()
    ensures Md5.Rounds(DiacriticsBlock, 49, Md5.Words(0xa56cba11, 0xae9e63aa, 0x010e1e81, 0x340bb109)) == Md5.Rounds(DiacriticsBlock, 50, Md5.Words(0x340bb109, 0xcf4b0308, 0xae9e63aa, 0x010e1e81))
  {
    assert Md5.MessageIndex(49) == 7 && DiacriticsBlock[7] == 0x0 && Md5.K[49] == 0x432aff97 && Md5.S[49] == 10;
    assert Md5.RoundFunction(49, Md5.Words(0xa56cba11, 0xae9e63aa, 0x010e1e81, 0x340bb109)) == 0xeef0717f;
    assert 0xeef0717f + 0xa56cba11 + 0x432aff97 + 0x0 == 0xd7882b27 as Word;
    assert Md5.RotateLeft(0xd7882b27, 10) == 0x20ac9f5e;
  }

  lemma DiacriticsRound50()
    ensures Md5.Rounds(DiacriticsBlock, 50, Md5.Words(0x340bb109, 0xcf4b0308, 0xae9e63aa, 0x010e1e81)) == Md5.Rounds(DiacriticsBlock, 51, Md5.Words(0x010e1e81, 0x7a5d1b8a, 0xcf4b0308, 0xae9e63aa))
  {
    assert Md5.MessageIndex(50) == 14 && DiacriticsBlock[14] == 0xa0 && Md5.K[50] == 0xab9423a7 && Md5.S[50] == 15;
    assert Md5.RoundFunction(50, Md5.Words(0x340bb109, 0xcf4b0308, 0xae9e63aa, 0x010e1e81)) == 0x516580d4;
    assert 0x516580d4 + 0x340bb109 + 0xab9423a7 + 0xa0 == 0x31055624 as Word;
    assert Md5.RotateLeft(0x31055624, 15) == 0xab121882;
  }

  lemma DiacriticsRound51()
    ensures Md5.Rounds(DiacriticsBlock, 51, Md5.Words(0x010e1e81, 0x7a5d1b8a, 0xcf4b0308, 0xae9e63aa)) == Md5.Rounds(DiacriticsBlock, 52, Md5.Words(0xae9e63aa, 0xfc935695, 0x7a5d1b8a, 0xcf4b0308))
  {
    assert Md5.MessageIndex(51) == 5 && DiacriticsBlock[5] == 0x80 && Md5.K[51] == 0xfc93a039 && Md5.S[51] == 21;
    assert Md5.RoundFunction(51, Md5.Words(0x010e1e81, 0x7a5d1b8a, 0xcf4b0308, 0xae9e63aa)) == 0xb4369cd7;
    assert 0xb4369cd7 + 0x10e1e81 + 0xfc93a039 + 0x80 == 0xb1d85c11 as Word;
    assert Md5.RotateLeft(0xb1d85c11, 21) == 0x82363b0b;
  }

  lemma DiacriticsRound52()
    ensures Md5.Rounds(DiacriticsBlock, 52, Md5.Words(0xae9e63aa, 0xfc935695, 0x7a5d1b8a, 0xcf4b0308)) == Md5.Rounds(DiacriticsBlock, 53, Md5.Words(0xcf4b0308, 0xb5bc113b, 0xfc935695, 0x7a5d1b8a))
  {
    assert Md5.MessageIndex(52) == 12 && DiacriticsBlock[12] == 0x0 && Md5.K[52] == 0x655b59c3 && Md5.S[52] == 6;
    assert Md5.RoundFunction(52, Md5.Words(0xae9e63aa, 0xfc935695, 0x7a5d1b8a, 0xcf4b0308)) == 0x86eae57d;
    assert 0x86eae57d + 0xae9e63aa + 0x655b59c3 + 0x0 == 0x9ae4a2ea as Word;
    assert Md5.RotateLeft(0x9ae4a2ea, 6) == 0xb928baa6;
  }

  lemma DiacriticsRound53()
    ensures Md5.Rounds(DiacriticsBlock, 53, Md5.Words(0xcf4b0308, 0xb5bc113b, 0xfc935695, 0x7a5d1b8a)) == Md5.Rounds(DiacriticsBlock, 54, Md5.Words(0x7a5d1b8a, 0xda812e60, 0xb5bc113b, 0xfc935695))
  {
    assert Md5.MessageIndex(53) == 3 && DiacriticsBlock[3] == 0xa1c3bdc3 && Md5.K[53] == 0x8f0ccc92 && Md5.S[53] == 10;
    assert Md5.RoundFunction(53, Md5.Words(0xcf4b0308, 0xb5bc113b, 0xfc935695, 0x7a5d1b8a)) == 0x492da3ea;
    assert 0x492da3ea + 0xcf4b0308 + 0x8f0ccc92 + 0xa1c3bdc3 == 0x49493147 as Word;
    assert Md5.RotateLeft(0x49493147, 10) == 0x24c51d25;
  }

  lemma DiacriticsRound54()
    ensures Md5.Rounds(DiacriticsBlock, 54, Md5.Words(0x7a5d1b8a, 0xda812e60, 0xb5bc113b, 0xfc935695)) == Md5.Rounds(DiacriticsBlock, 55, Md5.Words(0xfc935695, 0x41ada2af, 0xda812e60, 0xb5bc113b))
  {
    assert Md5.MessageIndex(54) == 10 && DiacriticsBlock[10] == 0x0 && Md5.K[54] == 0xffeff47d && Md5.S[54] == 15;
    assert Md5.RoundFunction(54, Md5.Words(0x7a5d1b8a, 0xda812e60, 0xb5bc113b, 0xfc935695)) == 0x6e51be51;
    assert 0x6e51be51 + 0x7a5d1b8a + 0xffeff47d + 0x0 == 0xe89ece58 as Word;
    assert Md5.RotateLeft(0xe89ece58, 15) == 0x672c744f;
  }

  lemma DiacriticsRound55()
    ensures Md5.Rounds(DiacriticsBlock, 55, Md5.Words(0xfc935695, 0x41ada2af, 0xda812e60, 0xb5bc113b)) == Md5.Rounds(DiacriticsBlock, 56, Md5.Words(0xb5bc113b, 0x98e34c2f, 0x41ada2af, 0xda812e60))
  {
    assert Md5.MessageIndex(55) == 1 && DiacriticsBlock[1] == 0x99c58dc4 && Md5.K[55] == 0x85845dd1 && Md5.S[55] == 21;
    assert Md5.RoundFunction(55, Md5.Words(0xfc935695, 0x41ada2af, 0xda812e60, 0xb5bc113b)) == 0x916ec08f;
    assert 0x916ec08f + 0xfc935695 + 0x85845dd1 + 0x99c58dc4 == 0xad4c02b9 as Word;
    assert Md5.RotateLeft(0xad4c02b9, 21) == 0x5735a980;
  }

  lemma DiacriticsRound56()
    ensures Md5.Rounds(DiacriticsBlock, 56, Md5.Words(0xb5bc113b, 0x98e34c2f, 0x41ada2af, 0xda812e60)) == Md5.Rounds(DiacriticsBlock, 57, Md5.Words(0xda812e60, 0x06a6f2b7, 0x98e34c2f, 0x41ada2af))
  {
    assert Md5.MessageIndex(56) == 8 && DiacriticsBlock[8] == 0x0 && Md5.K[56] == 0x6fa87e4f && Md5.S[56] == 6;
    assert Md5.RoundFunction(56, Md5.Words(0xb5bc113b, 0x98e34c2f, 0x41ada2af, 0xda812e60)) == 0xfc527f10;
    assert 0xfc527f10 + 0xb5bc113b + 0x6fa87e4f + 0x0 == 0x21b70e9a as Word;
    assert Md5.RotateLeft(0x21b70e9a, 6) == 0x6dc3a688;
  }

  lemma DiacriticsRound57()
    ensures Md5.Rounds(DiacriticsBlock, 57, Md5.Words(0xda812e60, 0x06a6f2b7, 0x98e34c2f, 0x41ada2af)) == Md5.Rounds(DiacriticsBlock, 58, Md5.Words(0x41ada2af, 0x15cb56b2, 0x06a6f2b7, 0x98e34c2f))
  {
    assert Md5.MessageIndex(57) == 15 && DiacriticsBlock[15] == 0x0 && Md5.K[57] == 0xfe2ce6e0 && Md5.S[57] == 10;
    assert Md5.RoundFunction(57, Md5.Words(0xda812e60, 0x06a6f2b7, 0x98e34c2f, 0x41ada2af)) == 0x2615b3d8;
    assert 0x2615b3d8 + 0xda812e60 + 0xfe2ce6e0 + 0x0 == 0xfec3c918 as Word;
    assert Md5.RotateLeft(0xfec3c918, 10) == 0xf2463fb;
  }

  lemma DiacriticsRound58()
    ensures Md5.Rounds(DiacriticsBlock, 58, Md5.Words(0x41ada2af, 0x15cb56b2, 0x06a6f2b7, 0x98e34c2f)) == Md5.Rounds(DiacriticsBlock, 59, Md5.Words(0x98e34c2f, 0x0b4f81c5, 0x15cb56b2, 0x06a6f2b7))
  {
    assert Md5.MessageIndex(58) == 6 && DiacriticsBlock[6] == 0x0 && Md5.K[58] == 0xa3014314 && Md5.S[58] == 15;
    assert Md5.RoundFunction(58, Md5.Words(0x41ada2af, 0x15cb56b2, 0x06a6f2b7, 0x98e34c2f)) == 0x71790545;
    assert 0x71790545 + 0x41ada2af + 0xa3014314 + 0x0 == 0x5627eb08 as Word;
    assert Md5.RotateLeft(0x5627eb08, 15) == 0xf5842b13;
  }

  lemma DiacriticsRound59()
    ensures Md5.Rounds(DiacriticsBlock, 59, Md5.Words(0x98e34c2f, 0x0b4f81c5, 0x15cb56b2, 0x06a6f2b7)) == Md5.Rounds(DiacriticsBlock, 60, Md5.Words(0x06a6f2b7, 0x354a31cc, 0x0b4f81c5, 0x15cb56b2))
  {
    assert Md5.MessageIndex(59) == 13 && DiacriticsBlock[13] == 0x0 && Md5.K[59] == 0x4e0811a1 && Md5.S[59] == 21;
    assert Md5.RoundFunction(59, Md5.Words(0x98e34c2f, 0x0b4f81c5, 0x15cb56b2, 0x06a6f2b7)) == 0xee94db7f;
    assert 0xee94db7f + 0x98e34c2f + 0x4e0811a1 + 0x0 == 0xd580394f as Word;
    assert Md5.RotateLeft(0xd580394f, 21) == 0x29fab007;
  }

  lemma DiacriticsRound60()
    ensures Md5.Rounds(DiacriticsBlock, 60, Md5.Words(0x06a6f2b7, 0x354a31cc, 0x0b4f81c5, 0x15cb56b2)) == Md5.Rounds(DiacriticsBlock, 61, Md5.Words(0x15cb56b2, 0x311cf2f3, 0x354a31cc, 0x0b4f81c5))
  {
    assert Md5.MessageIndex(60) == 4 && DiacriticsBlock[4] == 0xadc3a1c3 && Md5.K[60] == 0xf7537e82 && Md5.S[60] == 6;
    assert Md5.RoundFunction(60, Md5.Words(0x06a6f2b7, 0x354a31cc, 0x0b4f81c5, 0x15cb56b2)) == 0xf4313808;
    assert 0xf4313808 + 0x6a6f2b7 + 0xf7537e82 + 0xadc3a1c3 == 0x9fef4b04 as Word;
    assert Md5.RotateLeft(0x9fef4b04, 6) == 0xfbd2c127;
  }

  lemma DiacriticsRound61()
    ensures Md5.Rounds(DiacriticsBlock, 61, Md5.Words(0x15cb56b2, 0x311cf2f3, 0x354a31cc, 0x0b4f81c5)) == Md5.Rounds(DiacriticsBlock, 62, Md5.Words(0x0b4f81c5, 0x257d6d42, 0x311cf2f3, 0x354a31cc))
  {
    assert Md5.MessageIndex(61) == 11 && DiacriticsBlock[11] == 0x0 && Md5.K[61] == 0xbd3af235 && Md5.S[61] == 10;
    assert Md5.RoundFunction(61, Md5.Words(0x15cb56b2, 0x311cf2f3, 0x354a31cc, 0x0b4f81c5)) == 0xc0f6cf37;
    assert 0xc0f6cf37 + 0x15cb56b2 + 0xbd3af235 + 0x0 == 0x93fd181e as Word;
    assert Md5.RotateLeft(0x93fd181e, 10) == 0xf4607a4f;
  }

  lemma DiacriticsRound62()
    ensures Md5.Rounds(DiacriticsBlock, 62, Md5.Words(0x0b4f81c5, 0x257d6d42, 0x311cf2f3, 0x354a31cc)) == Md5.Rounds(DiacriticsBlock, 63, Md5.Words(0x354a31cc, 0x2b605729, 0x257d6d42, 0x311cf2f3))
  {
    assert Md5.MessageIndex(62) == 2 && DiacriticsBlock[2] == 0xbec599c5 && Md5.K[62] == 0x2ad7d2bb && Md5.S[62] == 15;
    assert Md5.RoundFunction(62, Md5.Words(0x0b4f81c5, 0x257d6d42, 0x311cf2f3, 0x354a31cc)) == 0xdee11d80;
    assert 0xdee11d80 + 0xb4f81c5 + 0x2ad7d2bb + 0xbec599c5 == 0xd3ce0bc5 as Word;
    assert Md5.RotateLeft(0xd3ce0bc5, 15) == 0x5e2e9e7;
  }

  lemma DiacriticsRound63()
    ensures Md5.Rounds(DiacriticsBlock, 63, Md5.Words(0x354a31cc, 0x2b605729, 0x257d6d42, 0x311cf2f3)) == Md5.Rounds(DiacriticsBlock, 64, Md5.Words(0x311cf2f3, 0x24fdc50f, 0x2b605729, 0x257d6d42))
  {
    assert Md5.MessageIndex(63) == 9 && DiacriticsBlock[9] == 0x0 && Md5.K[63] == 0xeb86d391 && Md5.S[63] == 21;
    assert Md5.RoundFunction(63, Md5.Words(0x354a31cc, 0x2b605729, 0x257d6d42, 0x311cf2f3)) == 0xca9e326f;
    assert 0xca9e326f + 0x354a31cc + 0xeb86d391 + 0x0 == 0xeb6f37cc as Word;
    assert Md5.RotateLeft(0xeb6f37cc, 21) == 0xf99d6de6;
  }
}

=== FILE: modular.dfy ===
/** Elementary number theory behind the primality test and the RSA round
    trip: powers, congruences, the greatest common divisor with Bezout
    coefficients, Euclid's lemma, Fermat's little theorem and the Chinese
    remainder step for two distinct primes. Dafny's `%` is Euclidean, which
    for a positive modulus is Python's `%`. */
module Modular {

  /** `b` to the power `e`. */
  function Pow(b: int, e: nat): int {
    if e == 0 then 1 else b * Pow(b, e - 1)
  }

  /** `d` divides `n`. */
  predicate Divides(d: int, n: int) {
    d != 0 && n % d == 0
  }

  /** `p` is a prime: at least 2 and without a divisor strictly between 1 and `p`. */
  predicate Prime(p: int) {
    p >= 2 && forall d :: 2 <= d < p ==> !Divides(d, p)
  }

  // ---------------------------------------------------------------------------
  // Euclidean division

  /** Quotient and remainder are determined by the division identity. */
  lemma DivModUnique(x: int, n: int, q: int, r: int)
    requires n > 0 && 0 <= r < n && x == n * q + r
    ensures x / n == q && x % n == r
  {
    var q', r' := x / n, x % n;
    assert x == n * q' + r';
    var d := q - q';
    assert n * d == r' - r;
    if d >= 1 {
      MulAtLeast(n, d);
    } else if d <= -1 {
      MulAtLeast(n, -d);
    }
  }

  lemma MulAtLeast(n: int, d: int)
    requires n > 0 && d >= 1
    ensures n * d >= n
  {
  }

  lemma ModAddMultiple(x: int, k: int, n: int)
    requires n > 0
    ensures (x + n * k) % n == x % n
  {
    DivModUnique(x + n * k, n, x / n + k, x % n);
  }

  lemma ModOfMultiple(k: int, n: int)
    requires n > 0
    ensures (n * k) % n == 0
  {
    DivModUnique(n * k, n, k, 0);
  }

  lemma ModOfSmall(x: int, n: int)
    requires 0 <= x < n
    ensures x % n == x
  {
    DivModUnique(x, n, 0, x);
  }

  /** Remainders of a product are the remainder of the product of remainders. */
  lemma ModMul(a: int, b: int, n: int)
    requires n > 0
    ensures (a * b) % n == ((a % n) * (b % n)) % n
  {
    var qa, ra, qb, rb := a / n, a % n, b / n, b % n;
    calc {
      a * b;
      (n * qa + ra) * (n * qb + rb);
      ra * rb + n * (n * qa * qb + qa * rb + ra * qb);
    }
    ModAddMultiple(ra * rb, n * qa * qb + qa * rb + ra * qb, n);
  }

  lemma ModSub(a: int, b: int, n: int)
    requires n > 0
    ensures (a - b) % n == 0 <==> a % n == b % n
  {
    var qa, ra, qb, rb := a / n, a % n, b / n, b % n;
    assert a - b == (ra - rb) + n * (qa - qb);
    ModAddMultiple(ra - rb, qa - qb, n);
    if ra >= rb {
      ModOfSmall(ra - rb, n);
    } else {
      ModAddMultiple(ra - rb, 1, n);
      ModOfSmall(ra - rb + n, n);
    }
  }

  // ---------------------------------------------------------------------------
  // Powers

  lemma {:induction false} PowAdd(b: int, e1: nat, e2: nat)
    ensures Pow(b, e1 + e2) == Pow(b, e1) * Pow(b, e2)
  {
    if e1 > 0 {
      PowAdd(b, e1 - 1, e2);
      assert Pow(b, e1 + e2) == b * (Pow(b, e1 - 1) * Pow(b, e2));
    }
  }

  lemma {:induction false} PowMul(b: int, e1: nat, e2: nat)
    ensures Pow(b, e1 * e2) == Pow(Pow(b, e1), e2)
  {
    if e2 > 0 {
      PowMul(b, e1, e2 - 1);
      assert e1 * e2 == e1 + e1 * (e2 - 1);
      PowAdd(b, e1, e1 * (e2 - 1));
    }
  }

  lemma {:induction false} PowPositive(b: int, e: nat)
    requires b >= 1
    ensures Pow(b, e) >= 1
  {
    if e > 0 {
      PowPositive(b, e - 1);
      assert b * Pow(b, e - 1) >= Pow(b, e - 1);
    }
  }

  lemma PowAtLeastBase(b: int, e: nat)
    requires b >= 0 && e >= 1
    ensures Pow(b, e) >= b
  {
    if b > 0 {
      PowPositive(b, e - 1);
      assert b * Pow(b, e - 1) >= b;
    }
  }

  /** Powers of a positive base grow with the exponent. */
  lemma {:induction false} PowMonotone(base: int, i: nat, j: nat)
    requires base >= 1 && i <= j
    ensures Pow(base, i) <= Pow(base, j)
    decreases j
  {
    if i < j {
      PowMonotone(base, i, j - 1);
      PowPositive(base, j - 1);
      assert base * Pow(base, j - 1) >= Pow(base, j - 1);
    }
  }

  /** Reducing the base modulo `n` does not change the power modulo `n`. */
  lemma {:induction false} PowMod(b: int, e: nat, n: int)
    requires n > 0
    ensures Pow(b % n, e) % n == Pow(b, e) % n
  {
    if e > 0 {
      PowMod(b, e - 1, n);
      calc {
        Pow(b % n, e) % n;
        ((b % n) * Pow(b % n, e - 1)) % n;
        { ModMul(b % n, Pow(b % n, e - 1), n); }
        (((b % n) % n) * (Pow(b % n, e - 1) % n)) % n;
        { ModOfSmall(b % n, n); }
        ((b % n) * (Pow(b, e - 1) % n)) % n;
        { ModMul(b, Pow(b, e - 1), n); }
        Pow(b, e) % n;
      }
    }
  }

  /** A positive power of a multiple of `n` is a multiple of `n`. */
  lemma PowOfMultiple(b: int, e: nat, n: int)
    requires n > 0 && b % n == 0 && e >= 1
    ensures Pow(b, e) % n == 0
  {
    ModMul(b, Pow(b, e - 1), n);
  }

  /** A power of 1 modulo `n` is 1 modulo `n`. */
  lemma {:induction false} PowOfOne(b: int, e: nat, n: int)
    requires n > 1 && b % n == 1
    ensures Pow(b, e) % n == 1
  {
    if e == 0 {
      ModOfSmall(1, n);
    } else {
      PowOfOne(b, e - 1, n);
      ModMul(b, Pow(b, e - 1), n);
      ModOfSmall(1, n);
    }
  }

  // ---------------------------------------------------------------------------
  // Greatest common divisor

  /** Euclid's algorithm on non-negative integers (Python's `math.gcd` there). */
  function Gcd(a: nat, b: nat): nat
    decreases b
  {
    if b == 0 then a else Gcd(b, a % b)
  }

  /** A combination of two multiples of `g` is a multiple of `g`. */
  lemma ModOfCombination(g: int, x: int, y: int, u: int, v: int)
    requires g > 0 && x % g == 0 && y % g == 0
    ensures (u * x + v * y) % g == 0
  {
    var i, j := x / g, y / g;
    assert u * x + v * y == g * (u * i + v * j);
    ModOfMultiple(u * i + v * j, g);
  }

  lemma {:induction false} GcdDivides(a: nat, b: nat)
    requires a > 0 || b > 0
    ensures Gcd(a, b) > 0 && a % Gcd(a, b) == 0 && b % Gcd(a, b) == 0
    decreases b
  {
    if b > 0 {
      GcdDivides(b, a % b);
      var g := Gcd(b, a % b);
      assert a == (a / b) * b + 1 * (a % b);
      ModOfCombination(g, b, a % b, a / b, 1);
    }
  }

  /** Bezout coefficients `(x, y)` with `x * a + y * b == Gcd(a, b)`, from the
      extended form of Euclid's algorithm. */
  function Bezout(a: nat, b: nat): (r: (int, int))
    ensures r.0 * a + r.1 * b == Gcd(a, b)
    decreases b
  {
    if b == 0 then (1, 0)
    else
      var (x, y) := Bezout(b, a % b);
      var q := a / b;
      assert a % b == a - q * b;
      assert y * a + (x - q * y) * b == x * b + y * (a - q * b);
      (y, x - q * y)
  }

  /** Every common divisor divides the greatest common divisor. */
  lemma CommonDivisorDividesGcd(a: nat, b: nat, d: int)
    requires d > 0 && a % d == 0 && b % d == 0
    ensures Gcd(a, b) % d == 0
  {
    var (x, y) := Bezout(a, b);
    ModOfCombination(d, a, b, x, y);
  }

  /** A positive multiple of `d` is at least `d`. */
  lemma DivisorAtMost(x: int, d: int)
    requires x > 0 && d > 0 && x % d == 0
    ensures d <= x
  {
    if d > x {
      ModOfSmall(x, d);
    }
  }

  lemma GcdCommutes(a: nat, b: nat)
    ensures Gcd(a, b) == Gcd(b, a)
  {
    if a > 0 || b > 0 {
      GcdDivides(a, b);
      GcdDivides(b, a);
      var g, h := Gcd(a, b), Gcd(b, a);
      CommonDivisorDividesGcd(b, a, g);
      CommonDivisorDividesGcd(a, b, h);
      DivisorAtMost(h, g);
      DivisorAtMost(g, h);
    }
  }

  /** The only positive divisors of a prime are 1 and itself. */
  lemma PrimeDivisors(p: int, g: int)
    requires Prime(p) && g > 0 && p % g == 0
    ensures g == 1 || g == p
  {
    DivisorAtMost(p, g);
    if 2 <= g < p {
      assert Divides(g, p);
    }
  }

  /** Euclid's lemma: a prime dividing a product divides one of its factors. */
  lemma EuclidLemma(p: int, a: int, b: int)
    requires Prime(p) && (a * b) % p == 0
    ensures a % p == 0 || b % p == 0
  {
    var ra := a % p;
    if ra != 0 {
      PrimeCoprime(p, ra);
      ModMul(a, b, p);
      ModOfSmall(ra, p);
      ModMul(ra, b, p);
      CoprimeCancel(p, ra, b);
    }
  }

  lemma PrimeCoprime(p: int, r: int)
    requires Prime(p) && 0 < r < p
    ensures Gcd(p, r) == 1
  {
    GcdDivides(p, r);
    PrimeDivisors(p, Gcd(p, r));
    if Gcd(p, r) == p {
      ModOfSmall(r, p);
    }
  }

  lemma Distribute(b: int, x: int, n: int, y: int, r: int)
    requires x * n + y * r == 1
    ensures b == (b * x) * n + y * (r * b)
  {
    assert b == b * (x * n + y * r);
  }

  /** A factor coprime with `n` can be cancelled from a multiple of `n`. */
  lemma CoprimeCancel(n: nat, r: nat, b: int)
    requires n > 0 && Gcd(n, r) == 1 && (r * b) % n == 0
    ensures b % n == 0
  {
    var (x, y) := Bezout(n, r);
    ModOfMultiple(1, n);
    Distribute(b, x, n, y, r);
    ModOfCombination(n, n, r * b, b * x, y);
  }

  // ---------------------------------------------------------------------------
  // Products and Fermat's little theorem

  /** The product of the elements of `s`. */
  function Prod(s: seq<int>): int {
    if s == [] then 1 else Prod(s[..|s| - 1]) * s[|s| - 1]
  }

  lemma {:induction false} ProdAppend(a: seq<int>, b: seq<int>)
    ensures Prod(a + b) == Prod(a) * Prod(b)
  {
    if b != [] {
      var b' := b[..|b| - 1];
      assert (a + b)[..|a + b| - 1] == a + b';
      ProdAppend(a, b');
    } else {
      assert a + b == a;
    }
  }

  lemma ProdRemove(t: seq<int>, j: nat)
    requires j < |t|
    ensures Prod(t) == Prod(t[..j] + t[j + 1..]) * t[j]
  {
    var u, x, v := t[..j], t[j], t[j + 1..];
    assert t == (u + [x]) + v;
    ProdAppend(u + [x], v);
    ProdAppend(u, v);
    var pu, pv := Prod(u), Prod(v);
    assert (u + [x])[..|u|] == u;
    assert Prod(u + [x]) == pu * x;
    MulSwap(pu, x, pv);
  }

  lemma MulCommutes(a: int, b: int)
    ensures a * b == b * a
  {
  }

  lemma MulSwap(a: int, b: int, c: int)
    ensures (a * b) * c == (a * c) * b
  {
  }

  /** Rearranging the factors does not change the product. */
  lemma {:induction false} ProdPermutation(s: seq<int>, t: seq<int>)
    requires multiset(s) == multiset(t)
    ensures Prod(s) == Prod(t)
    decreases |s|
  {
    if s == [] {
      assert |t| == |multiset(t)| == 0;
    } else {
      var s', x := s[..|s| - 1], s[|s| - 1];
      assert s == s' + [x];
      assert x in multiset(t);
      var j :| 0 <= j < |t| && t[j] == x;
      var t' := t[..j] + t[j + 1..];
      assert t == t[..j] + [x] + t[j + 1..];
      assert multiset(t) == multiset(t[..j]) + multiset{x} + multiset(t[j + 1..]);
      assert multiset(t') == multiset(t[..j]) + multiset(t[j + 1..]);
      assert multiset(s) == multiset(s') + multiset{x};
      assert multiset(s') == multiset(s) - multiset{x};
      assert multiset(t') == multiset(t) - multiset{x};
      ProdPermutation(s', t');
      ProdRemove(t, j);
    }
  }

  /** The integers 1 to `k`. */
  function Range(k: nat): (r: seq<int>)
    ensures |r| == k && forall i :: 0 <= i < k ==> r[i] == i + 1
  {
    seq(k, i => i + 1)
  }

  /** The remainders of `a`, `2a`, ..., `ka` modulo `p`. */
  function Residues(a: int, p: int, k: nat): (r: seq<int>)
    requires p > 0
    ensures |r| == k && forall i :: 0 <= i < k ==> r[i] == (a * (i + 1)) % p
  {
    seq(k, i => (a * (i + 1)) % p)
  }

  lemma {:induction false} ProdResidues(a: int, p: int, k: nat)
    requires p > 0
    ensures Prod(Residues(a, p, k)) % p == (Pow(a, k) * Prod(Range(k))) % p
  {
    if k > 0 {
      var r, f := Residues(a, p, k), Range(k);
      assert r[..k - 1] == Residues(a, p, k - 1);
      assert f[..k - 1] == Range(k - 1);
      ProdResidues(a, p, k - 1);
      var pr, pw, pf := Prod(r[..k - 1]), Pow(a, k - 1), Prod(f[..k - 1]);
      calc {
        Prod(r) % p;
        (pr * ((a * k) % p)) % p;
        { ModMul(pr, (a * k) % p, p); ModOfSmall((a * k) % p, p); }
        ((pr % p) * ((a * k) % p)) % p;
        ((pw * pf) % p * ((a * k) % p)) % p;
        { ModMul(pw * pf, a * k, p); }
        ((pw * pf) * (a * k)) % p;
        { assert (pw * pf) * (a * k) == (a * pw) * (pf * k); }
        (Pow(a, k) * Prod(f)) % p;
      }
    }
  }

  /** The elements of `s` are pairwise different. */
  predicate Distinct(s: seq<int>) {
    forall i, j :: 0 <= i < j < |s| ==> s[i] != s[j]
  }

  function Elements(s: seq<int>): set<int> {
    set i | 0 <= i < |s| :: s[i]
  }

  lemma {:induction false} DistinctElements(s: seq<int>)
    requires Distinct(s)
    ensures |Elements(s)| == |s| && multiset(s) == multiset(Elements(s))
  {
    if s != [] {
      var s', x := s[..|s| - 1], s[|s| - 1];
      assert s == s' + [x];
      DistinctElements(s');
      assert Elements(s) == Elements(s') + {x};
      assert x !in Elements(s');
      forall y
        ensures multiset(s)[y] == multiset(Elements(s))[y]
      {
        if y == x {
          assert y !in multiset(s');
        }
      }
    }
  }

  lemma SubsetOfSameSize(a: set<int>, b: set<int>)
    requires a <= b && |a| == |b|
    ensures a == b
  {
    assert a * b == a;
    assert a + b == b;
    assert |b - a| == 0;
  }

  /** `n` distinct values between 1 and `n` are a rearrangement of 1 to `n`. */
  lemma DistinctInRange(s: seq<int>, n: nat)
    requires |s| == n && Distinct(s)
    requires forall i :: 0 <= i < n ==> 1 <= s[i] <= n
    ensures multiset(s) == multiset(Range(n))
  {
    var r := Range(n);
    DistinctElements(s);
    DistinctElements(r);
    assert Elements(s) <= Elements(r) by {
      forall y | y in Elements(s)
        ensures y in Elements(r)
      {
        var i :| 0 <= i < n && s[i] == y;
        assert r[y - 1] == y;
      }
    }
    SubsetOfSameSize(Elements(s), Elements(r));
  }

  /** Multiplying by `a` permutes the non-zero residues of a prime `p`
      when `p` does not divide `a`. */
  lemma ResiduesPermute(a: int, p: int)
    requires Prime(p) && a % p != 0
    ensures multiset(Residues(a, p, p - 1)) == multiset(Range(p - 1))
  {
    var r := Residues(a, p, p - 1);
    forall i | 0 <= i < p - 1
      ensures 1 <= r[i] <= p - 1
    {
      if r[i] == 0 {
        EuclidLemma(p, a, i + 1);
        ModOfSmall(i + 1, p);
      }
    }
    forall i, j | 0 <= i < j < p - 1
      ensures r[i] != r[j]
    {
      if r[i] == r[j] {
        ModSub(a * (j + 1), a * (i + 1), p);
        assert a * (j + 1) - a * (i + 1) == a * (j - i);
        EuclidLemma(p, a, j - i);
        ModOfSmall(j - i, p);
      }
    }
    DistinctInRange(r, p - 1);
  }

  /** No factor of `(p - 1)!` is a multiple of the prime `p`. */
  lemma {:induction false} FactorialCoprime(p: int, k: nat)
    requires Prime(p) && k < p
    ensures Prod(Range(k)) % p != 0
  {
    if k == 0 {
      ModOfSmall(1, p);
    } else {
      var f := Range(k);
      assert f[..k - 1] == Range(k - 1);
      FactorialCoprime(p, k - 1);
      if Prod(f) % p == 0 {
        EuclidLemma(p, Prod(f[..k - 1]), k);
        ModOfSmall(k, p);
      }
    }
  }

  /** Fermat's little theorem. */
  lemma Fermat(a: int, p: int)
    requires Prime(p) && a % p != 0
    ensures Pow(a, p - 1) % p == 1
  {
    var k := p - 1;
    var f, w := Prod(Range(k)), Pow(a, k);
    ProdResidues(a, p, k);
    ResiduesPermute(a, p);
    ProdPermutation(Residues(a, p, k), Range(k));
    assert (w * f) % p == f % p;
    ModSub(w * f, f, p);
    assert w * f - f == (w - 1) * f;
    FactorialCoprime(p, k);
    EuclidLemma(p, w - 1, f);
    ModSub(w, 1, p);
    ModOfSmall(1, p);
  }

  /** The exponent identity behind RSA for one prime: `m^(k(p-1)+1) == m (mod p)`. */
  lemma FermatExponent(m: int, k: nat, p: int)
    requires Prime(p)
    ensures Pow(m, k * (p - 1) + 1) % p == m % p
  {
    var e := k * (p - 1);
    if m % p == 0 {
      PowOfMultiple(m, e + 1, p);
    } else {
      var p1: nat := p - 1;
      var x, y := Pow(m, p1), Pow(m, e);
      Fermat(m, p);
      assert x % p == 1;
      PowMul(m, p1, k);
      MulCommutes(p1, k);
      assert y == Pow(x, k);
      PowOfOne(x, k, p);
      assert y % p == 1;
      PowAdd(m, e, 1);
      assert Pow(m, 1) == m;
      assert Pow(m, e + 1) == y * m;
      ModMul(y, m, p);
      ModOfSmall(m % p, p);
      assert (y * m) % p == (1 * (m % p)) % p;
    }
  }

  /** A multiple of two distinct primes is a multiple of their product. */
  lemma MultipleOfBoth(x: int, p: int, q: int)
    requires Prime(p) && Prime(q) && p != q
    requires x % p == 0 && x % q == 0
    ensures x % (p * q) == 0
  {
    var k := x / p;
    assert x == p * k;
    EuclidLemma(q, p, k);
    if p % q == 0 {
      PrimeDivisors(p, q);
    }
    var j := k / q;
    assert x == (p * q) * j;
    ModOfMultiple(j, p * q);
  }

  /** Modulo a prime, 1 has no square roots but 1 and -1. */
  lemma SquareRootOfOne(p: int, x: int)
    requires Prime(p) && 0 <= x < p && (x * x) % p == 1
    ensures x == 1 || x == p - 1
  {
    if x != 0 {
      ModOfSmall(1, p);
      ModSub(x * x, 1, p);
      assert x * x - 1 == (x - 1) * (x + 1);
      EuclidLemma(p, x - 1, x + 1);
      if (x - 1) % p == 0 {
        ModOfSmall(x - 1, p);
      } else if x + 1 < p {
        ModOfSmall(x + 1, p);
      }
    }
  }
}

=== FILE: rfc1321.dfy ===
/** MD5 as RFC 1321 defines it, written after the RFC's own listings and
    used as a reference for the padding, schedule and chaining of the
    repository's digest object.

    The reference differs from the repository's code in three ways that
    matter: it pads the whole message by the formula of sections 3.1 and
    3.2, it chains every block from the running state (section 3.4, "A = A
    + AA"), and it writes the 64 operations as the RFC's role-rotating
    quartets `[ABCD k s i] [DABC k s i] [CDAB k s i] [BCDA k s i]` with the
    message word indices spelled out, each operation by the RFC's own
    formula. The auxiliary functions, the rotation
    and the sine table `T[1..64]` (the repository's `_k`, shifted to index
    from 0) are shared with the digest object. */
module Rfc1321 {
  import opened Bytes
  import opened Wrappers
  import Md5

  /** Two to the 64: the message length is taken modulo this (section 3.2). */
  const LengthModulus: nat := 0x1_0000_0000_0000_0000

  /** Sections 3.1 and 3.2: the byte 0x80, zeros until the length is 56
      modulo 64, then the bit length modulo 2^64 as 8 little-endian bytes. */
  function Pad(msg: seq<Byte>): (r: seq<Byte>)
    ensures |r| % 64 == 0 && |msg| < |r| <= |msg| + 72
    ensures r[..|msg|] == msg
  {
    Padded(msg, ZeroCount(|msg|), BitCount(|msg|))
  }

  /** The number of zero bytes after 0x80 for an `n`-byte message: the
      least count that brings the length to 56 modulo 64. */
  function ZeroCount(n: nat): (z: nat)
    ensures z < 64 && (n + 1 + z + 8) % 64 == 0
    ensures n < 56 ==> z == 55 - n
  {
    PadLength(n);
    (55 - n) % 64
  }

  /** The length field: the message's bit count modulo 2^64. */
  function BitCount(n: nat): (b: nat)
    ensures b < LengthModulus
    ensures 8 * n < LengthModulus ==> b == 8 * n
  {
    (8 * n) % LengthModulus
  }

  /** `msg`, the byte 0x80, `zeros` zero bytes and the 8-byte field `bits`. */
  function Padded(msg: seq<Byte>, zeros: nat, bits: nat): (r: seq<Byte>)
    ensures |r| == |msg| + 1 + zeros + 8 && r[..|msg|] == msg
  {
    var r := msg + [0x80] + Md5.Zeros(zeros) + LeBytes(bits, 8);
    assert r[..|msg|] == msg;
    r
  }

  lemma PadLength(n: nat)
    ensures var z := (55 - n) % 64; 0 <= z < 64 && (n + 1 + z + 8) % 64 == 0
    ensures n < 56 ==> (55 - n) % 64 == 55 - n
  {
    var z := (55 - n) % 64;
    var q := (55 - n) / 64;
    assert 55 - n == 64 * q + z;
    assert n + 1 + z + 8 == 64 * (1 - q);
  }

  /** The four auxiliary functions of section 3.4. */
  datatype Aux = F | G | H | I

  function Apply(f: Aux, x: Word, y: Word, z: Word): Word {
    match f
    case F => Md5.F(x, y, z)
    case G => Md5.G(x, y, z)
    case H => Md5.H(x, y, z)
    case I => Md5.I(x, y, z)
  }

  /** The operation `[abcd k s i]` of section 3.4:
      a = b + ((a + f(b, c, d) + X[k] + T[i]) <<< s), all modulo 2^32. */
  function Op(f: Aux, a: Word, b: Word, c: Word, d: Word, x: Word, s: Word, t: Word): Word
    requires 1 <= s <= 31
  {
    b + Md5.RotateLeft(a + Apply(f, b, c, d) + x + t, s)
  }

  /** Four indices into the 16-word block. */
  predicate Indices(k: seq<nat>) {
    |k| == 4 && k[0] < 16 && k[1] < 16 && k[2] < 16 && k[3] < 16
  }

  /** One line of a round of section 3.4: `[ABCD k0 s0 i] [DABC k1 s1 i+1]
      [CDAB k2 s2 i+2] [BCDA k3 s3 i+3]`, with `i` counted from 0. */
  function Quartet(f: Aux, x: seq<Word>, w: Md5.Words, i: nat, k: seq<nat>, s: seq<Md5.Shift>): Md5.Words
    requires |x| == 16 && i + 4 <= 64 && Indices(k) && |s| == 4
  {
    var a := Op(f, w.a, w.b, w.c, w.d, x[k[0]], s[0], Md5.K[i]);
    var d := Op(f, w.d, a, w.b, w.c, x[k[1]], s[1], Md5.K[i + 1]);
    var c := Op(f, w.c, d, a, w.b, x[k[2]], s[2], Md5.K[i + 2]);
    var b := Op(f, w.b, c, d, a, x[k[3]], s[3], Md5.K[i + 3]);
    Md5.Words(a, b, c, d)
  }

  /** Round 1 of section 3.4. */
  function Round1(x: seq<Word>, w: Md5.Words): Md5.Words
    requires |x| == 16
  {
    var w := Quartet(F, x, w, 0, [0, 1, 2, 3], [7, 12, 17, 22]);
    var w := Quartet(F, x, w, 4, [4, 5, 6, 7], [7, 12, 17, 22]);
    var w := Quartet(F, x, w, 8, [8, 9, 10, 11], [7, 12, 17, 22]);
    Quartet(F, x, w, 12, [12, 13, 14, 15], [7, 12, 17, 22])
  }

  /** Round 2 of section 3.4. */
  function Round2(x: seq<Word>, w: Md5.Words): Md5.Words
    requires |x| == 16
  {
    var w := Quartet(G, x, w, 16, [1, 6, 11, 0], [5, 9, 14, 20]);
    var w := Quartet(G, x, w, 20, [5, 10, 15, 4], [5, 9, 14, 20]);
    var w := Quartet(G, x, w, 24, [9, 14, 3, 8], [5, 9, 14, 20]);
    Quartet(G, x, w, 28, [13, 2, 7, 12], [5, 9, 14, 20])
  }

  /** Round 3 of section 3.4. */
  function Round3(x: seq<Word>, w: Md5.Words): Md5.Words
    requires |x| == 16
  {
    var w := Quartet(H, x, w, 32, [5, 8, 11, 14], [4, 11, 16, 23]);
    var w := Quartet(H, x, w, 36, [1, 4, 7, 10], [4, 11, 16, 23]);
    var w := Quartet(H, x, w, 40, [13, 0, 3, 6], [4, 11, 16, 23]);
    Quartet(H, x, w, 44, [9, 12, 15, 2], [4, 11, 16, 23])
  }

  /** Round 4 of section 3.4. */
  function Round4(x: seq<Word>, w: Md5.Words): Md5.Words
    requires |x| == 16
  {
    var w := Quartet(I, x, w, 48, [0, 7, 14, 5], [6, 10, 15, 21]);
    var w := Quartet(I, x, w, 52, [12, 3, 10, 1], [6, 10, 15, 21]);
    var w := Quartet(I, x, w, 56, [8, 15, 6, 13], [6, 10, 15, 21]);
    Quartet(I, x, w, 60, [4, 11, 2, 9], [6, 10, 15, 21])
  }

  /** Processing one 16-word block: the four rounds, then each register
      incremented by its value before the block. */
  function Compress(state: Md5.Words, block: seq<Byte>): Md5.Words
    requires |block| == 64
  {
    var x := WordsOf(block);
    Md5.Add(state, Round4(x, Round3(x, Round2(x, Round1(x, state)))))
  }

  /** Every block of `data` in order, each chained from the previous state. */
  function Chain(state: Md5.Words, data: seq<Byte>): Md5.Words
    requires |data| % 64 == 0
    decreases |data|
  {
    if data == [] then state
    else
      NextBlock(|data|);
      Chain(Compress(state, data[..64]), data[64..])
  }

  lemma NextBlock(n: nat)
    requires n % 64 == 0 && n > 0
    ensures n >= 64 && (n - 64) % 64 == 0
  {
    var q := n / 64;
    assert n == 64 * q;
    assert n - 64 == 64 * (q - 1);
  }

  /** The message digest as the four registers after the last block. */
  function DigestWords(msg: seq<Byte>): Md5.Words {
    Chain(Md5.Initial, Pad(msg))
  }

  /** Section 3.5: A, B, C, D, each low-order byte first. */
  function Digest(msg: seq<Byte>): (r: seq<Byte>)
    ensures |r| == 16
  {
    Md5.WordsToBytes(DigestWords(msg))
  }
}

=== FILE: rsa.dfy ===
/** `kiv_bit_rsa/rsa/rsa.py`: key generation, and encryption and decryption
    of a byte string read as a big-endian integer: the integer-to-integer
    primitives RSAEP and RSADP of sections 5.1.1 and 5.1.2 of RFC 8017
    after the conversion OS2IP of section 4.2. Both return the integer
    result, as `rsa.py` does. */
module Rsa {
  import opened Wrappers
  import opened Bytes
  import opened Modular
  import opened Key
  import Math

  // ---------------------------------------------------------------------------
  // Octet strings and integers

  /** OS2IP, `int.from_bytes(b, 'big')`: the most significant byte first. */
  function Os2ip(b: seq<Byte>): (x: nat)
    ensures x < Pow256(|b|)
  {
    if b == [] then 0 else 256 * Os2ip(b[..|b| - 1]) + b[|b| - 1] as nat
  }

  /** The first byte of an octet string is its most significant digit: it
      weighs 256 to the power of the number of bytes after it. */
  lemma {:induction false} Os2ipLeadingByte(c: Byte, rest: seq<Byte>)
    ensures Os2ip([c] + rest) == c as nat * Pow256(|rest|) + Os2ip(rest)
  {
    if rest != [] {
      var b := [c] + rest;
      var init, last := rest[..|rest| - 1], rest[|rest| - 1] as nat;
      assert b[..|b| - 1] == [c] + init;
      Os2ipLeadingByte(c, init);
      var p, y := Pow256(|init|), Os2ip(init);
      assert Os2ip(b) == 256 * (c as int * p + y) + last;
      assert Os2ip(rest) == 256 * y + last && Pow256(|rest|) == 256 * p;
      ShiftDigit(c as int, p, y, last);
    }
  }

  /** Moving one base-256 digit up past the leading byte. */
  lemma ShiftDigit(c: int, p: int, y: int, last: int)
    ensures 256 * (c * p + y) + last == c * (256 * p) + (256 * y + last)
  {
  }

  /** I2OSP of section 4.1 of RFC 8017 (Python's `int.to_bytes(len, 'big')`),
      the inverse of OS2IP on `len` bytes. It writes a ciphertext as the byte
      string `decrypt` reads. */
  function I2osp(x: nat, len: nat): (b: seq<Byte>)
    requires x < Pow256(len)
    ensures |b| == len && Os2ip(b) == x
  {
    if len == 0 then []
    else
      var b := I2osp(x / 256, len - 1) + [ByteOf(x % 256)];
      assert b[..len - 1] == I2osp(x / 256, len - 1);
      b
  }

  /** A byte string is the I2OSP of its value at its own length. */
  lemma {:induction false} I2ospOfOs2ip(b: seq<Byte>)
    ensures I2osp(Os2ip(b), |b|) == b
  {
    if b != [] {
      var init, last := b[..|b| - 1], b[|b| - 1];
      var x, y := Os2ip(b), Os2ip(init);
      assert x == last as int + 256 * y;
      DivMod256(last as int, y);
      I2ospOfOs2ip(init);
      ByteOfValue(last);
      assert I2osp(x, |b|) == I2osp(y, |init|) + [ByteOf(last as int)];
      assert b == init + [last];
    }
  }

  // ---------------------------------------------------------------------------
  // encrypt and decrypt

  /** `encrypt(message, k)`: `OverflowError` unless the message value is below
      the modulus, then `pow(m, e, n)`; the integer form is `encrypt_int`. */
  function Encrypt(message: seq<Byte>, key: RsaKey): (r: Result<nat>)
    ensures r == EncryptInt(key, Os2ip(message))
    ensures r.Failure? <==> Os2ip(message) >= key.mod
  {
    var m := Os2ip(message);
    if m >= key.mod then Failure(TooBigForModulus) else Success(Pow(m, key.exp) % key.mod)
  }

  /** `decrypt(message, k)`: the same guard, then `pow(c, d, n)`. */
  function Decrypt(message: seq<Byte>, key: RsaKey): (r: Result<nat>)
    ensures r == DecryptInt(key, Os2ip(message))
    ensures r.Failure? <==> Os2ip(message) >= key.mod
  {
    var c := Os2ip(message);
    if c >= key.mod then Failure(TooBigForModulus) else Success(Pow(c, key.exp) % key.mod)
  }

  // ---------------------------------------------------------------------------
  // generate_keys

  /** The dictionary `{'private': ..., 'public': ...}`. */
  datatype KeyPair = KeyPair(privateKey: RsaKey, publicKey: RsaKey)

  /** What `generate_keys` establishes between the primes `p`, `q` and the
      keys: the shared modulus `p * q`, and exponents `e`, `d` below
      `x = (p - 1)(q - 1)` with `gcd(e, x) == 1` and `e * d == 1 (mod x)`. */
  predicate ValidKeys(p: nat, q: nat, kp: KeyPair) {
    var x := (p - 1) * (q - 1);
    var e, d := kp.publicKey.exp, kp.privateKey.exp;
    kp.publicKey.mod == p * q && kp.privateKey.mod == p * q
    && 1 <= e < x && Gcd(e, x) == 1
    && d < x && (e * d) % x == 1
  }

  /** The loop `while True: e = randint(1, x - 1)` that stops at the first
      draw coprime with `x`. */
  function FirstCoprime(x: nat, exponents: seq<nat>): (r: Result<nat>)
    requires x >= 2 && forall i :: 0 <= i < |exponents| ==> 1 <= exponents[i] <= x - 1
    ensures r.Success? ==> exists i :: (0 <= i < |exponents| && exponents[i] == r.value
      && Gcd(r.value, x) == 1 && forall j :: 0 <= j < i ==> Gcd(exponents[j], x) != 1)
    ensures r.Failure? <==> forall i :: 0 <= i < |exponents| ==> Gcd(exponents[i], x) != 1
    ensures r.Failure? ==> r.error == DrawsExhausted
  {
    if exponents == [] then Failure(DrawsExhausted)
    else if Gcd(exponents[0], x) == 1 then Success(exponents[0])
    else
      var r := FirstCoprime(x, exponents[1..]);
      assert forall j :: 1 <= j < |exponents| ==> exponents[j] == exponents[1..][j - 1];
      r
  }

  /** Every draw lies in `randint(1, x - 1)` for `x = (p - 1)(q - 1)`. */
  predicate InExponentRange(p: int, q: int, exponents: seq<nat>) {
    forall i :: 0 <= i < |exponents| ==> 1 <= exponents[i] <= (p - 1) * (q - 1) - 1
  }

  /** What lines 24 to 37 of `generate_keys` give back for the primes `p` and
      `q`: `randint` fails when `x = (p - 1)(q - 1)` leaves no draw, the draws
      run out when none is coprime to `x`, and otherwise the keys are valid and
      `e` is the first coprime draw. */
  ghost predicate KeysFor(p: nat, q: nat, exponents: seq<nat>, r: Result<KeyPair>)
    requires InExponentRange(p, q, exponents)
  {
    var x := (p - 1) * (q - 1);
    && (x < 2 ==> r == Failure(EmptyExponentRange))
    && (x >= 2 ==> (r.Failure? <==> FirstCoprime(x, exponents).Failure?))
    && (r.Success? ==> x >= 2 && ValidKeys(p, q, r.value)
                       && r.value.publicKey.exp == FirstCoprime(x, exponents).value)
  }

  /** Lines 24 to 37 of `generate_keys`, after the two primes are drawn. */
  method KeysFromPrimes(p: nat, q: nat, exponents: seq<nat>) returns (r: Result<KeyPair>)
    requires p >= 2 && q >= 2
    requires InExponentRange(p, q, exponents)
    ensures KeysFor(p, q, exponents, r)
    ensures r.Failure? ==> r.error in {EmptyExponentRange, DrawsExhausted}
  {
    var n := p * q;
    var x: nat := (p - 1) * (q - 1);
    if x < 2 {
      return Failure(EmptyExponentRange);
    }
    var e :- FirstCoprime(x, exponents);
    GcdCommutes(e, x);
    var d := Math.ModularInverse(e, x);
    return Success(KeyPair(RsaKey(d.value, n), RsaKey(e, n)));
  }

  /** The exponent draws lie in `randint(1, x - 1)` for the primes the prime
      draws produce. */
  predicate ExponentDraws(bits: nat, pDraws: seq<Math.Draw>, qDraws: seq<Math.Draw>, exponents: seq<nat>)
    requires Math.DrawsFor(bits, pDraws) && Math.DrawsFor(bits, qDraws)
  {
    var p := Math.RandomPrime(bits, Math.DefaultCertainty, pDraws);
    var q := Math.RandomPrime(bits, Math.DefaultCertainty, qDraws);
    p.Success? && q.Success? ==> InExponentRange(p.value, q.value, exponents)
  }

  /** `generate_keys(n_bits)` with the random draws given: `p` and `q` from
      `random_prime(n_bits // 2)`, then the keys. */
  method GenerateKeys(nBits: int, pDraws: seq<Math.Draw>, qDraws: seq<Math.Draw>, exponents: seq<nat>)
    returns (r: Result<KeyPair>)
    requires nBits >= 16 ==> Math.DrawsFor(nBits / 2, pDraws) && Math.DrawsFor(nBits / 2, qDraws)
    requires nBits >= 16 ==> ExponentDraws(nBits / 2, pDraws, qDraws, exponents)
    ensures nBits < 16 <==> r == Failure(KeyTooSmall)
    ensures r.Success? ==> (nBits >= 16
      && var p := Math.RandomPrime(nBits / 2, Math.DefaultCertainty, pDraws);
         var q := Math.RandomPrime(nBits / 2, Math.DefaultCertainty, qDraws);
         p.Success? && q.Success? && ValidKeys(p.value, q.value, r.value))
    ensures nBits >= 16 ==> var p := Math.RandomPrime(nBits / 2, Math.DefaultCertainty, pDraws);
      p.Failure? ==> r == Failure(p.error)
    ensures nBits >= 16 ==> var p := Math.RandomPrime(nBits / 2, Math.DefaultCertainty, pDraws);
      var q := Math.RandomPrime(nBits / 2, Math.DefaultCertainty, qDraws);
      p.Success? && q.Failure? ==> r == Failure(q.error)
    ensures nBits >= 16 ==> var p := Math.RandomPrime(nBits / 2, Math.DefaultCertainty, pDraws);
      var q := Math.RandomPrime(nBits / 2, Math.DefaultCertainty, qDraws);
      p.Success? && q.Success? ==> KeysFor(p.value, q.value, exponents, r)
  {
    if nBits < 16 {
      return Failure(KeyTooSmall);
    }
    var bits: nat := nBits / 2;
    var p :- Math.RandomPrime(bits, Math.DefaultCertainty, pDraws);
    var q :- Math.RandomPrime(bits, Math.DefaultCertainty, qDraws);
    r := KeysFromPrimes(p, q, exponents);
  }

  // ---------------------------------------------------------------------------
  // The round trip

  /** `(m^e)^d == m (mod pq)` for distinct primes when `e * d == 1` modulo
      `(p - 1)(q - 1)`: Fermat's little theorem for each prime, then the
      Chinese remainder step. */
  lemma PowerRoundTrip(p: nat, q: nat, e: nat, d: nat, m: int)
    requires Prime(p) && Prime(q) && p != q
    requires (p - 1) * (q - 1) > 1 && (e * d) % ((p - 1) * (q - 1)) == 1
    requires 0 <= m < p * q
    ensures Pow(Pow(m, e) % (p * q), d) % (p * q) == m
  {
    var n, x := p * q, (p - 1) * (q - 1);
    var ed: nat := e * d;
    var k: nat := ed / x;
    assert ed == x * k + 1;
    var kq: nat, kp: nat := k * (q - 1), k * (p - 1);
    Regroup(k, p - 1, q - 1);
    assert x * k == k * ((p - 1) * (q - 1));
    assert ed == kq * (p - 1) + 1 && ed == kp * (q - 1) + 1;
    PowMod(Pow(m, e), d, n);
    PowMul(m, e, d);
    FermatExponent(m, kq, p);
    FermatExponent(m, kp, q);
    var y := Pow(m, ed);
    ModSub(y, m, p);
    ModSub(y, m, q);
    MultipleOfBoth(y - m, p, q);
    ModSub(y, m, n);
    ModOfSmall(m, n);
  }

  lemma Regroup(k: int, a: int, b: int)
    ensures k * (a * b) == (k * b) * a == (k * a) * b
  {
  }

  /** With distinct primes, each key of a generated pair undoes the other on
      every integer below the modulus. */
  lemma ValidKeysRoundTrip(p: nat, q: nat, kp: KeyPair, m: int)
    requires Prime(p) && Prime(q) && p != q && ValidKeys(p, q, kp)
    requires 0 <= m < p * q
    ensures EncryptInt(kp.publicKey, m).Success? && EncryptInt(kp.privateKey, m).Success?
    ensures DecryptInt(kp.privateKey, EncryptInt(kp.publicKey, m).value) == Success(m)
    ensures DecryptInt(kp.publicKey, EncryptInt(kp.privateKey, m).value) == Success(m)
  {
    var e, d := kp.publicKey.exp, kp.privateKey.exp;
    PowerRoundTrip(p, q, e, d, m);
    assert d * e == e * d;
    PowerRoundTrip(p, q, d, e, m);
  }

  /** The same on byte strings: a ciphertext written in the modulus's
      `byte_size()` bytes decrypts to the message's value. */
  lemma DecryptOfEncrypt(p: nat, q: nat, kp: KeyPair, message: seq<Byte>)
    requires Prime(p) && Prime(q) && p != q && ValidKeys(p, q, kp)
    requires Os2ip(message) < p * q
    ensures Encrypt(message, kp.publicKey).Success?
    ensures var c := Encrypt(message, kp.publicKey).value;
      c < Pow256(ByteSize(kp.publicKey))
      && Decrypt(I2osp(c, ByteSize(kp.publicKey)), kp.privateKey) == Success(Os2ip(message))
  {
    ValidKeysRoundTrip(p, q, kp, Os2ip(message));
  }
}

=== FILE: signature.dfy ===
/** The signature record of `kiv_bit_rsa/sign/signature.py`: the digest of a
    signable object, encrypted with a key, together with the hash method
    used to compute it.

    The RSA object the code instantiates (`Rsa()`) is not part of this
    model, so its two operations are parameters: `encrypt` maps digest bytes
    and a key to a cipher (or fails), `decrypt` maps a cipher and a key back
    to bytes (or fails). A signable object is the bytes it reads, and its
    hash is a fresh MD5 object fed those bytes. */
module Sign {
  import opened Bytes
  import opened Wrappers
  import Md5

  /** The hash classes a signature may name; MD5 is the only one. */
  datatype HashClass = Md5Hash

  /** `signable.hash(hash_class).to_bytes()`: a fresh digest object fed the
      signable's bytes, then its 16-byte digest. */
  function Digest(hashClass: HashClass, signable: seq<Byte>): (r: Result<seq<Byte>>)
    ensures r.Success? ==> |r.value| == 16
    ensures r.Failure? <==> |signable| * 8 >= Md5.LengthLimit
  {
    match hashClass
    case Md5Hash => Md5.ToBytes(Md5.Update(Md5.Empty, signable))
  }

  /** `Signature(hash_class, digest_cipher)`; the fields are the properties
      `hash_method` and `hash_cipher`. */
  datatype Signature<C> = Signature(hashMethod: HashClass, hashCipher: C)

  /** `Signature.sign(signable, hash_class, key)`: hash, then encrypt the
      digest bytes. */
  function SignWith<K, C>(signable: seq<Byte>, hashClass: HashClass, key: K,
                          encrypt: (seq<Byte>, K) -> Result<C>): (r: Result<Signature<C>>)
    ensures r.Success? <==> (Digest(hashClass, signable).Success?
      && encrypt(Digest(hashClass, signable).value, key).Success?)
    ensures r.Success? ==> (r.value.hashMethod == hashClass
      && r.value.hashCipher == encrypt(Digest(hashClass, signable).value, key).value)
    ensures r.Failure? && Digest(hashClass, signable).Failure? ==>
      r.error == Digest(hashClass, signable).error
    ensures Digest(hashClass, signable).Success? && encrypt(Digest(hashClass, signable).value, key).Failure? ==>
      r == Failure(encrypt(Digest(hashClass, signable).value, key).error)
  {
    var h :- Digest(hashClass, signable);
    var cipher :- encrypt(h, key);
    Success(Signature(hashClass, cipher))
  }

  /** `signature.verify(signable, key)`: decrypt the cipher, then take the
      digest with the signature's method, and compare the two byte strings.
      Feeding the signable cannot fail; only `to_bytes()`, called after
      decryption, can, so a decryption error wins over a digest error. */
  function Verify<K, C>(sig: Signature<C>, signable: seq<Byte>, key: K,
                        decrypt: (C, K) -> Result<seq<Byte>>): (r: Result<bool>)
    ensures r.Success? <==> (Digest(sig.hashMethod, signable).Success?
      && decrypt(sig.hashCipher, key).Success?)
    ensures r.Success? ==>
      (r.value <==> decrypt(sig.hashCipher, key).value == Digest(sig.hashMethod, signable).value)
    ensures decrypt(sig.hashCipher, key).Failure? ==> r == Failure(decrypt(sig.hashCipher, key).error)
    ensures decrypt(sig.hashCipher, key).Success? && Digest(sig.hashMethod, signable).Failure? ==>
      r == Failure(Digest(sig.hashMethod, signable).error)
  {
    var digest :- decrypt(sig.hashCipher, key);
    var h :- Digest(sig.hashMethod, signable);
    Success(digest == h)
  }

  /** `decrypt` undoes `encrypt` on a pair of keys for every 16-byte digest. */
  ghost predicate RoundTrips<K, C>(encrypt: (seq<Byte>, K) -> Result<C>, decrypt: (C, K) -> Result<seq<Byte>>,
                             privateKey: K, publicKey: K)
  {
    forall b: seq<Byte> | |b| == 16 ::
      encrypt(b, privateKey).Success? ==> decrypt(encrypt(b, privateKey).value, publicKey) == Success(b)
  }

  /** A signature made with the private key verifies against the same
      signable with the public key. */
  lemma SignThenVerify<K, C>(signable: seq<Byte>, hashClass: HashClass, privateKey: K, publicKey: K,
                             encrypt: (seq<Byte>, K) -> Result<C>, decrypt: (C, K) -> Result<seq<Byte>>)
    requires RoundTrips(encrypt, decrypt, privateKey, publicKey)
    requires SignWith(signable, hashClass, privateKey, encrypt).Success?
    ensures Verify(SignWith(signable, hashClass, privateKey, encrypt).value, signable, publicKey, decrypt)
      == Success(true)
  {
    var h := Digest(hashClass, signable).value;
    assert |h| == 16;
    assert decrypt(encrypt(h, privateKey).value, publicKey) == Success(h);
  }

  /** A signature made over one signable, checked against a signable whose
      digest differs, is rejected. */
  lemma OtherDigestRejected<K, C>(signable: seq<Byte>, other: seq<Byte>, hashClass: HashClass,
                                  privateKey: K, publicKey: K,
                                  encrypt: (seq<Byte>, K) -> Result<C>, decrypt: (C, K) -> Result<seq<Byte>>)
    requires RoundTrips(encrypt, decrypt, privateKey, publicKey)
    requires SignWith(signable, hashClass, privateKey, encrypt).Success?
    requires Digest(hashClass, other).Success?
    requires Digest(hashClass, other).value != Digest(hashClass, signable).value
    ensures Verify(SignWith(signable, hashClass, privateKey, encrypt).value, other, publicKey, decrypt)
      == Success(false)
  {
    var h := Digest(hashClass, signable).value;
    assert |h| == 16;
    assert decrypt(encrypt(h, privateKey).value, publicKey) == Success(h);
  }
}

=== FILE: wrappers.dfy ===
/** Failure-compatible result and option types shared by every component.
    Each `Error` variant but `DrawsExhausted` stands for one place where the
    Python code raises; `Option` is a Python value that may be `None`. */
module Wrappers {

  datatype Error =
    /** `ValueError('certainty is out of range')` of `is_prime` */
    | CertaintyOutOfRange
    /** `ValueError` of `randrange(2, num - 1)` when that range is empty */
    | EmptyWitnessRange
    /** `ValueError('Key is too small')` of `generate_keys` */
    | KeyTooSmall
    /** `ValueError` of `randint(1, x - 1)` when that range is empty */
    | EmptyExponentRange
    /** `OverflowError` raised when an integer is not below the key modulus */
    | TooBigForModulus
    /** `struct.error` of `pack("<Q", ...)` when the bit count needs more than 64 bits */
    | LengthTooLarge
    /** `ValueError` of `pow(num, exp, 0)`: the modulus is zero */
    | ZeroModulus
    /** not an exception of the program: the random draws given to the model ran
        out while the program would keep drawing */
    | DrawsExhausted

  datatype Result<+T> = Success(value: T) | Failure(error: Error) {

    predicate IsFailure() {
      Failure?
    }

    function PropagateFailure<U>(): Result<U>
      requires Failure?
    {
      Failure(error)
    }

    function Extract(): T
      requires Success?
    {
      value
    }
  }

  datatype Option<+T> = None | Some(value: T)
}
